=== FILE: README.md ===
# Vocally billing, metering and desktop-shell core in Dafny

This project models the core of Vocally, a dictation app with a desktop client, a web site and a
set of Supabase edge functions. The model covers the following parts:

- **Members store.** The `members` table that every edge function reads and writes, as a map from
  user id to row. Upserts, updates by id or by subscription id, and single-row reads are
  modelled, with write failures that leave the table as it was.
- **Shared helpers.** The JSON reply helpers (`jsonResponse`, `errorResponse`) and the bearer-token
  user lookup.
- **Billing webhooks.** Polar signature verification (Standard Webhooks: the
  `"{id}.{timestamp}.{body}"` content, the `v1,` candidates and the secret prefix) and the Polar
  event routing: paid checkouts and active subscriptions promote, cancellations and revocations
  demote by subscription id, refunds demote. The Paddle webhook, with its `ts=…;h1=…` header.
- **Reconciliation.** Pages through Polar orders and makes every paying user "pro", never demoting
  anyone.
- **Payment endpoints.** The Paddle and PortOne payment verification endpoints, and the Polar
  checkout and customer-portal endpoints.
- **Metering.** The transcription endpoint (word counting and the monthly cap) and the
  text-generation endpoint (model choice and token accounting).
- **Members and profiles endpoints.** `member-init`, `member-get`, `user-set` and `user-get`.
- **Plan limits.** The limits of `config.types.ts`.
- **Desktop client.** The member helpers (effective plan, display name, paying, over the limit),
  the price tables, the pricing dialog actions, and the overlay windows: the URL each loads, the
  create-once `ensure_*` functions, and the pill's hover/expand state machine. Also the choice of
  React root from the page's query, and the Kakao sign-in loopback server: request parsing,
  responses and the accept loop.
- **Web site.** The pricing section (billing toggle and price display), the downloads page logic
  (classifying release assets into manifest keys, normalizing release tags, ordering the download
  list, picking a URL per platform, detecting the platform), and the locale choice.

Every operation is a pure function over immutable datatypes; the accept loop is a method with a
loop invariant. I/O is passed in as data or as function-typed parameters:

- Supabase, fetch replies and `Deno.env`.
- HMAC and base64.
- The `url` crate's parser.
- `localeCompare`.
- The Mac architecture probe.
- Whether a socket write succeeded.

An uncaught exception in a handler is the outcome `Crashed`: the runtime, not the function,
answers it.

Behaviour worth noting:

- No grace period keeps a canceled Polar subscription "pro": `subscription.canceled` demotes.
- The webhook secret is used in one encoding only, with no retry over other decodings.
- Polar events and orders take the user id from their own `metadata.supabase_user_id`, then
  from their customer's. No longer fallback chain exists.
- Malformed webhook JSON is not answered with 400: `JSON.parse` throws.
- Write failures in the webhooks are not reported: the reply is still 200.

## Model

| member | source | states |
|---|---|---|
| Http.JsonResponse | dev_poc/poc-4-edge-function/supabase/functions/_shared/response.ts:3-8 | a JSON reply carries the given status (200 by default) and body, with the JSON content type and the CORS headers |
| Http.ErrorResponse | dev_poc/poc-4-edge-function/supabase/functions/_shared/response.ts:10-15 | an error reply has the given status (400 by default) and a body whose only key is `error`, holding the message |
| Http.ResponseDefaults | dev_poc/poc-4-edge-function/supabase/functions/_shared/response.ts:3-15 | the message of an error reply reads back from its body; the default statuses are 400 and 200 |
| Http.EnvValue | dev_poc/poc-4-edge-function/supabase/functions/polar-webhook/index.ts:87-88 | an environment variable counts as configured exactly when it is set and non-empty, and then its value is returned |
| Http.BearerTokenSpec | dev_poc/poc-4-edge-function/supabase/functions/_shared/auth.ts:4-8 | `Http.BearerToken` (the token `getUser` strips from the header) yields a token iff the header starts with "Bearer " (case and single space included), and "Bearer " followed by the token gives the header back |
| Http.GetUser | dev_poc/poc-4-edge-function/supabase/functions/_shared/auth.ts:3-13 | without an Authorization header there is no user; any user returned is the auth service's answer for the header's bearer token |
| Crypto.SameBytesIsEquality | dev_poc/poc-4-edge-function/supabase/functions/polar-webhook/index.ts:33-36 | the length check followed by `timingSafeEqual` accepts exactly equal byte strings |
| Members.ApplyThen | dev_poc/poc-4-edge-function/supabase/functions/polar-webhook/index.ts:117-126 | two updates in turn are one update in which the second's columns override the first's, and an update naming no column leaves the row as it was |
| Members.ApplyIdempotent | dev_poc/poc-4-edge-function/supabase/functions/polar-webhook/index.ts:117-126 | writing the same columns twice leaves the row as writing them once |
| Members.InsertIfAbsent | dev_poc/poc-4-edge-function/supabase/functions/polar-webhook/index.ts:44-63 | an upsert that ignores duplicates keeps an existing row untouched, otherwise inserts a fresh row with the given columns, and changes no other row |
| Members.Upsert | dev_poc/poc-4-edge-function/supabase/functions/polar-reconcile/index.ts:89-106 | an upsert on `id` writes the given columns over the existing row or a fresh one, and changes no other row |
| Members.UpdateById | dev_poc/poc-4-edge-function/supabase/functions/polar-webhook/index.ts:126 | `update(...).eq("id", id)` changes only that row, and creates none when the id is unknown |
| Members.UpdateWhereIdempotent | dev_poc/poc-4-edge-function/supabase/functions/polar-webhook/index.ts:157-161 | `update(...).eq(column, value)` run twice leaves the table as running it once, even when the update rewrites the column it filters on |
| Members.RowSettles | dev_poc/poc-4-edge-function/supabase/functions/polar-webhook/index.ts:157-161 | a row the filtered update has written is, on a second run, either out of the filter or written the same again |
| Members.UpdateWhereOneRow | dev_poc/poc-4-edge-function/supabase/functions/polar-webhook/index.ts:157-161 | when exactly one row holds the subscription, the filtered update is the update of that row by id |
| Members.UpdateWhereNoRow | dev_poc/poc-4-edge-function/supabase/functions/polar-webhook/index.ts:157-161 | when no row holds the subscription, the filtered update changes nothing |
| Members.ReadSingle | dev_poc/poc-4-edge-function/supabase/functions/member-get/index.ts:17-21 | `.single()` returns the row when it exists, a "no rows" error when it does not, and the database's error when the read fails |
| PolarWebhook.StripSecretPrefix | dev_poc/poc-4-edge-function/supabase/functions/polar-webhook/index.ts:17 | a leading "whsec_" (else "polar_whs_") is removed and nothing else; the secret is unchanged iff it has neither prefix |
| PolarWebhook.ScanSpec | dev_poc/poc-4-edge-function/supabase/functions/polar-webhook/index.ts:25-41 | the loop over signature tokens accepts iff some "v1" token matches before any bare "v1" token, and throws iff a bare "v1" token comes first |
| PolarWebhook.VerifySignature | dev_poc/poc-4-edge-function/supabase/functions/polar-webhook/index.ts:11-15 | a missing or empty webhook-id, webhook-timestamp or webhook-signature header makes the signature invalid |
| PolarWebhook.VerifyValidIff | dev_poc/poc-4-edge-function/supabase/functions/polar-webhook/index.ts:6-42 | with the three headers present, the signature is valid iff some "v1" token carries the base64 HMAC-SHA256 of "id.timestamp.body" under the prefix-stripped base64 secret before any bare "v1" token |
| PolarWebhook.ExtractUserId | dev_poc/poc-4-edge-function/supabase/functions/polar-webhook/index.ts:65-80 | the user id is a truthy `data.metadata.supabase_user_id`, else a truthy `data.customer.metadata.supabase_user_id`, else none; none without a truthy `data` |
| PolarWebhook.Handle | dev_poc/poc-4-edge-function/supabase/functions/polar-webhook/index.ts:82-94 | non-POST gives 405, a missing secret 500, a bad signature 401, each with the table unchanged; every reply is 200, 401, 405 or 500 |
| PolarWebhook.ResponseIgnoresFaults | dev_poc/poc-4-edge-function/supabase/functions/polar-webhook/index.ts:115-172 | the reply does not depend on whether the database accepted the writes |
| PolarWebhook.VerifiedIsReceived | dev_poc/poc-4-edge-function/supabase/functions/polar-webhook/index.ts:96-172 | a verified, parsed event is answered `{ received: true }` unless it is a cancellation or revocation without `data`, which throws |
| PolarWebhook.RouteThrowsExactly | dev_poc/poc-4-edge-function/supabase/functions/polar-webhook/index.ts:150-157 | `PolarWebhook.Route` (the event switch) throws exactly for a cancellation or revocation whose `data` is missing, whatever the database does |
| PolarWebhook.PromoteEffect | dev_poc/poc-4-edge-function/supabase/functions/polar-webhook/index.ts:113-126 | a promotion leaves an existing row as it was except plan "pro", trial off and the subscription id when one is given; a new row is the column defaults with plan "pro", the given subscription id and zero usage; no other row is touched |
| PolarWebhook.PromotionEvents | dev_poc/poc-4-edge-function/supabase/functions/polar-webhook/index.ts:102-148 | a succeeded checkout.updated, an order.created and a subscription.active with a user id promote that user, the first two with `subscription_id` and the last with `data.id` |
| PolarWebhook.UnpaidCheckoutIgnored | dev_poc/poc-4-edge-function/supabase/functions/polar-webhook/index.ts:103-111 | a checkout.updated not succeeded, and a promotion event without a user id, change nothing |
| PolarWebhook.CancellationEffect | dev_poc/poc-4-edge-function/supabase/functions/polar-webhook/index.ts:150-163 | a cancellation or revocation turns exactly the rows holding that subscription into the same rows with plan "free" and the subscription cleared, and leaves every other row as it was |
| PolarWebhook.RefundEffect | dev_poc/poc-4-edge-function/supabase/functions/polar-webhook/index.ts:165-170 | a refund sets plan "free" on the user's row alone and nothing else |
| PolarWebhook.OtherEventsChangeNothing | dev_poc/poc-4-edge-function/supabase/functions/polar-webhook/index.ts:102-172 | an event type the handler does not route leaves the table as it was |
| PolarWebhook.ReplayIdempotent | dev_poc/poc-4-edge-function/supabase/functions/polar-webhook/index.ts:82-173 | delivering the same request a second time leaves the table as the first delivery left it |
| PolarWebhook.RouteIdempotent | dev_poc/poc-4-edge-function/supabase/functions/polar-webhook/index.ts:102-170 | `PolarWebhook.Route` applied twice to the same event leaves the table as applying it once |
| PolarWebhook.RouteCancelIdempotent | dev_poc/poc-4-edge-function/supabase/functions/polar-webhook/index.ts:150-163 | cancelling the same subscription twice is cancelling it once |
| PolarWebhook.RouteRefundIdempotent | dev_poc/poc-4-edge-function/supabase/functions/polar-webhook/index.ts:165-170 | refunding the same user twice is refunding once |
| PolarWebhook.PromoteIdempotent | dev_poc/poc-4-edge-function/supabase/functions/polar-webhook/index.ts:115-126 | promoting the same user twice is promoting once |
| PolarWebhook.PromoteUnfaulted | dev_poc/poc-4-edge-function/supabase/functions/polar-webhook/index.ts:113-126 | with every write accepted, a promotion creates the member when absent and then applies the promoting update |
| PaddleWebhook.ScanNoKey | dev_poc/poc-4-edge-function/supabase/functions/paddle-webhook/index.ts:7-15 | when no `;`-separated part has the key, the value read stays the initial "" |
| PaddleWebhook.ScanLastWins | dev_poc/poc-4-edge-function/supabase/functions/paddle-webhook/index.ts:7-15 | the value read for "ts" or "h1" is that of the last `;`-separated part with that key (undefined when that part has no "=") |
| PaddleWebhook.VerifySignature | dev_poc/poc-4-edge-function/supabase/functions/paddle-webhook/index.ts:6-30 | the signature is valid iff both "ts" and "h1" are non-empty and the UTF-8 bytes of the hex HMAC-SHA256 of "ts:body" under the secret equal those of "h1" |
| PaddleWebhook.Handle | dev_poc/poc-4-edge-function/supabase/functions/paddle-webhook/index.ts:32-83 | a missing signature header gives 401, a missing secret 500, a bad signature 401; a verified request is answered `{ received: true }` iff its body parses to a non-null value; any other reply leaves the table unchanged |
| PaddleWebhook.CompletedWithoutUser | dev_poc/poc-4-edge-function/supabase/functions/paddle-webhook/index.ts:48-54 | a transaction.completed without a truthy `data.custom_data.userId` changes nothing |
| PaddleWebhook.CompletedIsUpdateOnly | dev_poc/poc-4-edge-function/supabase/functions/paddle-webhook/index.ts:48-69 | `PaddleWebhook.Route` on a transaction.completed leaves an existing user's row as it was except plan "pro", trial off and the Paddle subscription id when one is given; it creates no row and touches no other row |
| PaddleWebhook.CanceledKeepsSubscription | dev_poc/poc-4-edge-function/supabase/functions/paddle-webhook/index.ts:71-80 | a subscription.canceled sets plan "free" on exactly the rows holding that Paddle subscription and keeps their subscription id |
| PaddleWebhook.OtherEventsChangeNothing | dev_poc/poc-4-edge-function/supabase/functions/paddle-webhook/index.ts:48-82 | any other event type leaves the table as it was |
| PaddleWebhook.RouteIdempotent | dev_poc/poc-4-edge-function/supabase/functions/paddle-webhook/index.ts:45-80 | `PaddleWebhook.Route` applied twice to the same event leaves the table as applying it once |
| MemberEndpoints.Init | dev_poc/poc-4-edge-function/supabase/functions/member-init/index.ts:7-35 | a preflight is answered by CORS, no user gives 401, a refused write gives 500 with the database's message and no change, otherwise `{}` with the user's row inserted if absent |
| MemberEndpoints.InitEffect | dev_poc/poc-4-edge-function/supabase/functions/member-init/index.ts:16-30 | after member-init the user has a row; an existing row is kept as it was, a new one is a "user" on plan "free", off trial, with zero usage and no subscription; other rows are untouched |
| MemberEndpoints.InitIdempotent | dev_poc/poc-4-edge-function/supabase/functions/member-init/index.ts:16-34 | calling member-init a second time answers and leaves the table as the first call did |
| MemberEndpoints.ProjectionKeysDistinct | dev_poc/poc-4-edge-function/supabase/functions/member-get/index.ts:28-44 | the member object's fifteen keys are pairwise distinct |
| MemberEndpoints.ProjectionCopiesColumns | dev_poc/poc-4-edge-function/supabase/functions/member-get/index.ts:28-44 | the member object has exactly the fifteen camel-case keys, each holding the value of its snake-case column |
| MemberEndpoints.RowHasColumns | dev_poc/poc-4-edge-function/supabase/functions/member-get/index.ts:16-20 | every column the projection reads is present in a selected row |
| MemberEndpoints.SubscriptionsNotProjected | dev_poc/poc-4-edge-function/supabase/functions/member-get/index.ts:28-44 | neither subscription id column is exposed to the client |
| MemberEndpoints.Get | dev_poc/poc-4-edge-function/supabase/functions/member-get/index.ts:7-47 | a preflight is answered by CORS, no user gives 401, a read error other than "no rows" gives 500 with its message, otherwise `{ member }` with the projected row or `null` when there is none |
| MemberEndpoints.InitThenGet | dev_poc/poc-4-edge-function/supabase/functions/member-init/index.ts:16-34 | member-init followed by member-get returns the new user's projected row: plan "free", off trial, zero usage |
| PaymentVerify.PaddleBaseUrl | dev_poc/poc-4-edge-function/supabase/functions/paddle-verify/index.ts:20-23 | the Paddle API is the production host exactly when PADDLE_ENVIRONMENT is "production", the sandbox host otherwise (unset or empty included) |
| PaymentVerify.RequestedId | dev_poc/poc-4-edge-function/supabase/functions/paddle-verify/index.ts:14-15 | an id is read exactly when the body parses and its `transactionId` (PortOne: `paymentId`) field is truthy, and it is that field |
| PaymentVerify.Handle | dev_poc/poc-4-edge-function/supabase/functions/paddle-verify/index.ts:7-54 | preflight, 401, the missing-id 400 and the missing-secret 500 come first; the provider is asked only past them, about the requested id; the reply is `{ success: true }` iff the provider confirms and the write succeeds, and only then is the caller's row promoted (the PortOne handler, portone-verify/index.ts, differs only in names, URL, header and accepted status) |
| PaymentVerify.AcceptedStatusesExact | dev_poc/poc-4-edge-function/supabase/functions/paddle-verify/index.ts:37-39 | Paddle accepts exactly the statuses "completed" and "paid"; PortOne exactly "PAID" (portone-verify/index.ts line 32) |
| PaymentVerify.UnconfirmedWritesNothing | dev_poc/poc-4-edge-function/supabase/functions/portone-verify/index.ts:26-38 | a payment the provider does not confirm never changes the table and never succeeds |
| PaymentVerify.PromotesOnlyCaller | dev_poc/poc-4-edge-function/supabase/functions/portone-verify/index.ts:38-44 | only the caller's row can change, and then only to plan "pro" with trial off; no row is created |
| PaymentVerify.VerifyIdempotent | dev_poc/poc-4-edge-function/supabase/functions/paddle-verify/index.ts:41-53 | verifying the same payment a second time leaves the table as the first did |
| PolarCheckout.Gate | dev_poc/poc-4-edge-function/supabase/functions/polar-checkout/index.ts:9-20 | the checks come in order (preflight, then 405 for a non-POST, then 401 without a user, then 500 without POLAR_ACCESS_TOKEN), and a request passes iff it clears all four |
| PolarCheckout.CheckoutPayload | dev_poc/poc-4-edge-function/supabase/functions/polar-checkout/index.ts:34-43 | the checkout body has the seven fixed keys, plus `customer_email` exactly when the caller has a non-empty email; it carries the caller's id as `external_customer_id` and as `metadata.supabase_user_id` |
| PolarCheckout.Checkout | dev_poc/poc-4-edge-function/supabase/functions/polar-checkout/index.ts:8-63 | past the gates, an unparseable body gives 400 "Invalid JSON body" and a falsy `productId` gives 400 "productId is required"; anything posted is the checkout body for the caller's product and locale (default "en"), sent with the caller's bearer token, and the reply is the one CheckoutResponse gives for Polar's answer |
| PolarCheckout.CheckoutResponse | dev_poc/poc-4-edge-function/supabase/functions/polar-checkout/index.ts:54-62 | a rejected fetch throws; a refusal gives 502 "Failed to create checkout: " followed by Polar's status; an unparseable reply throws; otherwise 200 with `checkoutUrl` holding the reply's `url`, or `{}` when the reply has none |
| PolarCheckout.LocaleDefault | dev_poc/poc-4-edge-function/supabase/functions/polar-checkout/index.ts:32 | a missing or empty locale becomes "en"; a non-empty string locale is kept |
| PolarCheckout.CheckoutMetadataIdentifiesCaller | dev_poc/poc-4-edge-function/supabase/functions/polar-checkout/index.ts:39 | an event carrying the checkout's metadata is attributed by polar-webhook to the caller who started the checkout |
| PolarCheckout.PortalPayload | dev_poc/poc-4-edge-function/supabase/functions/polar-portal/index.ts:33-38 | the session body names the caller and has `return_url` exactly for a non-empty return URL, and no other key |
| PolarCheckout.PortalResponse | dev_poc/poc-4-edge-function/supabase/functions/polar-portal/index.ts:40-67 | a rejected fetch throws, a refusal gets the fallback, an unparseable reply throws; on a parsed reply a truthy portal URL is answered 200 with exactly that `portalUrl`, a falsy one 502 "Customer portal URL missing from response" |
| PolarCheckout.Portal | dev_poc/poc-4-edge-function/supabase/functions/polar-portal/index.ts:8-68 | a session is requested iff the gates pass; it names the caller and includes `return_url` exactly when the body gives a non-empty string `returnUrl`; a refused request is answered by the fallback |
| PolarCheckout.ReturnUrl | dev_poc/poc-4-edge-function/supabase/functions/polar-portal/index.ts:23-31 | a return URL is taken only from a body that parses and has a string `returnUrl`; an unparseable body gives none |
| PolarCheckout.PortalFallback | dev_poc/poc-4-edge-function/supabase/functions/polar-portal/index.ts:49-56 | with POLAR_PORTAL_URL configured the reply is that URL marked `fallback: true`; otherwise 502 |
| PolarCheckout.PortalUrl | dev_poc/poc-4-edge-function/supabase/functions/polar-portal/index.ts:59-61 | the portal URL is `customer_portal_url` unless that is null or missing, then `customerPortalUrl`; reading from a null reply throws |
| PolarCheckout.PortalUrlPreference | dev_poc/poc-4-edge-function/supabase/functions/polar-portal/index.ts:59-67 | a non-null `customer_portal_url` is the URL answered (or the 502 when it is falsy) whatever `customerPortalUrl` holds; only when it is null or missing does a truthy `customerPortalUrl` become the `portalUrl` |
| PolarReconcile.ExtractUserId | dev_poc/poc-4-edge-function/supabase/functions/polar-reconcile/index.ts:27-32 | the user id is a non-empty `metadata.supabase_user_id` of the order, else that of its customer's metadata, else none |
| PolarReconcile.ProcessOrder | dev_poc/poc-4-edge-function/supabase/functions/polar-reconcile/index.ts:73-144 | each order is counted; an order without a user id only adds the "no supabase_user_id" error; otherwise at most the user's row changes, always to "pro" off trial, and a user is added to the reconciled list only when its row is "pro" afterwards and, if its read succeeded, was missing or not "pro" before |
| PolarReconcile.ProcessOrders | dev_poc/poc-4-edge-function/supabase/functions/polar-reconcile/index.ts:73-144 | the order counter grows by the number of orders on the page |
| PolarReconcile.Handle | dev_poc/poc-4-edge-function/supabase/functions/polar-reconcile/index.ts:34-160 | preflight, then 405 for a non-POST, then 401 without a user, then 500 without POLAR_ACCESS_TOKEN, each leaving the table unchanged, before any page is fetched; past them the reply follows how `PolarReconcile.ScanPages` ends: a finished scan answers 200 with its report (`totalOrders`, `totalReconciled`, `reconciledUserIds`, `errors`) and the scan's table, a refused listing answers 502 "Polar API error: " and the status, and a page whose `items` or `pagination` cannot be read throws, each keeping the writes made before |
| PolarReconcile.ProcessOrderInv | dev_poc/poc-4-edge-function/supabase/functions/polar-reconcile/index.ts:73-144 | one order keeps the scan invariant (counter equals list length, no row lost, plans change only to "pro", every reconciled user is "pro") and, with reliable reads, the no-duplicates invariant |
| PolarReconcile.ProcessOrderKeepsInv | dev_poc/poc-4-edge-function/supabase/functions/polar-reconcile/index.ts:73-144 | one order keeps the counter equal to the id list, keeps every row, and only ever sets plans to "pro" |
| PolarReconcile.ProcessOrderKeepsReliableInv | dev_poc/poc-4-edge-function/supabase/functions/polar-reconcile/index.ts:73-144 | with reliable reads one order adds an id only when it is new to the list and was not "pro" at the start |
| PolarReconcile.ProcessOrdersInv | dev_poc/poc-4-edge-function/supabase/functions/polar-reconcile/index.ts:73-144 | a whole page of orders keeps both invariants |
| PolarReconcile.ScanPagesInv | dev_poc/poc-4-edge-function/supabase/functions/polar-reconcile/index.ts:56-148 | every way `PolarReconcile.ScanPages`, the paging loop, ends (finished, aborted on a failed fetch, thrown on a bad listing or a page without `pagination`) leaves a table the invariant describes |
| PolarReconcile.NeverDemotes | dev_poc/poc-4-edge-function/supabase/functions/polar-reconcile/index.ts:34-160 | the endpoint never removes a row and never changes a plan except to "pro", however the scan ends |
| PolarReconcile.ReportConsistent | dev_poc/poc-4-edge-function/supabase/functions/polar-reconcile/index.ts:150-159 | in a finished scan `totalReconciled` equals the length of `reconciledUserIds` and each listed user is "pro"; with reliable reads no user is listed twice and only users that were missing or not "pro" are listed |
| PolarReconcile.FailedReadRecreates | dev_poc/poc-4-edge-function/supabase/functions/polar-reconcile/index.ts:82-117 | when the member read fails, an existing row (even a "pro" one) is upserted afresh with zero usage and the user is counted as reconciled |
| PolarReconcile.ProMemberSkipped | dev_poc/poc-4-edge-function/supabase/functions/polar-reconcile/index.ts:120-143 | an existing "pro" member read back reliably is neither written nor reported; only the order counter moves |
| PolarReconcile.FirstPageEnds | dev_poc/poc-4-edge-function/supabase/functions/polar-reconcile/index.ts:71-147 | a first page that is empty, or whose `max_page` is a number at most 1, ends the scan after one request |
| PolarReconcile.MissingPaginationThrowsAfterWrites | dev_poc/poc-4-edge-function/supabase/functions/polar-reconcile/index.ts:68-146 | a first page with orders but no `pagination` object throws after its orders were processed: the writes stay and no report is sent |
| PolarReconcile.NoMaxPageContinues | dev_poc/poc-4-edge-function/supabase/functions/polar-reconcile/index.ts:146-147 | a page whose `pagination` has no `max_page` never ends the loop, because `page >= undefined` is false: the next page is requested |
| PolarReconcile.ProcessOrdersAppend | dev_poc/poc-4-edge-function/supabase/functions/polar-reconcile/index.ts:56-148 | processing two pages in turn is processing their concatenation |
| PolarReconcile.FinishedCountsOrders | dev_poc/poc-4-edge-function/supabase/functions/polar-reconcile/index.ts:74 | a scan that `PolarReconcile.ScanPages` finishes has a `totalOrders` that is the number of orders on the pages it read, and its tally is that of processing them in order |
| PolarReconcile.ProcessOrdersKeepsPro | dev_poc/poc-4-edge-function/supabase/functions/polar-reconcile/index.ts:120 | a row that is "pro" stays "pro" through any later orders |
| PolarReconcile.ProcessOrdersMakesPro | dev_poc/poc-4-edge-function/supabase/functions/polar-reconcile/index.ts:88-143 | with reads and writes succeeding, every processed order's user ends with a "pro" row |
| PolarReconcile.ProcessOrdersAllProIsQuiet | dev_poc/poc-4-edge-function/supabase/functions/polar-reconcile/index.ts:120 | orders whose users all have "pro" rows reconcile nobody and write nothing |
| PolarReconcile.SecondRunIsQuiet | dev_poc/poc-4-edge-function/supabase/functions/polar-reconcile/index.ts:56-148 | after a finished scan without failures, scanning the same orders again reconciles nobody and leaves the table as it was |
| PolarReconcile.SameStopPage | dev_poc/poc-4-edge-function/supabase/functions/polar-reconcile/index.ts:71-147 | whether the scan finishes depends only on the listing replies, not on what was written |
| Transcribe.JsSpacesExact | dev_poc/poc-4-edge-function/supabase/functions/transcribe/index.ts:8 | the whitespace set used for splitting is exactly the characters JavaScript's `\s` matches |
| Transcribe.SplitCountsWordStarts | dev_poc/poc-4-edge-function/supabase/functions/transcribe/index.ts:8 | splitting on whitespace and dropping empty pieces leaves one piece per maximal run of non-whitespace characters |
| Transcribe.FirstPieceNonEmpty | dev_poc/poc-4-edge-function/supabase/functions/transcribe/index.ts:8 | the first piece of the split is non-empty exactly when the text starts with a non-whitespace character |
| Transcribe.TrimStartKeepsWordStarts | dev_poc/poc-4-edge-function/supabase/functions/transcribe/index.ts:8 | trimming leading whitespace does not change the number of words |
| Transcribe.SpaceSuffixKeepsWordStarts | dev_poc/poc-4-edge-function/supabase/functions/transcribe/index.ts:8 | trailing whitespace starts no word, so trimming it does not change the count |
| Transcribe.AllSpaceNoWordStarts | dev_poc/poc-4-edge-function/supabase/functions/transcribe/index.ts:8 | text made only of whitespace has no words |
| Transcribe.CountWordsIsWordStarts | dev_poc/poc-4-edge-function/supabase/functions/transcribe/index.ts:7-9 | `Transcribe.CountWords` (`countWords`) equals the number of maximal runs of non-whitespace characters, an independent definition of a word |
| Transcribe.CountWordsZero | dev_poc/poc-4-edge-function/supabase/functions/transcribe/index.ts:7-9 | a text counts zero words exactly when it is all whitespace (the empty text included) |
| Transcribe.SomeWordStart | dev_poc/poc-4-edge-function/supabase/functions/transcribe/index.ts:7-9 | a text with any non-whitespace character has at least one word |
| Transcribe.MimeToExt | dev_poc/poc-4-edge-function/supabase/functions/transcribe/index.ts:11-23 | a MIME type in the table gets its extension; a MIME type naming a method every object inherits (`toString`, `constructor`, ...) gets that method's source text, as the template literal renders it; any other gets "wav"; the result is one of the six extensions exactly when the MIME type is not such a name |
| Transcribe.MimeTable | dev_poc/poc-4-edge-function/supabase/functions/transcribe/index.ts:12-21 | the eight table entries map to wav, wav, wav, webm, mp4, mp3, ogg and flac |
| Transcribe.MonthlyWordCap | dev_poc/poc-4-edge-function/supabase/functions/transcribe/index.ts:52 | the monthly cap is the pro limit for plan "pro" and the free limit for any other plan |
| Transcribe.RequestForm | dev_poc/poc-4-edge-function/supabase/functions/transcribe/index.ts:62-69 | the file type defaults to "audio/wav" and the file name is "audio." plus the type's extension; the language defaults to "ko"; a prompt is sent exactly when truthy; the model is fixed |
| Transcribe.Handle | dev_poc/poc-4-edge-function/supabase/functions/transcribe/index.ts:25-99 | preflight, 401, a body that fails to parse (500), 400 without audio, 500 without a key, 403 without a member row, and 429 exactly when the month's words reach the cap come before any transcription; the provider gets the form the body describes; usage is recorded exactly on a 200 reply, for the caller, as the transcript's word count and zero tokens |
| Transcribe.Transcribed | dev_poc/poc-4-edge-function/supabase/functions/transcribe/index.ts:80-95 | a refused transcription gives 502 with the status and text; usage is recorded exactly on success, as the transcript's word count |
| Transcribe.MissingTextCountsZero | dev_poc/poc-4-edge-function/supabase/functions/transcribe/index.ts:86-95 | a reply without `text` answers "" and records zero words |
| GenerateText.ResolveModel | dev_poc/poc-4-edge-function/supabase/functions/generate-text/index.ts:38 | the model is the large one exactly when the requested name renders as "large"; a name that is an inherited method gives no model, so the request omits `model`; anything else, absent or empty included, gets the medium model |
| GenerateText.ResolveModelCases | dev_poc/poc-4-edge-function/supabase/functions/generate-text/index.ts:7-10 | absent, null and empty names give the medium model; a string name gives the large model iff it is "large", no model iff it is an inherited method, and the medium model otherwise |
| GenerateText.Messages | dev_poc/poc-4-edge-function/supabase/functions/generate-text/index.ts:40-44 | the messages are the system message when `system` is truthy, followed by the user's prompt |
| GenerateText.Defined | dev_poc/poc-4-edge-function/supabase/functions/generate-text/index.ts:55-62 | only the fields that are defined appear in the serialized object |
| GenerateText.RequestBody | dev_poc/poc-4-edge-function/supabase/functions/generate-text/index.ts:46-63 | the request has temperature 1, max_completion_tokens 1024 and top_p 1, the resolved model, and a `response_format` exactly when `jsonResponse` is truthy |
| GenerateText.Handle | dev_poc/poc-4-edge-function/supabase/functions/generate-text/index.ts:12-105 | preflight, 401, a body that fails to parse (500), 400 without a prompt, 500 without a key and 403 without a member row come first; the request sent is built from the body and only past every gate; the table changes only after a request was sent |
| GenerateText.Generate | dev_poc/poc-4-edge-function/supabase/functions/generate-text/index.ts:65-101 | the request built is the one sent, and a write happens only on a 200 and touches only the caller's row, growing its token counters by one amount |
| GenerateText.OnlyCallerCountersWritten | dev_poc/poc-4-edge-function/supabase/functions/generate-text/index.ts:12-105 | the handler changes the table only when it answers 200, and then only the caller's row, by a token patch |
| GenerateText.Completed | dev_poc/poc-4-edge-function/supabase/functions/generate-text/index.ts:77-89 | a refused call gives 502 with status and text; no choices (or an empty list) gives 502 "No response from Groq"; a text is returned only for an ok reply |
| GenerateText.TokensGrowByUsage | dev_poc/poc-4-edge-function/supabase/functions/generate-text/index.ts:91-99 | a completion using n tokens adds n to each of the three token counters and changes nothing else; n = 0 leaves the row unchanged |
| GenerateText.CompletedReadsFirstChoice | dev_poc/poc-4-edge-function/supabase/functions/generate-text/index.ts:88-89 | a reply with one choice yields that choice's content and the reported token count |
| GenerateText.SuccessfulCompletion | dev_poc/poc-4-edge-function/supabase/functions/generate-text/index.ts:65-101 | end to end, a reply with one choice answers its content and adds its token count to the caller's counters |
| Limits.ConfigValues | packages/types/src/config.types.ts:12-27 | the shipped limits: 500 and 100000 words a month, eighteen tokens per word, per-day limits at 2^53 - 1 |
| Limits.ProExceedsFree | packages/types/src/config.types.ts:12-16 | the pro monthly word and token limits exceed the free ones |
| Profiles.WhitelistInjective | dev_poc/poc-4-edge-function/supabase/functions/user-set/index.ts:7-24 | the sixteen writable fields have distinct names and distinct columns, and none of them is `id` |
| Profiles.WhitelistedSpec | dev_poc/poc-4-edge-function/supabase/functions/user-set/index.ts:38-42 | for a table of distinct columns, a listed field's column is written exactly when the value carries the field as its own key, with the field's value, and no column outside the table is written (inherited method names are Profiles.Set's concern) |
| Profiles.DbFields | dev_poc/poc-4-edge-function/supabase/functions/user-set/index.ts:38-42 | the row written has the caller's id under `id` and otherwise only whitelisted columns, which cannot overwrite `id` |
| Profiles.UpsertProfile | dev_poc/poc-4-edge-function/supabase/functions/user-set/index.ts:46-48 | an upsert on `id` overwrites the given columns, keeps the row's other columns, and touches no other row |
| Profiles.Set | dev_poc/poc-4-edge-function/supabase/functions/user-set/index.ts:26-53 | preflight, 401; a value that is not a truthy object gives 400 "value is required"; a value with a key naming an inherited method makes the write name an unknown column, which the database refuses with 500; a refused write gives 500 with the database's message; the table changes only on success, and only by the caller's whitelisted upsert |
| Profiles.InheritedKeyRefused | dev_poc/poc-4-edge-function/supabase/functions/user-set/index.ts:38-50 | a value carrying a key such as `toString` or `constructor` writes nothing and is answered 500, even when its other keys are whitelisted fields |
| Profiles.InheritedColumnsUnknown | dev_poc/poc-4-edge-function/supabase/functions/user-set/index.ts:38-42 | the column an inherited method turns into is neither `id` nor any whitelisted column |
| Profiles.ProfileKeysDistinct | dev_poc/poc-4-edge-function/supabase/functions/user-get/index.ts:28-48 | the nineteen keys of the user object are pairwise distinct |
| Profiles.FieldValue | dev_poc/poc-4-edge-function/supabase/functions/user-get/index.ts:28-48 | a field copies its column, or reads null (`shouldShowUpgradeDialog`: false) when the column is null or missing, as its `??` default says |
| Profiles.ProjectAt | dev_poc/poc-4-edge-function/supabase/functions/user-get/index.ts:28-48 | with keys unique up to a field, that field's key is present exactly when its value is defined, and holds that value |
| Profiles.ProfileJsonFields | dev_poc/poc-4-edge-function/supabase/functions/user-get/index.ts:28-48 | each key of the user object holds its own column's value with its own default, and is present exactly when that value is defined |
| Profiles.Get | dev_poc/poc-4-edge-function/supabase/functions/user-get/index.ts:7-51 | preflight, 401; a read error other than "no rows" gives 500; otherwise `{ user }` with the projected row, or `null` when there is none |
| Profiles.GetReadsWhitelistColumns | dev_poc/poc-4-edge-function/supabase/functions/user-get/index.ts:28-48 | for each of the sixteen writable fields, user-get reads exactly the column user-set writes it to |
| Profiles.RowAfterSet | dev_poc/poc-4-edge-function/supabase/functions/user-set/index.ts:38-48 | after the upsert the caller's row holds each carried whitelisted field in its column, and the caller's id |
| Profiles.ProjectionReadsBack | dev_poc/poc-4-edge-function/supabase/functions/user-get/index.ts:28-48 | a non-null value in a whitelisted column is read back under the field's own name, whatever its default |
| Profiles.SetStoresValue | dev_poc/poc-4-edge-function/supabase/functions/user-set/index.ts:33-48 | a successful user-set with an object value whose keys name no inherited method stores exactly the caller's whitelisted upsert |
| Profiles.SetThenGet | dev_poc/poc-4-edge-function/supabase/functions/user-get/index.ts:16-50 | what user-set writes from a value whose keys name no inherited method, user-get reads back: every carried non-null whitelisted field returns unchanged, under the caller's id |
| ClientMember.MyMember | apps/desktop/src/utils/member.utils.ts:8-10 | the cached member is found exactly when a user is signed in and the cache holds a member under that id, and it is that member |
| ClientMember.EffectivePlan | apps/desktop/src/utils/member.utils.ts:12-17 | the enterprise preference wins; otherwise the member's plan; "community" without a member |
| ClientMember.PlanToDisplayName | apps/desktop/src/utils/member.utils.ts:19-29 | "enterprise", "community" and "free" display as Enterprise, Community and Trial, each exactly for its plan; every other plan displays as Pro |
| ClientMember.IsPaying | apps/desktop/src/utils/member.utils.ts:31-38 | a user is paying exactly when a member exists and its plan is not "free" |
| ClientMember.PayingIsNeverTrial | apps/desktop/src/utils/member.utils.ts:12-38 | a paying member is never labelled Trial, and a non-paying member outside enterprise always is |
| ClientMember.EffectiveWords | apps/desktop/src/utils/member.utils.ts:50-53 | the words counted are at least the server's and at least the local count, and equal one of them (0 when both are missing) |
| ClientMember.ExceedsLimitByState | apps/desktop/src/utils/member.utils.ts:40-64 | no config means not exceeded; words at or over the plan's monthly limit mean exceeded ("free" without a member); below it, a member's verdict is the shared limit check's and no member means not exceeded |
| ClientMember.ExceedsMonotoneInLocalWords | apps/desktop/src/utils/member.utils.ts:50-57 | counting more words locally can turn the verdict from within the limit to over it, never back |
| ClientMember.ServerCapSeenByApp | apps/desktop/src/utils/member.utils.ts:47-57 | when the shared word limit equals the cap transcribe enforces, a member the server would refuse is also over the limit in the app |
| Prices.PricingPlans | apps/desktop/src/utils/price.utils.ts:4-9 | the plan list is "community", "free", "enterprise" followed by the price keys in order |
| Prices.ToMemberPlan | apps/desktop/src/utils/price.utils.ts:12-19 | a pricing plan buys "pro" exactly when it is "pro_monthly" or "pro_yearly", and "free" otherwise |
| Prices.UnitAmountToKrw | apps/desktop/src/utils/price.utils.ts:26-33 | a missing (null or undefined) amount is 0, any other amount is kept |
| Prices.Amount | apps/desktop/src/utils/price.utils.ts:35-39 | a table lists an amount for a key exactly when the key is in the table |
| Prices.KrwPriceFromKey | apps/desktop/src/utils/price.utils.ts:35-39 | the won price of a key is the Korean table's amount, 0 for a key the table lacks |
| Prices.DollarPriceFromKey | apps/desktop/src/utils/price.utils.ts:87-91 | the dollar price of a key is the USD table's amount, 0 for a key the table lacks |
| Prices.ShippedPrices | apps/desktop/src/utils/price.utils.ts:21-24 | the shipped amounts are 9900 and 99000 won and 5 and 50 dollars (lines 82-85), and 0 for every other key |
| Prices.PricedKeysBuyPro | apps/desktop/src/utils/price.utils.ts:12-24 | every key with a price buys the pro plan |
| Prices.ValueOf | apps/desktop/src/utils/price.utils.ts:70-76 | a price entry carries the amount, its decimal string and the currency |
| Prices.BuildPriceMap | apps/desktop/src/utils/price.utils.ts:69-77 | the nested map has one entry per table key, and each inner map holds only that key with the row's value |
| Prices.PricesWithRuntimeCaching | apps/desktop/src/utils/price.utils.ts:43-80 | the cached map holds the two pro keys, each in won |
| Prices.PriceMapReadsBack | apps/desktop/src/utils/price.utils.ts:69-77 | reading a built map back gives the table's amount, both as a number and as a decimal string that parses back to it |
| Prices.CachedPricesMatchKrwLookup | apps/desktop/src/utils/price.utils.ts:35-80 | the cached map and the won lookup agree on every key, as a number and as its decimal string |
| PricingActions.LoadPrices | apps/desktop/src/actions/pricing.actions.ts:5-32 | loading marks pricing initialized and stores one single-key entry per USD key, touching nothing else |
| PricingActions.LoadedPricesMatchDollarLookup | apps/desktop/src/actions/pricing.actions.ts:5-32 | the stored map answers every key with the dollar lookup's amount, its decimal string, in USD |
| PricingActions.OpenDialog | apps/desktop/src/actions/pricing.actions.ts:34-40 | opening shows the plan list with no pending plan and changes nothing outside the dialog |
| PricingActions.CloseDialog | apps/desktop/src/actions/pricing.actions.ts:42-48 | closing hides the dialog, resets to the plan list with no pending plan, and changes nothing else |
| PricingActions.ShowPlanList | apps/desktop/src/actions/pricing.actions.ts:50-55 | returning to the list clears the pending plan and leaves the dialog open or closed as it was |
| PricingActions.SelectPlan | apps/desktop/src/actions/pricing.actions.ts:57-70 | the selected plan is always remembered; signed out, the dialog switches to login and the login mode to sign-in; signed in, the view and mode stay |
| PricingActions.ActionsKeepLoginHasPendingPlan | apps/desktop/src/actions/pricing.actions.ts:34-70 | no action ever leaves the login view showing without a pending plan |
| PricingActions.DialogTransitions | apps/desktop/src/actions/pricing.actions.ts:34-70 | opening, closing and returning to the list are idempotent, closing after opening is closing, and the list clears a selection |
| PricingSection.Toggle | apps/web/src/components/pricing-section/index.tsx:209 | the toggle flips the billing period |
| PricingSection.PlanPrice | apps/web/src/components/pricing-section/index.tsx:173-177 | enterprise has no price, a lifetime plan shows its monthly price, others the price of the chosen period |
| PricingSection.YearlyTotal | apps/web/src/components/pricing-section/index.tsx:179-182 | a yearly total exists exactly when the yearly price is set and non-zero, and is twelve times it |
| PricingSection.PriceDisplay | apps/web/src/components/pricing-section/index.tsx:247-292 | no price shows "Custom" with the period's note; price 0 shows "Free" with "No credit card required"; otherwise the price per month, billed annually with the yearly total exactly when yearly with a positive yearly price, else billed monthly |
| PricingSection.ToggleAffectsOnlyPeriodPrices | apps/web/src/components/pricing-section/index.tsx:173-177 | toggling twice restores the period, and enterprise and lifetime prices do not depend on it |
| PricingSection.ShippedCards | apps/web/src/components/pricing-section/index.tsx:22-131 | Personal shows Free, Pro shows "$5 / month" billed $60 a year when yearly and monthly otherwise, Enterprise shows Custom, in that order |
| PricingSection.PerMonthTextShowsAmount | apps/web/src/components/pricing-section/index.tsx:260-265 | a per-month price is shown as "$", its decimal amount and " / month" |
| ReleaseAssets.StripOptional | apps/web/src/lib/downloads.tsx:473 | an optional case-insensitive group is removed exactly when the string starts with it, and what remains is always a suffix of the input |
| ReleaseAssets.StripChannelPrefix | apps/web/src/lib/downloads.tsx:473 | removing the channel prefix leaves a suffix of the trimmed tag |
| ReleaseAssets.DesktopVIsNotDesktopDash | apps/web/src/lib/downloads.tsx:472-473 | a tag that passes the test through its "desktopv" spelling never matches the replacement, which needs "desktop-" |
| ReleaseAssets.NormalizeTrimmed | apps/web/src/lib/downloads.tsx:472-480 | the normalized version is a suffix of the trimmed tag, and a "desktopv" tag is returned unchanged |
| ReleaseAssets.NormalizeVersion | apps/web/src/lib/downloads.tsx:462-481 | a missing, empty or all-blank tag reads "latest"; any other tag is normalized after trimming |
| ReleaseAssets.TrimUntouched | apps/web/src/lib/downloads.tsx:467 | a string with no white space at either end is its own trim |
| ReleaseAssets.StripPresent | apps/web/src/lib/downloads.tsx:473 | an optional group that is present is removed |
| ReleaseAssets.StripAbsent | apps/web/src/lib/downloads.tsx:473 | an optional group whose first letter is absent leaves the string alone |
| ReleaseAssets.StripGroup | apps/web/src/lib/downloads.tsx:473 | one optional group, present or not, comes off in front of a rest that cannot start it |
| ReleaseAssets.StripChannelOfTag | apps/web/src/lib/downloads.tsx:473 | every "desktop-[gpu-][dev-]v" release tag loses exactly its channel prefix |
| ReleaseAssets.TagRoundTrip | apps/web/src/lib/downloads.tsx:462-481 | the version written into a channel release tag is the version read back from it |
| ReleaseAssets.PlainTagRoundTrip | apps/web/src/lib/downloads.tsx:476-478 | the version written into a plain "v" tag is the version read back from it |
| ReleaseAssets.NormalizePlainTag | apps/web/src/lib/downloads.tsx:476-478 | a trimmed tag "v" followed by a digit loses only its "v" |
| ReleaseAssets.FirstMatch | apps/web/src/lib/downloads.tsx:437-441 | the mapping chosen matches the name and no earlier mapping does; when none is chosen, no mapping matches |
| ReleaseAssets.KeysFor | apps/web/src/lib/downloads.tsx:437-459 | the keys of the first matching mapping win; the keyword fallback applies only when no mapping matches |
| ReleaseAssets.Fallback | apps/web/src/lib/downloads.tsx:443-459 | the keyword fallback never yields an empty key list |
| ReleaseAssets.ResolveManifestKeys | apps/web/src/lib/downloads.tsx:435-460 | asset names are classified case-insensitively |
| ReleaseAssets.FallbackOrder | apps/web/src/lib/downloads.tsx:443-459 | the fallback tests, in order: a ".json" name gets no keys, then darwin/mac, then windows/win, then linux, else no keys |
| ReleaseAssets.DarwinMappingUnreachable | apps/web/src/lib/downloads.tsx:205-221 | the per-architecture darwin mapping is never chosen: every name it matches is matched earlier by the ".app.tar.gz" mapping |
| ReleaseAssets.CpuPackagesResolve | apps/web/src/lib/downloads.tsx:193-204 | a one-line CPU package name "vocally." or "vocally_" not followed by "gpu" and ending in .AppImage, .deb or .rpm gets that package's keys |
| ReleaseAssets.MatchesEndsWith | apps/web/src/lib/downloads.tsx:189-250 | every name a mapping matches ends with that mapping's extension |
| ReleaseAssets.NotMatchedByEnding | apps/web/src/lib/downloads.tsx:189-250 | a name whose last character differs from a mapping's extension's is not matched by it |
| ReleaseAssets.NotMatchedAsCpu | apps/web/src/lib/downloads.tsx:193-228 | "gpu" right after "vocally." rules out every CPU mapping |
| ReleaseAssets.FirstMatchAt | apps/web/src/lib/downloads.tsx:437-441 | the first match is the mapping at j when it matches and no earlier one does |
| ReleaseAssets.GpuPackagesResolve | apps/web/src/lib/downloads.tsx:230-249 | a one-line "vocally.gpu" package name gets the GPU keys of its extension, never the CPU ones |
| ReleaseAssets.Lookup | apps/web/src/lib/downloads.tsx:414 | a key is found exactly when some entry carries it |
| ReleaseAssets.LookupAppend | apps/web/src/lib/downloads.tsx:414-419 | an appended entry is seen only for a key that was not present before |
| ReleaseAssets.AddKeys | apps/web/src/lib/downloads.tsx:413-420 | the inner loop only appends entries, never changes existing ones |
| ReleaseAssets.Collect | apps/web/src/lib/downloads.tsx:407-421 | the outer loop only appends entries, never changes existing ones |
| ReleaseAssets.AddKeysLookup | apps/web/src/lib/downloads.tsx:413-420 | after one asset a key keeps its entry, or gets this asset's URL when the asset lists it |
| ReleaseAssets.CollectLookup | apps/web/src/lib/downloads.tsx:407-421 | first asset wins: after the loop a key holds its old entry, or else the URL of the first asset whose keys include it |
| ReleaseAssets.TransformGithubRelease | apps/web/src/lib/downloads.tsx:401-433 | a manifest is built only with at least one platform, its version normalized from tag_name, else name, and its notes and date defaulted |
| ReleaseAssets.TransformFirstAssetWins | apps/web/src/lib/downloads.tsx:401-433 | each key of a built manifest holds the URL of the first asset classified into it; when no manifest is built, no asset is classified into any key |
| Downloads.Rank | apps/web/src/lib/downloads.tsx:172 | the platform order puts the Mac first, and every platform has a place in it |
| Downloads.InferPlatform | apps/web/src/lib/downloads.tsx:624-650 | an unknown key is a Mac key when its first segment is darwin, mac or macos or it mentions darwin; otherwise a Windows key on win, windows or a mention of windows; a key that infers nothing never mentions linux |
| Downloads.SeparatorsToSpaces | apps/web/src/lib/downloads.tsx:619-620 | every "-" and "_" becomes a space and nothing else changes |
| Downloads.CapitalizeWords | apps/web/src/lib/downloads.tsx:621 | exactly the word characters that start a word are upper-cased |
| Downloads.FormatManifestKeyShape | apps/web/src/lib/downloads.tsx:618-622 | `Downloads.FormatManifestKey`, the title of an unknown key, keeps the key's length, has a space exactly where the key has a separator or space, and differs from it only in case |
| Downloads.ToDownload | apps/web/src/lib/downloads.tsx:355-381 | an entry becomes a download exactly when it has a non-empty URL; a known key takes the table's platform, title and description, and an unknown one the inferred platform (the Mac by default) and the formatted key |
| Downloads.Candidates | apps/web/src/lib/downloads.tsx:354-382 | at most one download per manifest entry |
| Downloads.CandidatesExact | apps/web/src/lib/downloads.tsx:354-382 | a download is listed exactly when some manifest entry produces it |
| Downloads.BeforeMeaning | apps/web/src/lib/downloads.tsx:383-397 | the comparator orders by platform, then non-GPU before GPU, then by title |
| Downloads.BeforeTotal | apps/web/src/lib/downloads.tsx:383-397 | any two downloads compare one way or the other |
| Downloads.BeforeTransitive | apps/web/src/lib/downloads.tsx:383-397 | the comparator is transitive |
| Downloads.Insert | apps/web/src/lib/downloads.tsx:383 | inserting one download adds exactly it |
| Downloads.ConsSorted | apps/web/src/lib/downloads.tsx:383-397 | an element that may stand before every element of an ordered list keeps it ordered in front |
| Downloads.SortedTail | apps/web/src/lib/downloads.tsx:383-397 | the tail of an ordered list is ordered |
| Downloads.BeforeHeadBeforeAll | apps/web/src/lib/downloads.tsx:383-397 | what may stand before the head of an ordered list may stand before all of it |
| Downloads.HeadBeforeInsert | apps/web/src/lib/downloads.tsx:383-397 | the head of an ordered list stays before its tail with a later element inserted |
| Downloads.InsertSorted | apps/web/src/lib/downloads.tsx:383-397 | inserting into an ordered list keeps it ordered |
| Downloads.SortDownloads | apps/web/src/lib/downloads.tsx:383-397 | sorting permutes the list |
| Downloads.SortDownloadsSorted | apps/web/src/lib/downloads.tsx:383-397 | the sorted list is ordered by the comparator |
| Downloads.ExtractDownloads | apps/web/src/lib/downloads.tsx:353-399 | the extracted list is a permutation of the manifest's downloads |
| Downloads.ExtractDownloadsOrdered | apps/web/src/lib/downloads.tsx:353-399 | the list holds exactly the entries with a URL, Mac before Windows before Linux, non-GPU before GPU within a platform, then by title |
| Downloads.PlatformPreference | apps/web/src/lib/downloads.tsx:534-560 | every platform has at least one preferred key |
| Downloads.FirstWithUrl | apps/web/src/lib/downloads.tsx:343-348 | the key chosen is the first preferred key with a non-empty URL, and none is chosen when no key has one |
| Downloads.SelectPlatformUrl | apps/web/src/lib/downloads.tsx:337-351 | the URL is that of the first preferred key that has a non-empty one, and there is none only when no preferred key has one |
| Downloads.PreferencesNameTheirPlatform | apps/web/src/lib/downloads.tsx:534-560 | every key on a platform's preference list is inferred as that platform |
| Downloads.DarwinKey | apps/web/src/lib/downloads.tsx:624-650 | a lower-case key starting "darwin-" infers the Mac |
| Downloads.MacKeyInfers | apps/web/src/lib/downloads.tsx:537-547 | the Mac keys infer the Mac |
| Downloads.WindowsKeyInfers | apps/web/src/lib/downloads.tsx:550 | the Windows keys infer Windows |
| Downloads.LinuxKeyInfers | apps/web/src/lib/downloads.tsx:552-557 | the Linux keys infer Linux |
| Downloads.WindowsKey | apps/web/src/lib/downloads.tsx:632-638 | a lower-case "windows-" key without an "r" infers Windows |
| Downloads.LinuxKey | apps/web/src/lib/downloads.tsx:643-645 | a lower-case "linux-" key without a "w" infers Linux |
| Downloads.SegmentBefore | apps/web/src/lib/downloads.tsx:626 | the first segment of a lower-case key is what stands before its first separator |
| Downloads.Lacks | apps/web/src/lib/downloads.tsx:630 | a key that lacks one letter of a word does not mention the word |
| Downloads.DetectPlatform | apps/web/src/lib/downloads.tsx:483-511 | without a browser the Mac; otherwise Windows exactly when the lower-cased agent contains "win", Linux exactly when it names linux and none of win, mac, darwin or android, and the Mac otherwise |
| Downloads.DarwinReadsAsWindows | apps/web/src/lib/downloads.tsx:498-504 | an agent that names Darwin is classified as Windows |
| Downloads.DetectPlatformIntended | apps/web/src/lib/downloads.tsx:483-511 | an agent that names Darwin is a Mac; every other agent is classified as before |
| Downloads.DetectionDiffersOnlyOnDarwin | apps/web/src/lib/downloads.tsx:498-504 | the corrected detection differs from the code exactly on agents that name Darwin |
| Locale.Clean | apps/web/src/i18n/intl.ts:32 | every underscore becomes a hyphen and nothing else changes |
| Locale.MatchSupportedLocale | apps/web/src/i18n/intl.ts:27-46 | no value or an empty one matches nothing; the hyphenated spelling wins when supported, else its lower-case language part when that is non-empty and supported, else nothing; a match is always a supported locale without underscores |
| Locale.CleanFixes | apps/web/src/i18n/intl.ts:32 | a spelling without underscores is left alone |
| Locale.MatchIdempotent | apps/web/src/i18n/intl.ts:27-46 | matching a matched locale gives it back |
| Locale.SupportedMatchesItself | apps/web/src/i18n/intl.ts:34-37 | a supported locale is matched by itself and by its underscore spelling |
| Locale.RegionFallsBackToLanguage | apps/web/src/i18n/intl.ts:39-43 | "fr_CA" falls back to "fr" when only the language is supported |
| Locale.DetectLocale | apps/web/src/i18n/intl.ts:48-56 | the stored locale is used exactly when it is non-empty and supported; otherwise the default |
| Locale.SetStoredLocale | apps/web/src/i18n/intl.ts:58-60 | storing always leaves a value in storage |
| Locale.StoredLocaleRoundTrip | apps/web/src/i18n/intl.ts:48-60 | a stored supported locale is detected again; any other stored value reads back as the default |
| Locale.MessagesFor | apps/web/src/i18n/intl.ts:14-25 | the locale's own message table when one exists, else the default's, and nothing when neither has one |
| Locale.GetIntlConfig | apps/web/src/i18n/intl.ts:66-73 | the configuration carries the detected locale, the default and the table chosen for the detected locale |
| Locale.ConfigMessagesMatchLocale | apps/web/src/i18n/intl.ts:62-73 | when every supported locale and the default have a table, the configuration carries its own locale's table |
| KakaoOAuth.WordsFromAreWords | apps/desktop/src-tauri/src/system/kakao_oauth.rs:98 | the words of a scan that starts inside a white-space-free word are non-empty and free of white space |
| KakaoOAuth.WordsFromWord | apps/desktop/src-tauri/src/system/kakao_oauth.rs:98 | white-space-free characters only extend the word being read |
| KakaoOAuth.Words | apps/desktop/src-tauri/src/system/kakao_oauth.rs:98 | every word is non-empty and free of white space |
| KakaoOAuth.WordsStep | apps/desktop/src-tauri/src/system/kakao_oauth.rs:98 | a word, a space and a rest split into the word and the rest's words |
| KakaoOAuth.WordsOfWord | apps/desktop/src-tauri/src/system/kakao_oauth.rs:98 | a single word splits into itself |
| KakaoOAuth.WordsOfUnwords | apps/desktop/src-tauri/src/system/kakao_oauth.rs:98 | splitting words joined by single spaces gives the words back |
| KakaoOAuth.QueryGet | apps/desktop/src-tauri/src/system/kakao_oauth.rs:115-116 | the value is absent exactly when no pair has the name; otherwise it is the value of the last pair with the name, as a map built from the pairs keeps it |
| KakaoOAuth.RequestLine | apps/desktop/src-tauri/src/system/kakao_oauth.rs:93-96 | the request line is the prefix of the request before its first CRLF, or the whole request when it has none |
| KakaoOAuth.ParseRequest | apps/desktop/src-tauri/src/system/kakao_oauth.rs:80-108 | a request is parsed exactly when the read got bytes, they are UTF-8, the request line has two words and the URL built from the second parses; zero bytes is the empty-request error |
| KakaoOAuth.Reply | apps/desktop/src-tauri/src/system/kakao_oauth.rs:144-160 | the response is always attempted, and a failed write turns the step into the send error |
| KakaoOAuth.HandleRequest | apps/desktop/src-tauri/src/system/kakao_oauth.rs:80-142 | a request that fails to parse gets no response; every parsed one is answered with 200, 400 or 404, and a failed write ends the listener |
| KakaoOAuth.CodeOnlyFromCallback | apps/desktop/src-tauri/src/system/kakao_oauth.rs:110-141 | a code is taken exactly from a callback-path request with a code and no error whose success page was sent; the code is the query's code |
| KakaoOAuth.StatusMatchesStep | apps/desktop/src-tauri/src/system/kakao_oauth.rs:110-141 | 404 exactly off the callback path, 200 exactly with a code, a 400 ends the listener only for a provider error, and the listener keeps going only after a 400 or 404 |
| KakaoOAuth.ErrorWinsOverCode | apps/desktop/src-tauri/src/system/kakao_oauth.rs:118-129 | an error parameter on the callback ends the listener with that error even when a code is present |
| KakaoOAuth.FirstBlankLine | apps/desktop/src-tauri/src/system/kakao_oauth.rs:152-155 | the first blank line of the response is the end of its head |
| KakaoOAuth.ReasonNoCr | apps/desktop/src-tauri/src/system/kakao_oauth.rs:145-150 | no reason phrase contains a carriage return |
| KakaoOAuth.HeadThenBody | apps/desktop/src-tauri/src/system/kakao_oauth.rs:144-155 | whatever length is announced, the head ends at its first blank line, starts with the status line, and the body follows it |
| KakaoOAuth.FrameOfLines | apps/desktop/src-tauri/src/system/kakao_oauth.rs:144-155 | three CR-free header lines, a blank line and a body: the blank line ends the head and the body follows it |
| KakaoOAuth.FrameReadsBack | apps/desktop/src-tauri/src/system/kakao_oauth.rs:144-155 | the response starts with its status line, its head ends at the first blank line, the body follows it verbatim and Content-Length reads back as the body's UTF-8 length |
| KakaoOAuth.StepOf | apps/desktop/src-tauri/src/system/kakao_oauth.rs:63-73 | a would-block result keeps waiting and any other accept error ends the listener |
| KakaoOAuth.FirstStop | apps/desktop/src-tauri/src/system/kakao_oauth.rs:62-75 | the index of the first accept result that does not keep the loop waiting: every earlier one does, and the one found does not |
| KakaoOAuth.RunLocalHttpServer | apps/desktop/src-tauri/src/system/kakao_oauth.rs:56-78 | the listener never ends undecided: a setup failure ends it; it times out exactly when every arrival kept it waiting, and otherwise ends with the outcome of the first arrival that did not |
| Overlay.Label | apps/desktop/src-tauri/src/overlay.rs:4-21 | every overlay window carries one of the three labels |
| Overlay.LabelInjective | apps/desktop/src-tauri/src/overlay.rs:4-21 | different overlays have different labels |
| Overlay.BuildOverlayUrl | apps/desktop/src-tauri/src/overlay.rs:41-60 | a debug build with a dev server URL keeps its base and gets the flag appended to a non-empty query or as the whole query; otherwise the bundled page with the flag as its query |
| Overlay.EnsureOverlayWindow | apps/desktop/src-tauri/src/overlay.rs:105-193 | an existing window is left alone and counts as success; otherwise a window is added under the label with the built URL exactly when the builder succeeds; other windows never change |
| Overlay.EnsureIdempotent | apps/desktop/src-tauri/src/overlay.rs:105-193 | ensuring a window a second time changes nothing and succeeds, whatever the builder would do |
| Overlay.HoverSize | apps/desktop/src-tauri/src/overlay.rs:384-394 | the hover box is 136 by 48 once expanded and 56 by 14 otherwise |
| Overlay.UpdateCursorFollower | apps/desktop/src-tauri/src/overlay.rs:200-430 | without a screen or a pill window nothing happens; otherwise hovered means hover enabled with the cursor in the box, expanded means hovered or busy, click-through is set exactly when expansion changes, and an event goes out exactly when either flag changes |
| Overlay.CollapsedBoxInsideExpanded | apps/desktop/src-tauri/src/overlay.rs:384-402 | the collapsed hover box lies inside the expanded one |
| Overlay.HoverBoxInsidePill | apps/desktop/src-tauri/src/overlay.rs:5-13 | both hover boxes lie inside the pill window |
| Overlay.SettlesWithinTwoPolls | apps/desktop/src-tauri/src/overlay.rs:379-430 | with the cursor and the app state held still, the third poll changes nothing and emits nothing |
| Overlay.HoverNeedsEnabledAndBusyExpands | apps/desktop/src-tauri/src/overlay.rs:396-414 | hovering needs hover enabled, a busy app is always expanded, and expanded is hovered or busy after every poll |
| OverlayRoot.ParsePair | apps/desktop/src/main.tsx:29-31 | a parameter name never contains "=" |
| OverlayRoot.ParsePieces | apps/desktop/src/main.tsx:29-31 | at most one parameter per piece |
| OverlayRoot.ParsePiecesAppend | apps/desktop/src/main.tsx:29-31 | the parameters of joined pieces are the parameters of each part in order |
| OverlayRoot.Get | apps/desktop/src/main.tsx:34-36 | get finds nothing exactly when no parameter has the name; otherwise the value of the first one that does |
| OverlayRoot.GetAppend | apps/desktop/src/main.tsx:34-36 | get on joined parameters looks at the second part only when the first lacks the name |
| OverlayRoot.Flag | apps/desktop/src/main.tsx:34-36 | a flag is on exactly when there is a window and its parameter's value is "1" |
| OverlayRoot.SelectRoot | apps/desktop/src/main.tsx:67-92 | the pill root exactly when its flag is on, then the toast, then the agent overlay, and the app without a window |
| OverlayRoot.OnlyOneTurnsFlagOn | apps/desktop/src/main.tsx:34 | any value other than "1" that has no `&`, `%` or `+` (so that decoding leaves it as it is) leaves the pill root off |
| OverlayRoot.PairOfFlag | apps/desktop/src/main.tsx:29-31 | the flag the builder writes reads back as a single parameter with value "1" |
| OverlayRoot.SplitWithoutSeparator | apps/desktop/src/main.tsx:29-31 | a query without "&" is one piece |
| OverlayRoot.SplitWhole | apps/desktop/src/main.tsx:29-31 | a string without any of the separators is one piece |
| OverlayRoot.SearchOfAppUrl | apps/desktop/src/main.tsx:29-36 | the bundled page of an overlay window carries its flag as the only parameter |
| OverlayRoot.SearchOfDevUrl | apps/desktop/src/main.tsx:29-36 | a dev server page carries the server's own parameters followed by the flag, or the flag alone when the server gives no query |
| OverlayRoot.SearchOfBuiltUrl | apps/desktop/src/main.tsx:29-36 | the page an overlay URL loads carries the flag alone, or after the dev server's own parameters |
| OverlayRoot.FlagOfBuiltUrl | apps/desktop/src/main.tsx:34-36 | on a built page an overlay flag reads "1" exactly for the page's own parameter, unless the dev server's query names it |
| OverlayRoot.BuiltUrlSelectsItsRoot | apps/desktop/src/main.tsx:29-92 | a window created for an overlay renders that overlay's root, provided the dev server's own query names no overlay |
| OverlayRoot.PlainPageRendersApp | apps/desktop/src/main.tsx:29-92 | the plain index page renders the app |

## Left out

- Cryptography and encodings: HMAC-SHA256, base64 and UTF-8 decoding are parameters (`Crypto.Primitives`). `timingSafeEqual` is byte equality, because constant-time behaviour cannot be stated in this model.
- The Supabase client, the fetch calls to Polar, Paddle, PortOne, Groq and GitHub, and `Deno.env` are inputs: a store, reply functions and an environment map. The body of the `increment_member_usage` database function is not part of this model; only its effect on the counters is.
- `_shared/cors.ts` is not part of this model: a request carries a flag saying whether the CORS preflight was answered, and the reply is then `Preflight`.
- `getWordLimit`, `getMemberExceedsLimits`, `PRICE_KEYS`, `SUPPORTED_LOCALES` and `DEFAULT_LOCALE` live in packages that are not part of this model; they are parameters.
- Translated strings: message tables are named by their locale, and the download table uses the English default texts. `getIntl` (apps/web/src/i18n/intl.ts:76-87) only wraps `getIntlConfig` into a react-intl object.
- React rendering, the dialog components and the `setMode` call of the pricing actions beyond the recorded login mode.
- `fetchReleaseManifest` and `fetchChannelManifest` (network and merging of two manifests), the navigator probing of `detectMacManifestKey`, `isMobileDevice`, `getPlatformDisplayName`, `getPlatformConfig` and the icon components.
- `localeCompare` is a parameter assumed to be a total preorder. `Object.entries` order is the order of the platform list as given.
- `toLowerCase` and `toUpperCase` are ASCII-only; no other characters change case.
- `start_kakao_oauth_listener`: binding, the port and the random state, which is generated but never checked. Time is the finite sequence of accept results seen before the two-minute deadline; the 50 ms sleep is not modelled.
- The "Malformed Kakao OAuth callback request" error cannot occur: splitting a string always yields a first piece.
- URL parsing and percent-decoding of query values (the `url` crate and `URLSearchParams`' decoding) are not modelled; the parameters the overlay builder writes contain neither.
- Overlay window creation and positioning (apps/desktop/src-tauri/src/overlay.rs:31-103 and 122-193 beyond the create-once test, 262-377), the toast and agent placement, the cursor-follower thread and timer (433-465) and the atomic orderings.
- Floating-point geometry: overlay coordinates are exact reals.
- Concurrency: parallel webhook deliveries, reconciliation racing webhooks, and the read-then-write counters of generate-text.
- JSON numbers are integers; no fractional amounts occur in the modelled paths.
- Downloads.SortDownloads: states that the result is an ordered permutation but not that the sort is stable.
- Downloads.ExtractDownloadsOrdered: the title order holds only under the total-preorder assumption on `localeCompare`.
- KakaoOAuth.RunLocalHttpServer: the deadline is the end of the given arrivals, not a measured two minutes.
- Crypto.SameBytesIsEquality: says nothing about timing.
- Members.BlankRow: the database's defaults for the columns no insert writes are not known, so a new row's subscription ids and timestamps (`created_at`, `updated_at`, `today_reset_at`, `this_month_reset_at`, `trial_ends_at`) are taken as null. A table whose `created_at` defaults to `now()` would show a time where the model's member-get after member-init shows null; every other column of the new row is written by the code.
- Members.DbText: a value the code hands to a text column is taken as a refused write unless it is a JSON string, although the database would store a number as its decimal text; the providers send strings in these places. The same holds for a non-numeric usage in generate-text.
- Object keys: `__proto__` is an ordinary missing key, because Deno removes the `Object.prototype.__proto__` accessor. The other methods every object inherits are modelled where a lookup can reach them (`JsonValues.INHERITED`).
- Downloads.ToDownload: a manifest key naming an inherited method is not modelled as a lookup hit in `MANIFEST_KEY_DETAILS`; manifest keys come from the project's own release pipeline.
- Profiles.Set: the database's message for an unknown column is a parameter.
- PolarReconcile.Handle: the given listing replies can run out before a terminal page; that outcome (no response) exists only in the model.

## Findings

| source | as written | input that shows it | evidently intended | confidence | as-written member | corrected member |
|---|---|---|---|---|---|---|
| apps/web/src/lib/downloads.tsx:498-504 | the Windows test (`ua.includes("win")`) runs before the Mac test, and "darwin" contains "win" | a user agent containing "Darwin", e.g. "CFNetwork/1410 Darwin/22.6.0" | a user agent naming Darwin is classified as a Mac, as the `ua.includes("darwin")` test shows | medium; not executed | Downloads.DarwinReadsAsWindows | Downloads.DetectPlatformIntended (with Downloads.DetectionDiffersOnlyOnDarwin) |

=== FILE: client_member.dfy ===
/** The desktop app's view of the signed-in member (apps/desktop/src/utils/
    member.utils.ts): which member is "mine", the plan the app acts on, its
    display name, whether the member pays, and whether the monthly word
    limit is reached. The two helpers of the shared utilities package the
    last predicate calls, `getWordLimit(config, plan).perMonth` and
    `getMemberExceedsLimits`, are not part of this model and are
    parameters. */
module ClientMember {
  import opened Common
  import Limits
  import Transcribe

  const PLAN_FREE: string := "free"
  const PLAN_ENTERPRISE: string := "enterprise"
  const PLAN_COMMUNITY: string := "community"

  /** The fields of a cached member the plan logic reads. */
  datatype Member = Member(id: string, plan: string, wordsThisMonth: int)

  /** The locally kept user record (`getMyUser(state)`), of which only the
      word count matters here. */
  datatype LocalUser = LocalUser(wordsThisMonth: int)

  /** The slice of the app state these functions read; `isEnterprise` is
      false when the preference is absent. */
  datatype AppState = AppState(
    authId: Option<string>,
    memberById: map<string, Member>,
    isEnterprise: bool,
    config: Option<Limits.FullConfig>,
    localUser: Option<LocalUser>)

  /** `getWordLimit(config, plan).perMonth` */
  type WordLimit = (Limits.FullConfig, string) -> int
  /** `getMemberExceedsLimits(member, config)` */
  type ExceedsLimits = (Member, Limits.FullConfig) -> bool

  /** `getMyMember`: the member cached under the signed-in id, if any. */
  function MyMember(state: AppState): (r: Option<Member>)
    ensures r.Some? <==> state.authId.Some? && state.authId.value in state.memberById
    ensures r.Some? ==> r.value == state.memberById[state.authId.value]
  {
    match state.authId
    case None => None
    case Some(id) => if id in state.memberById then Some(state.memberById[id]) else None
  }

  /** `getEffectivePlan`: the enterprise preference wins, then the member's
      plan, and without a member the app is on "community". */
  function EffectivePlan(state: AppState): (r: string)
    ensures state.isEnterprise ==> r == PLAN_ENTERPRISE
    ensures !state.isEnterprise && MyMember(state).Some? ==> r == MyMember(state).value.plan
    ensures !state.isEnterprise && MyMember(state).None? ==> r == PLAN_COMMUNITY
  {
    if state.isEnterprise then PLAN_ENTERPRISE
    else match MyMember(state)
      case Some(m) => m.plan
      case None => PLAN_COMMUNITY
  }

  /** `planToDisplayName` with the messages' default (English) text. */
  function PlanToDisplayName(plan: string): (r: string)
    ensures r in {"Enterprise", "Community", "Trial", "Pro"}
    ensures r == "Enterprise" <==> plan == PLAN_ENTERPRISE
    ensures r == "Community" <==> plan == PLAN_COMMUNITY
    ensures r == "Trial" <==> plan == PLAN_FREE
  {
    if plan == PLAN_ENTERPRISE then "Enterprise"
    else if plan == PLAN_COMMUNITY then "Community"
    else if plan == PLAN_FREE then "Trial"
    else "Pro"
  }

  /** `getIsPaying`: a member exists and is not on the free plan. */
  function IsPaying(state: AppState): (r: bool)
    ensures r <==> MyMember(state).Some? && MyMember(state).value.plan != PLAN_FREE
  {
    match MyMember(state)
    case None => false
    case Some(m) => m.plan != PLAN_FREE
  }

  /** The app never labels a paying member "Trial", and labels a member
      who does not pay "Trial" unless the enterprise preference is on. */
  lemma PayingIsNeverTrial(state: AppState)
    ensures IsPaying(state) ==> PlanToDisplayName(EffectivePlan(state)) != "Trial"
    ensures !IsPaying(state) && !state.isEnterprise && MyMember(state).Some?
      ==> PlanToDisplayName(EffectivePlan(state)) == "Trial"
  {
  }

  /** `Math.max(serverWords, localWords)` with a missing count read as 0. */
  function EffectiveWords(state: AppState): (r: int)
    ensures MyMember(state).Some? ==> r >= MyMember(state).value.wordsThisMonth
    ensures state.localUser.Some? ==> r >= state.localUser.value.wordsThisMonth
    ensures r == 0 || (MyMember(state).Some? && r == MyMember(state).value.wordsThisMonth)
      || (state.localUser.Some? && r == state.localUser.value.wordsThisMonth)
  {
    var server := match MyMember(state) case Some(m) => m.wordsThisMonth case None => 0;
    var local := match state.localUser case Some(u) => u.wordsThisMonth case None => 0;
    if server >= local then server else local
  }

  /** `getMemberExceedsLimitByState` */
  function ExceedsLimitByState(state: AppState, wordLimit: WordLimit, exceedsLimits: ExceedsLimits): (r: bool)
    ensures state.config.None? ==> !r
    ensures (state.config.Some? && MyMember(state).Some?
      && EffectiveWords(state) >= wordLimit(state.config.value, MyMember(state).value.plan)) ==> r
    ensures state.config.Some? && MyMember(state).None?
      ==> (r <==> EffectiveWords(state) >= wordLimit(state.config.value, PLAN_FREE))
    ensures (state.config.Some? && MyMember(state).Some?
      && EffectiveWords(state) < wordLimit(state.config.value, MyMember(state).value.plan))
      ==> (r <==> exceedsLimits(MyMember(state).value, state.config.value))
  {
    match state.config
    case None => false
    case Some(config) =>
      var plan := match MyMember(state) case Some(m) => m.plan case None => PLAN_FREE;
      if EffectiveWords(state) >= wordLimit(config, plan) then true
      else match MyMember(state)
        case Some(m) => exceedsLimits(m, config)
        case None => false
  }

  /** The state with the local word count set to `words`. */
  function WithLocalWords(state: AppState, words: int): (r: AppState)
    ensures r.localUser == Some(LocalUser(words))
    ensures r.authId == state.authId && r.memberById == state.memberById && r.config == state.config
  {
    state.(localUser := Some(LocalUser(words)))
  }

  /** Counting more words locally can only turn the verdict from "within
      the limit" to "over it", never back. */
  lemma ExceedsMonotoneInLocalWords(state: AppState, wordLimit: WordLimit, exceedsLimits: ExceedsLimits, w: int, w': int)
    requires w <= w'
    ensures ExceedsLimitByState(WithLocalWords(state, w), wordLimit, exceedsLimits)
      ==> ExceedsLimitByState(WithLocalWords(state, w'), wordLimit, exceedsLimits)
  {
    var a, b := WithLocalWords(state, w), WithLocalWords(state, w');
    assert MyMember(a) == MyMember(b);
    assert EffectiveWords(a) <= EffectiveWords(b);
  }

  /** When the shared word limit is the cap transcribe enforces, a member
      the server turns away with 429 is also over the limit in the app:
      the server's own count alone reaches the cap. */
  lemma ServerCapSeenByApp(state: AppState, wordLimit: WordLimit, exceedsLimits: ExceedsLimits)
    requires forall plan :: wordLimit(Limits.FULL_CONFIG, plan) == Transcribe.MonthlyWordCap(plan)
    requires state.config == Some(Limits.FULL_CONFIG)
    requires MyMember(state).Some?
    requires MyMember(state).value.wordsThisMonth >= Transcribe.MonthlyWordCap(MyMember(state).value.plan)
    ensures ExceedsLimitByState(state, wordLimit, exceedsLimits)
  {
    assert wordLimit(Limits.FULL_CONFIG, MyMember(state).value.plan) == Transcribe.MonthlyWordCap(MyMember(state).value.plan);
  }
}

=== FILE: common.dfy ===
/** Vocabulary shared by every module of the model: optional values, bytes,
    string predicates with the meaning JavaScript and Rust give them (ASCII
    case mapping, the two languages' whitespace sets, splitting on a separator,
    replacing the first occurrence) and decimal rendering of numbers. */
module Common {

  /** `undefined`/`null`/`None` on one side, a value on the other. */
  datatype Option<+T> = None | Some(value: T) {
    function GetOr(default: T): T {
      if Some? then value else default
    }
  }

  type byte = x: int | 0 <= x < 256

  predicate StartsWith(s: string, prefix: string) {
    |prefix| <= |s| && s[..|prefix|] == prefix
  }

  predicate EndsWith(s: string, suffix: string) {
    |suffix| <= |s| && s[|s| - |suffix|..] == suffix
  }

  /** `part` occurs in `s` starting at index `i`. */
  predicate OccursAt(s: string, i: int, part: string) {
    0 <= i && i + |part| <= |s| && s[i..i + |part|] == part
  }

  /** `s.includes(part)` / `s.contains(part)`. */
  predicate Contains(s: string, part: string) {
    exists i | 0 <= i <= |s| - |part| :: OccursAt(s, i, part)
  }

  lemma ContainsWitness(s: string, i: int, part: string)
    requires OccursAt(s, i, part)
    ensures Contains(s, part)
  {
  }

  lemma ContainsExtend(s: string, t: string, i: int, part: string)
    requires OccursAt(s, i, part)
    ensures Contains(t + s, part) && Contains(s + t, part)
  {
    assert (t + s)[|t| + i..|t| + i + |part|] == s[i..i + |part|];
    assert OccursAt(t + s, |t| + i, part);
    assert (s + t)[i..i + |part|] == s[i..i + |part|];
    assert OccursAt(s + t, i, part);
  }

  // ---------------------------------------------------------------------------
  // ASCII case mapping (String.prototype.toLowerCase / toUpperCase restricted
  // to the ASCII letters)

  function LowerChar(c: char): char {
    if 'A' <= c <= 'Z' then (c as int + 32) as char else c
  }

  function UpperChar(c: char): char {
    if 'a' <= c <= 'z' then (c as int - 32) as char else c
  }

  function Lower(s: string): (r: string)
    ensures |r| == |s|
    ensures forall i :: 0 <= i < |s| ==> r[i] == LowerChar(s[i])
  {
    seq(|s|, i requires 0 <= i < |s| => LowerChar(s[i]))
  }

  lemma LowerIdempotent(s: string)
    ensures Lower(Lower(s)) == Lower(s)
  {
  }

  lemma LowerConcat(a: string, b: string)
    ensures Lower(a + b) == Lower(a) + Lower(b)
  {
  }

  predicate IsAsciiDigit(c: char) {
    '0' <= c <= '9'
  }

  // ---------------------------------------------------------------------------
  // Whitespace

  /** JavaScript's WhiteSpace and LineTerminator code points: what `\s`
      matches and what `String.prototype.trim` removes. */
  predicate IsJsSpace(c: char) {
    || c == '\t' || c == '\n' || c == '\U{000B}' || c == '\U{000C}' || c == '\r'
    || c == ' ' || c == '\U{00A0}' || c == '\U{1680}'
    || ('\U{2000}' <= c <= '\U{200A}')
    || c == '\U{2028}' || c == '\U{2029}' || c == '\U{202F}' || c == '\U{205F}'
    || c == '\U{3000}' || c == '\U{FEFF}'
  }

  /** The code points Rust's `char::is_whitespace` accepts (Unicode White_Space). */
  predicate IsRustSpace(c: char) {
    || ('\t' <= c <= '\r') || c == ' ' || c == '\U{0085}' || c == '\U{00A0}'
    || c == '\U{1680}' || ('\U{2000}' <= c <= '\U{200A}')
    || c == '\U{2028}' || c == '\U{2029}' || c == '\U{202F}' || c == '\U{205F}'
    || c == '\U{3000}'
  }

  /** `s.trimStart()` */
  function TrimStart(s: string): (r: string)
    ensures |r| <= |s| && r == s[|s| - |r|..]
    ensures r == [] || !IsJsSpace(r[0])
    ensures forall i :: 0 <= i < |s| - |r| ==> IsJsSpace(s[i])
  {
    if |s| > 0 && IsJsSpace(s[0]) then TrimStart(s[1..]) else s
  }

  /** `s.trimEnd()` */
  function TrimEnd(s: string): (r: string)
    ensures |r| <= |s| && r == s[..|r|]
    ensures r == [] || !IsJsSpace(r[|r| - 1])
    ensures forall i :: |r| <= i < |s| ==> IsJsSpace(s[i])
  {
    if |s| > 0 && IsJsSpace(s[|s| - 1]) then TrimEnd(s[..|s| - 1]) else s
  }

  /** `s.trim()` */
  function Trim(s: string): string {
    TrimEnd(TrimStart(s))
  }

  // ---------------------------------------------------------------------------
  // Splitting and joining

  /** `s.split(re)` for a regular expression matching exactly one character
      of `seps`; with `seps` a singleton this is `s.split(sep)`. The result
      always holds at least one piece. */
  function SplitOn(s: string, seps: set<char>): (r: seq<string>)
    ensures |r| >= 1
    ensures forall i :: 0 <= i < |r| ==> forall j :: 0 <= j < |r[i]| ==> r[i][j] !in seps
    decreases |s|
  {
    if |s| == 0 then [""]
    else
      var rest := SplitOn(s[1..], seps);
      if s[0] in seps then [""] + rest
      else [[s[0]] + rest[0]] + rest[1..]
  }

  function Split(s: string, sep: char): (r: seq<string>)
    ensures |r| >= 1
  {
    SplitOn(s, {sep})
  }

  /** `parts.join(sep)` */
  function Join(parts: seq<string>, sep: char): string
    requires |parts| >= 1
    decreases |parts|
  {
    if |parts| == 1 then parts[0] else parts[0] + [sep] + Join(parts[1..], sep)
  }

  /** Splitting loses nothing: joining the pieces back with the separator
      restores the input. */
  lemma {:induction false} JoinSplit(s: string, sep: char)
    ensures Join(Split(s, sep), sep) == s
    decreases |s|
  {
    if |s| > 0 {
      JoinSplit(s[1..], sep);
      var rest := Split(s[1..], sep);
      if s[0] == sep {
        assert Split(s, sep) == [""] + rest;
        assert s == [sep] + s[1..];
      } else {
        assert Split(s, sep) == [[s[0]] + rest[0]] + rest[1..];
        if |rest| == 1 {
          assert s == [s[0]] + s[1..];
        } else {
          assert ([[s[0]] + rest[0]] + rest[1..])[1..] == rest[1..];
          assert Join(rest, sep) == rest[0] + [sep] + Join(rest[1..], sep);
          assert s == [s[0]] + s[1..];
        }
      }
    }
  }

  /** The first piece of `s.split(re)`: everything before the first separator. */
  function FirstPiece(s: string, seps: set<char>): (r: string)
    ensures r == SplitOn(s, seps)[0]
    ensures |r| <= |s| && r == s[..|r|]
    ensures |r| < |s| ==> s[|r|] in seps
    ensures forall j :: 0 <= j < |r| ==> r[j] !in seps
    decreases |s|
  {
    if |s| == 0 || s[0] in seps then "" else [s[0]] + FirstPiece(s[1..], seps)
  }

  /** The first piece ends at the first separator, or at the end. */
  lemma FirstPieceAt(s: string, seps: set<char>, k: nat)
    requires k <= |s| && (k == |s| || s[k] in seps)
    requires forall j :: 0 <= j < k ==> s[j] !in seps
    ensures FirstPiece(s, seps) == s[..k]
  {
  }

  /** Splitting a concatenation at a separator splits the two halves apart. */
  lemma {:induction false} SplitAppend(a: string, b: string, sep: char)
    ensures Split(a + [sep] + b, sep) == Split(a, sep) + Split(b, sep)
    decreases |a|
  {
    if |a| == 0 {
      assert a + [sep] + b == [sep] + b;
      assert ([sep] + b)[1..] == b;
    } else {
      assert (a + [sep] + b)[1..] == a[1..] + [sep] + b;
      SplitAppend(a[1..], b, sep);
    }
  }

  /** Index of the first occurrence of `part` in `s`, if any. */
  function IndexOf(s: string, part: string): (r: Option<nat>)
    ensures r.Some? ==> OccursAt(s, r.value, part)
    ensures r.Some? ==> forall j :: 0 <= j < r.value ==> !OccursAt(s, j, part)
    ensures r.None? ==> forall j :: 0 <= j ==> !OccursAt(s, j, part)
    decreases |s|
  {
    if |part| > |s| then None
    else if s[..|part|] == part then Some(0)
    else
      match IndexOf(s[1..], part)
      case None =>
        assert forall j :: 1 <= j ==> OccursAt(s, j, part) ==> OccursAt(s[1..], j - 1, part);
        None
      case Some(k) =>
        assert forall j :: 1 <= j <= k ==> OccursAt(s, j, part) ==> OccursAt(s[1..], j - 1, part);
        assert s[k + 1..k + 1 + |part|] == s[1..][k..k + |part|];
        Some(k + 1)
  }

  /** `s.replace(part, repl)` with a string pattern: only the first occurrence
      is replaced. */
  function ReplaceFirst(s: string, part: string, repl: string): string {
    match IndexOf(s, part)
    case None => s
    case Some(i) => s[..i] + repl + s[i + |part|..]
  }

  /** Replacing a prefix that is present removes exactly that prefix. */
  lemma ReplaceFirstOfPrefix(s: string, part: string)
    requires StartsWith(s, part)
    ensures ReplaceFirst(s, part, "") == s[|part|..]
  {
    assert OccursAt(s, 0, part);
    assert IndexOf(s, part) == Some(0);
  }

  /** `s.replace(/c/g, repl)` for single characters. */
  function ReplaceAll(s: string, c: char, repl: char): (r: string)
    ensures |r| == |s|
    ensures forall i :: 0 <= i < |s| ==> r[i] == (if s[i] == c then repl else s[i])
  {
    seq(|s|, i requires 0 <= i < |s| => if s[i] == c then repl else s[i])
  }

  // ---------------------------------------------------------------------------
  // Decimal rendering: `String(n)` / `n.toString()` / Rust `{}` for integers

  function DigitChar(d: int): char
    requires 0 <= d < 10
  {
    ('0' as int + d) as char
  }

  function NatToString(n: nat): (r: string)
    ensures |r| >= 1
    ensures forall i :: 0 <= i < |r| ==> IsAsciiDigit(r[i])
    decreases n
  {
    if n < 10 then [DigitChar(n)] else NatToString(n / 10) + [DigitChar(n % 10)]
  }

  function IntToString(n: int): string {
    if n < 0 then "-" + NatToString(-n) else NatToString(n)
  }

  /** The value of a string of decimal digits: the reading direction of
      `NatToString`. */
  function DecimalValue(s: string): nat
    requires forall i :: 0 <= i < |s| ==> IsAsciiDigit(s[i])
    decreases |s|
  {
    if |s| == 0 then 0
    else
      assert IsAsciiDigit(s[|s| - 1]);
      DecimalValue(s[..|s| - 1]) * 10 + (s[|s| - 1] as int - '0' as int)
  }

  /** Rendering a natural number in decimal and reading the digits back gives
      the number again. */
  lemma {:induction false} DecimalRoundTrip(n: nat)
    ensures DecimalValue(NatToString(n)) == n
    decreases n
  {
    if n >= 10 {
      DecimalRoundTrip(n / 10);
      var s := NatToString(n);
      assert s[..|s| - 1] == NatToString(n / 10);
    }
  }

  lemma NatToStringInjective(m: nat, n: nat)
    requires NatToString(m) == NatToString(n)
    ensures m == n
  {
    DecimalRoundTrip(m);
    DecimalRoundTrip(n);
  }

  // ---------------------------------------------------------------------------
  // UTF-8 length (Rust `str::len`)

  function Utf8Width(c: char): nat {
    if c as int < 0x80 then 1
    else if c as int < 0x800 then 2
    else if c as int < 0x10000 then 3
    else 4
  }

  function Utf8Len(s: string): (r: nat)
    ensures r >= |s|
    decreases |s|
  {
    if |s| == 0 then 0 else Utf8Width(s[0]) + Utf8Len(s[1..])
  }

  lemma {:induction false} Utf8LenAscii(s: string)
    requires forall i :: 0 <= i < |s| ==> s[i] as int < 0x80
    ensures Utf8Len(s) == |s|
    decreases |s|
  {
    if |s| > 0 {
      Utf8LenAscii(s[1..]);
    }
  }
}

=== FILE: crypto.dfy ===
/** The cryptographic and encoding primitives the webhooks use, taken as
    given functions: HMAC-SHA256 and the byte/text codecs of Node's
    `Buffer`. Nothing about them is assumed beyond being functions. */
module Crypto {
  import opened Common

  datatype Primitives = Primitives(
    hmacSha256: (seq<byte>, seq<byte>) -> seq<byte>,  // key, message
    base64Encode: seq<byte> -> string,
    base64Decode: string -> seq<byte>,                 // lenient, never fails
    hexEncode: seq<byte> -> string,
    utf8Encode: string -> seq<byte>)

  /** `timingSafeEqual` guarded by a length check, as both webhooks call
      it: the byte strings agree in length and in every byte. */
  predicate SameBytes(a: seq<byte>, b: seq<byte>) {
    |a| == |b| && forall i :: 0 <= i < |a| ==> a[i] == b[i]
  }

  lemma SameBytesIsEquality(a: seq<byte>, b: seq<byte>)
    ensures SameBytes(a, b) <==> a == b
  {
  }
}

=== FILE: downloads.dfy ===
/** What the web site offers for download (apps/web/src/lib/downloads.tsx):
    the list of downloads extracted from a manifest and its display order,
    the URL chosen for a platform from a preference list, the platform read
    off a user-agent string, and the platform and title guessed for an
    unknown manifest key. The browser probing that produces the user-agent
    string and the Mac architecture hint is not modelled: both are
    parameters. `localeCompare` is a parameter too, assumed to be a total
    preorder. */
module Downloads {
  import opened Common
  import opened ReleaseAssets

  datatype Platform = Mac | Windows | Linux

  const DEFAULT_PLATFORM: Platform := Mac

  /** `PLATFORM_ORDER.indexOf(platform)` */
  function Rank(p: Platform): (r: int)
    ensures 0 <= r < 3
    ensures p == Mac <==> r == 0
  {
    match p
    case Mac => 0
    case Windows => 1
    case Linux => 2
  }

  // ---------------------------------------------------------------------------
  // Unknown keys

  /** `inferPlatformFromManifestKey`: the lower-cased key's first segment
      before "-" or "_", or a platform word anywhere in it; darwin/mac
      before windows before linux. */
  function InferPlatform(key: string): (r: Option<Platform>)
    ensures var n := Lower(key); var segment := FirstPiece(n, {'-', '_'});
      && (r == Some(Mac) <==> segment in {"darwin", "mac", "macos"} || Contains(n, "darwin"))
      && (r == Some(Windows) <==> (!(segment in {"darwin", "mac", "macos"} || Contains(n, "darwin"))
            && (segment in {"win", "windows"} || Contains(n, "windows"))))
      && (r.None? ==> !Contains(n, "linux"))
  {
    var n := Lower(key);
    var segment := FirstPiece(n, {'-', '_'});
    if segment == "darwin" || segment == "mac" || segment == "macos" || Contains(n, "darwin") then Some(Mac)
    else if segment == "win" || segment == "windows" || Contains(n, "windows") then Some(Windows)
    else if segment == "linux" || Contains(n, "linux") then Some(Linux)
    else None
  }

  /** `\w` in a regular expression without the `u` flag. */
  predicate IsWordChar(c: char) {
    ('a' <= c <= 'z') || ('A' <= c <= 'Z') || ('0' <= c <= '9') || c == '_'
  }

  /** `key.replace(/[-_]/g, " ")` */
  function SeparatorsToSpaces(key: string): (r: string)
    ensures |r| == |key|
    ensures forall i :: 0 <= i < |key| ==> r[i] == (if key[i] == '-' || key[i] == '_' then ' ' else key[i])
  {
    seq(|key|, i requires 0 <= i < |key| => if key[i] == '-' || key[i] == '_' then ' ' else key[i])
  }

  /** `s.replace(/\b\w/g, c => c.toUpperCase())`: every word character
      that starts a word is capitalised. */
  function CapitalizeWords(s: string): (r: string)
    ensures |r| == |s|
    ensures forall i :: 0 <= i < |s| ==> r[i] == (if IsWordChar(s[i]) && (i == 0 || !IsWordChar(s[i - 1])) then UpperChar(s[i]) else s[i])
  {
    seq(|s|, i requires 0 <= i < |s| => if IsWordChar(s[i]) && (i == 0 || !IsWordChar(s[i - 1])) then UpperChar(s[i]) else s[i])
  }

  /** `formatManifestKey` */
  function FormatManifestKey(key: string): string {
    CapitalizeWords(SeparatorsToSpaces(key))
  }

  /** The title keeps the key's length, has a space for every separator
      and no separator left, and differs from the key with spaces only in
      letter case. */
  lemma FormatManifestKeyShape(key: string)
    ensures |FormatManifestKey(key)| == |key|
    ensures forall i :: 0 <= i < |key| ==> (FormatManifestKey(key)[i] == ' ' <==> key[i] in {'-', '_', ' '})
    ensures Lower(FormatManifestKey(key)) == Lower(SeparatorsToSpaces(key))
  {
    var spaced := SeparatorsToSpaces(key);
    var shown := FormatManifestKey(key);
    forall i | 0 <= i < |key|
      ensures LowerChar(shown[i]) == LowerChar(spaced[i])
    {
    }
  }

  // ---------------------------------------------------------------------------
  // The download list

  /** An entry of the manifest key table. */
  datatype Meta = Meta(platform: Platform, title: string, description: string, advanced: bool)

  /** `MANIFEST_KEY_DETAILS`, with the messages' default (English) text. */
  function KeyDetails(key: string): Option<Meta> {
    if key == "darwin-aarch64" then Some(Meta(Mac, "macOS (Apple silicon)", "Universal .app bundle", false))
    else if key == "darwin-x86_64" then Some(Meta(Mac, "macOS (Intel)", "Universal .app bundle", false))
    else if key == "darwin-universal" then Some(Meta(Mac, "macOS (Universal)", "Installer for all macOS architectures", false))
    else if key == "windows-x86_64" then Some(Meta(Windows, "Windows (x64)", ".msi installer", false))
    else if key == "windows-x86_64-gpu" then Some(Meta(Windows, "Windows (x64 GPU)", ".msi installer with Vulkan acceleration", true))
    else if key == "linux-x86_64" then Some(Meta(Linux, "Linux (x86_64)", "AppImage", false))
    else if key == "linux-x86_64-gpu" then Some(Meta(Linux, "Linux (x86_64 GPU)", "AppImage with Vulkan acceleration", true))
    else if key == "linux-x86_64-gpu-deb" then Some(Meta(Linux, "Linux (x86_64 GPU)", ".deb with Vulkan acceleration", true))
    else if key == "linux-x86_64-gpu-rpm" then Some(Meta(Linux, "Linux (x86_64 GPU)", ".rpm with Vulkan acceleration", true))
    else if key == "windows-x86_64-gpu-nsis" then Some(Meta(Windows, "Windows (x64 GPU)", ".exe installer with Vulkan acceleration", true))
    else None
  }

  /** A `PlatformDownload`; `description` is absent for unknown keys and
      `advanced` is false unless the table says otherwise. */
  datatype Download = Download(platform: Platform, key: string, title: string, description: Option<string>, url: string, advanced: bool)

  /** The `flatMap` step for one manifest entry. */
  function ToDownload(key: string, details: Option<Details>): (r: Option<Download>)
    ensures r.Some? <==> details.Some? && details.value.url != ""
    ensures r.Some? ==> r.value.key == key && r.value.url == details.value.url
    ensures r.Some? && KeyDetails(key).Some? ==> var m := KeyDetails(key).value;
      r.value.platform == m.platform && r.value.title == m.title
      && r.value.description == Some(m.description) && r.value.advanced == m.advanced
    ensures r.Some? && KeyDetails(key).None? ==>
      r.value.platform == InferPlatform(key).GetOr(DEFAULT_PLATFORM) && r.value.title == FormatManifestKey(key)
      && r.value.description.None? && !r.value.advanced
  {
    match details
    case None => None
    case Some(d) =>
      if d.url == "" then None
      else match KeyDetails(key)
        case Some(m) => Some(Download(m.platform, key, m.title, Some(m.description), d.url, m.advanced))
        case None => Some(Download(InferPlatform(key).GetOr(DEFAULT_PLATFORM), key, FormatManifestKey(key), None, d.url, false))
  }

  /** The entries with a URL, in manifest order. */
  function Candidates(ps: Platforms): (r: seq<Download>)
    ensures |r| <= |ps|
    decreases |ps|
  {
    if |ps| == 0 then []
    else
      var rest := Candidates(ps[1..]);
      match ToDownload(ps[0].0, ps[0].1)
      case None => rest
      case Some(d) => [d] + rest
  }

  /** Exactly the entries with a URL become downloads. */
  lemma {:induction false} CandidatesExact(ps: Platforms, d: Download)
    ensures d in Candidates(ps) <==> exists i | 0 <= i < |ps| :: ToDownload(ps[i].0, ps[i].1) == Some(d)
    decreases |ps|
  {
    if |ps| > 0 {
      CandidatesExact(ps[1..], d);
      assert forall i | 1 <= i < |ps| :: ps[i] == ps[1..][i - 1];
      if ToDownload(ps[0].0, ps[0].1) == Some(d) {
        assert d in Candidates(ps);
      }
      if exists i | 1 <= i < |ps| :: ToDownload(ps[i].0, ps[i].1) == Some(d) {
        var i :| 1 <= i < |ps| && ToDownload(ps[i].0, ps[i].1) == Some(d);
        assert ToDownload(ps[1..][i - 1].0, ps[1..][i - 1].1) == Some(d);
      }
    }
  }

  /** `localeCompare` */
  type Collation = (string, string) -> int

  /** `localeCompare` orders all strings: any two compare one way or the
      other, and the order is transitive. */
  ghost predicate TotalPreorder(lc: Collation) {
    && (forall a, b :: lc(a, b) <= 0 || lc(b, a) <= 0)
    && (forall a, b, c :: lc(a, b) <= 0 && lc(b, c) <= 0 ==> lc(a, c) <= 0)
  }

  function IsGpu(d: Download): bool {
    Contains(d.key, "gpu")
  }

  /** The comparator passed to `sort`. */
  function Compare(a: Download, b: Download, lc: Collation): int {
    var platformOrder := Rank(a.platform) - Rank(b.platform);
    if platformOrder != 0 then platformOrder
    else if IsGpu(a) != IsGpu(b) then (if IsGpu(a) then 1 else -1)
    else lc(a.title, b.title)
  }

  /** `a` may stand before `b`: platform order first, then non-GPU before
      GPU, then title order. */
  predicate Before(a: Download, b: Download, lc: Collation) {
    Compare(a, b, lc) <= 0
  }

  lemma BeforeMeaning(a: Download, b: Download, lc: Collation)
    ensures Before(a, b, lc) <==>
      || Rank(a.platform) < Rank(b.platform)
      || (Rank(a.platform) == Rank(b.platform) && !IsGpu(a) && IsGpu(b))
      || (Rank(a.platform) == Rank(b.platform) && IsGpu(a) == IsGpu(b) && lc(a.title, b.title) <= 0)
  {
  }

  lemma BeforeTotal(a: Download, b: Download, lc: Collation)
    requires TotalPreorder(lc)
    ensures Before(a, b, lc) || Before(b, a, lc)
  {
    BeforeMeaning(a, b, lc);
    BeforeMeaning(b, a, lc);
  }

  lemma BeforeTransitive(a: Download, b: Download, c: Download, lc: Collation)
    requires TotalPreorder(lc)
    requires Before(a, b, lc) && Before(b, c, lc)
    ensures Before(a, c, lc)
  {
    BeforeMeaning(a, b, lc);
    BeforeMeaning(b, c, lc);
    BeforeMeaning(a, c, lc);
  }

  predicate Sorted(s: seq<Download>, lc: Collation) {
    forall i, j :: 0 <= i < j < |s| ==> Before(s[i], s[j], lc)
  }

  /** Puts `x` in front of the first element it may stand before. */
  function Insert(x: Download, s: seq<Download>, lc: Collation): (r: seq<Download>)
    ensures multiset(r) == multiset(s) + multiset{x}
    decreases |s|
  {
    if |s| == 0 || Before(x, s[0], lc) then [x] + s
    else
      var r := [s[0]] + Insert(x, s[1..], lc);
      assert s == [s[0]] + s[1..];
      r
  }

  /** An element that may stand before every element of a sorted list
      keeps it sorted in front. */
  lemma ConsSorted(x: Download, s: seq<Download>, lc: Collation)
    requires Sorted(s, lc)
    requires forall j :: 0 <= j < |s| ==> Before(x, s[j], lc)
    ensures Sorted([x] + s, lc)
  {
    var r := [x] + s;
    forall i, j | 0 <= i < j < |r|
      ensures Before(r[i], r[j], lc)
    {
      assert r[j] == s[j - 1];
      if i > 0 {
        assert r[i] == s[i - 1];
      }
    }
  }

  lemma SortedTail(s: seq<Download>, lc: Collation)
    requires |s| > 0 && Sorted(s, lc)
    ensures Sorted(s[1..], lc)
  {
    forall i, j | 0 <= i < j < |s| - 1
      ensures Before(s[1..][i], s[1..][j], lc)
    {
      assert s[1..][i] == s[i + 1] && s[1..][j] == s[j + 1];
    }
  }

  /** What may stand before the head of a sorted list may stand before
      all of it. */
  lemma BeforeHeadBeforeAll(x: Download, s: seq<Download>, lc: Collation)
    requires TotalPreorder(lc) && Sorted(s, lc) && |s| > 0 && Before(x, s[0], lc)
    ensures forall j :: 0 <= j < |s| ==> Before(x, s[j], lc)
  {
    forall j | 0 < j < |s|
      ensures Before(x, s[j], lc)
    {
      BeforeTransitive(x, s[0], s[j], lc);
    }
  }

  /** The head of a sorted list may stand before everything of its tail
      with `x` inserted, when it may stand before `x`. */
  lemma HeadBeforeInsert(x: Download, s: seq<Download>, lc: Collation)
    requires |s| > 0 && Sorted(s, lc) && Before(s[0], x, lc)
    ensures forall j :: 0 <= j < |Insert(x, s[1..], lc)| ==> Before(s[0], Insert(x, s[1..], lc)[j], lc)
  {
    var tail := Insert(x, s[1..], lc);
    forall j | 0 <= j < |tail|
      ensures Before(s[0], tail[j], lc)
    {
      assert tail[j] in multiset(tail);
      assert tail[j] == x || tail[j] in multiset(s[1..]);
      if tail[j] != x {
        var k :| 0 <= k < |s[1..]| && s[1..][k] == tail[j];
        assert s[k + 1] == tail[j];
      }
    }
  }

  lemma {:induction false} InsertSorted(x: Download, s: seq<Download>, lc: Collation)
    requires TotalPreorder(lc) && Sorted(s, lc)
    ensures Sorted(Insert(x, s, lc), lc)
    decreases |s|
  {
    if |s| == 0 {
    } else if Before(x, s[0], lc) {
      BeforeHeadBeforeAll(x, s, lc);
      ConsSorted(x, s, lc);
    } else {
      BeforeTotal(x, s[0], lc);
      SortedTail(s, lc);
      InsertSorted(x, s[1..], lc);
      HeadBeforeInsert(x, s, lc);
      ConsSorted(s[0], Insert(x, s[1..], lc), lc);
    }
  }

  /** The `sort` call: a stable insertion sort under `Compare`. */
  function SortDownloads(s: seq<Download>, lc: Collation): (r: seq<Download>)
    ensures multiset(r) == multiset(s)
    decreases |s|
  {
    if |s| == 0 then []
    else
      var r := Insert(s[0], SortDownloads(s[1..], lc), lc);
      assert s == [s[0]] + s[1..];
      r
  }

  lemma {:induction false} SortDownloadsSorted(s: seq<Download>, lc: Collation)
    requires TotalPreorder(lc)
    ensures Sorted(SortDownloads(s, lc), lc)
    decreases |s|
  {
    if |s| > 0 {
      SortDownloadsSorted(s[1..], lc);
      InsertSorted(s[0], SortDownloads(s[1..], lc), lc);
    }
  }

  /** `extractDownloads` on the manifest's entries. */
  function ExtractDownloads(ps: Platforms, lc: Collation): (r: seq<Download>)
    ensures multiset(r) == multiset(Candidates(ps))
  {
    SortDownloads(Candidates(ps), lc)
  }

  /** The list holds exactly the entries with a URL, each once per entry,
      in platform order (mac, windows, linux), non-GPU keys before GPU
      keys of the same platform, and by title within each group. */
  lemma ExtractDownloadsOrdered(ps: Platforms, lc: Collation, d: Download)
    requires TotalPreorder(lc)
    ensures d in ExtractDownloads(ps, lc) <==> exists i | 0 <= i < |ps| :: ToDownload(ps[i].0, ps[i].1) == Some(d)
    ensures forall i, j :: 0 <= i < j < |ExtractDownloads(ps, lc)| ==>
      var a, b := ExtractDownloads(ps, lc)[i], ExtractDownloads(ps, lc)[j];
      && Rank(a.platform) <= Rank(b.platform)
      && (Rank(a.platform) == Rank(b.platform) && IsGpu(a) ==> IsGpu(b))
      && (Rank(a.platform) == Rank(b.platform) && IsGpu(a) == IsGpu(b) ==> lc(a.title, b.title) <= 0)
  {
    var r := ExtractDownloads(ps, lc);
    CandidatesExact(ps, d);
    assert d in r <==> d in multiset(r);
    assert d in Candidates(ps) <==> d in multiset(Candidates(ps));
    SortDownloadsSorted(Candidates(ps), lc);
    forall i, j | 0 <= i < j < |r|
      ensures Rank(r[i].platform) <= Rank(r[j].platform)
      ensures Rank(r[i].platform) == Rank(r[j].platform) && IsGpu(r[i]) ==> IsGpu(r[j])
      ensures Rank(r[i].platform) == Rank(r[j].platform) && IsGpu(r[i]) == IsGpu(r[j]) ==> lc(r[i].title, r[j].title) <= 0
    {
      BeforeMeaning(r[i], r[j], lc);
    }
  }

  // ---------------------------------------------------------------------------
  // Choosing a URL

  /** `buildPlatformPreference`; `macKey` is what the architecture probe
      reported. */
  function PlatformPreference(platform: Platform, macKey: Option<string>): (r: seq<string>)
    ensures |r| > 0
  {
    match platform
    case Mac =>
      if macKey == Some("darwin-aarch64") then ["darwin-aarch64", "darwin-universal"]
      else if macKey == Some("darwin-x86_64") then ["darwin-x86_64", "darwin-universal"]
      else ["darwin-universal", "darwin-aarch64", "darwin-x86_64"]
    case Windows => ["windows-x86_64", "windows-x86_64-msi", "windows-x86_64-nsis"]
    case Linux => ["linux-x86_64", "linux-x86_64-appimage", "linux-x86_64-deb", "linux-x86_64-rpm"]
  }

  /** `manifest.platforms[key]?.url` when it is a non-empty string. */
  function UrlOf(ps: Platforms, key: string): Option<string> {
    match Lookup(ps, key)
    case Some(Some(d)) => if d.url != "" then Some(d.url) else None
    case _ => None
  }

  /** The index of the first preferred key that has a URL. */
  function FirstWithUrl(ps: Platforms, keys: seq<string>): (r: Option<nat>)
    ensures r.Some? ==> r.value < |keys| && UrlOf(ps, keys[r.value]).Some?
    ensures r.Some? ==> forall j :: 0 <= j < r.value ==> UrlOf(ps, keys[j]).None?
    ensures r.None? ==> forall j :: 0 <= j < |keys| ==> UrlOf(ps, keys[j]).None?
    decreases |keys|
  {
    if |keys| == 0 then None
    else if UrlOf(ps, keys[0]).Some? then Some(0)
    else
      match FirstWithUrl(ps, keys[1..])
      case None => None
      case Some(k) => Some(k + 1)
  }

  /** `selectPlatformUrl` */
  function SelectPlatformUrl(ps: Platforms, platform: Platform, macKey: Option<string>): (r: Option<string>)
    ensures var pref := PlatformPreference(platform, macKey);
      && (r.None? <==> forall j :: 0 <= j < |pref| ==> UrlOf(ps, pref[j]).None?)
      && (r.Some? ==> exists i :: (0 <= i < |pref| && UrlOf(ps, pref[i]) == r
            && forall j :: 0 <= j < i ==> UrlOf(ps, pref[j]).None?))
  {
    var pref := PlatformPreference(platform, macKey);
    match FirstWithUrl(ps, pref)
    case None => None
    case Some(i) => UrlOf(ps, pref[i])
  }

  /** Every preferred key names its own platform: inference from the key
      alone gives the platform whose list it is on. */
  lemma PreferencesNameTheirPlatform(platform: Platform, macKey: Option<string>, i: nat)
    requires i < |PlatformPreference(platform, macKey)|
    ensures InferPlatform(PlatformPreference(platform, macKey)[i]) == Some(platform)
  {
    var key := PlatformPreference(platform, macKey)[i];
    match platform
    case Mac => MacKeyInfers(key);
    case Windows => WindowsKeyInfers(key);
    case Linux => LinuxKeyInfers(key);
  }

  lemma MacKeyInfers(key: string)
    requires key in {"darwin-aarch64", "darwin-universal", "darwin-x86_64"}
    ensures InferPlatform(key) == Some(Mac)
  {
    if key == "darwin-aarch64" {
      DarwinKey("darwin-aarch64");
    } else if key == "darwin-universal" {
      DarwinKey("darwin-universal");
    } else {
      DarwinKey("darwin-x86_64");
    }
  }

  lemma WindowsKeyInfers(key: string)
    requires key in {"windows-x86_64", "windows-x86_64-msi", "windows-x86_64-nsis"}
    ensures InferPlatform(key) == Some(Windows)
  {
    if key == "windows-x86_64" {
      WindowsKey("windows-x86_64");
    } else if key == "windows-x86_64-msi" {
      WindowsKey("windows-x86_64-msi");
    } else {
      WindowsKey("windows-x86_64-nsis");
    }
  }

  lemma LinuxKeyInfers(key: string)
    requires key in {"linux-x86_64", "linux-x86_64-appimage", "linux-x86_64-deb", "linux-x86_64-rpm"}
    ensures InferPlatform(key) == Some(Linux)
  {
    if key == "linux-x86_64" {
      LinuxKey("linux-x86_64");
    } else if key == "linux-x86_64-appimage" {
      LinuxKey("linux-x86_64-appimage");
    } else if key == "linux-x86_64-deb" {
      LinuxKey("linux-x86_64-deb");
    } else {
      LinuxKey("linux-x86_64-rpm");
    }
  }

  /** A lower-case key starting "darwin-" infers macOS. */
  lemma DarwinKey(key: string)
    requires 6 < |key| && key[..7] == "darwin-"
    requires forall j :: 0 <= j < |key| ==> !('A' <= key[j] <= 'Z')
    ensures InferPlatform(key) == Some(Mac)
  {
    SegmentBefore(key, 6);
    assert key[..6] == key[..7][..6];
  }

  /** A lower-case key starting "windows-" without an "r" infers Windows. */
  lemma WindowsKey(key: string)
    requires 7 < |key| && key[..8] == "windows-"
    requires forall j :: 0 <= j < |key| ==> !('A' <= key[j] <= 'Z') && key[j] != 'r'
    ensures InferPlatform(key) == Some(Windows)
  {
    SegmentBefore(key, 7);
    assert key[..7] == key[..8][..7];
    Lacks(key, "darwin", 'r');
  }

  /** A lower-case key starting "linux-" without a "w" infers Linux. */
  lemma LinuxKey(key: string)
    requires 5 < |key| && key[..6] == "linux-"
    requires forall j :: 0 <= j < |key| ==> !('A' <= key[j] <= 'Z') && key[j] != 'w'
    ensures InferPlatform(key) == Some(Linux)
  {
    SegmentBefore(key, 5);
    assert key[..5] == key[..6][..5];
    Lacks(key, "darwin", 'w');
    Lacks(key, "windows", 'w');
  }

  /** A lower-case key whose first separator is at `k` has its first `k`
      characters as the segment inference looks at. */
  lemma SegmentBefore(key: string, k: nat)
    requires k < |key| && key[k] == '-'
    requires forall j :: 0 <= j < |key| ==> !('A' <= key[j] <= 'Z')
    requires forall j :: 0 <= j < k ==> key[j] !in {'-', '_'}
    ensures Lower(key) == key
    ensures FirstPiece(Lower(key), {'-', '_'}) == key[..k]
  {
    assert Lower(key) == key;
  }

  /** A string without some character of `word` does not contain `word`. */
  lemma Lacks(s: string, word: string, c: char)
    requires c in word
    requires forall j :: 0 <= j < |s| ==> s[j] != c
    ensures !Contains(s, word)
  {
    var k :| 0 <= k < |word| && word[k] == c;
    forall i | 0 <= i <= |s| - |word|
      ensures !OccursAt(s, i, word)
    {
      assert s[i + k] != c;
    }
  }

  // ---------------------------------------------------------------------------
  // Platform detection

  /** `detectPlatform`; `hasWindow` is false when rendering without a
      browser and `ua` is the user agent, platform hint and platform joined
      with spaces. */
  function DetectPlatform(hasWindow: bool, ua: string): (r: Platform)
    ensures !hasWindow ==> r == DEFAULT_PLATFORM
    ensures hasWindow ==> (r == Windows <==> Contains(Lower(ua), "win"))
    ensures hasWindow ==> (r == Linux <==> (!Contains(Lower(ua), "win") && !Contains(Lower(ua), "mac")
      && !Contains(Lower(ua), "darwin") && Contains(Lower(ua), "linux") && !Contains(Lower(ua), "android")))
  {
    if !hasWindow then DEFAULT_PLATFORM
    else
      var n := Lower(ua);
      if Contains(n, "win") then Windows
      else if Contains(n, "mac") || Contains(n, "darwin") then Mac
      else if Contains(n, "linux") && !Contains(n, "android") then Linux
      else DEFAULT_PLATFORM
  }

  /** "darwin" contains "win", so a user agent mentioning Darwin is taken
      for Windows: the Darwin test after the Windows test never decides. */
  lemma DarwinReadsAsWindows(ua: string)
    requires Contains(Lower(ua), "darwin")
    ensures DetectPlatform(true, ua) == Windows
  {
    var n := Lower(ua);
    var i :| 0 <= i <= |n| - 6 && OccursAt(n, i, "darwin");
    assert n[i + 3..i + 6] == n[i..i + 6][3..] == "win";
    assert OccursAt(n, i + 3, "win");
  }

  /** The evident intent of `detectPlatform`: a user agent that names
      Darwin is a Mac. The Darwin test comes first; everything else is
      decided as before. */
  function DetectPlatformIntended(hasWindow: bool, ua: string): (r: Platform)
    ensures hasWindow && Contains(Lower(ua), "darwin") ==> r == Mac
    ensures !(hasWindow && Contains(Lower(ua), "darwin")) ==> r == DetectPlatform(hasWindow, ua)
  {
    if hasWindow && Contains(Lower(ua), "darwin") then Mac else DetectPlatform(hasWindow, ua)
  }

  /** The two differ exactly on user agents that name Darwin. */
  lemma DetectionDiffersOnlyOnDarwin(hasWindow: bool, ua: string)
    ensures DetectPlatformIntended(hasWindow, ua) != DetectPlatform(hasWindow, ua)
      <==> hasWindow && Contains(Lower(ua), "darwin")
  {
    if hasWindow && Contains(Lower(ua), "darwin") {
      DarwinReadsAsWindows(ua);
    }
  }
}

=== FILE: generate_text.dfy ===
/** Text generation with token metering, generate-text/index.ts: model
    name resolution, the chat request built from the body, and the token
    counters added to after a successful completion. */
module GenerateText {
  import opened Common
  import opened JsonValues
  import opened Http
  import opened Members

  const MEDIUM_MODEL: string := "meta-llama/llama-4-scout-17b-16e-instruct"
  const LARGE_MODEL: string := "openai/gpt-oss-120b"
  const MODEL_MAP: map<string, string> := map["medium" := MEDIUM_MODEL, "large" := LARGE_MODEL]

  /** `MODEL_MAP[model || "medium"] || MODEL_MAP.medium`: the key is the
      requested value rendered as a string. A key naming an inherited
      method resolves to that function, which `JSON.stringify` leaves out
      of the request: `None`. */
  function ResolveModel(model: Option<Json>): (r: Option<string>)
    ensures r.Some? ==> r.value == MEDIUM_MODEL || r.value == LARGE_MODEL
    ensures r == Some(LARGE_MODEL) <==> Truthy(model) && JsString(model.value) == "large"
    ensures r.None? <==> JsString(Or(model, JStr("medium"))) in INHERITED
  {
    var key := JsString(Or(model, JStr("medium")));
    if key in MODEL_MAP && MODEL_MAP[key] != "" then Some(MODEL_MAP[key])
    else if key in INHERITED then None
    else Some(MODEL_MAP["medium"])
  }

  /** An absent or empty model name, and any name outside the table, mean
      the medium model. */
  lemma ResolveModelCases(name: string)
    ensures ResolveModel(None) == Some(MEDIUM_MODEL) && ResolveModel(Some(JNull)) == Some(MEDIUM_MODEL)
    ensures ResolveModel(Some(JStr(""))) == Some(MEDIUM_MODEL)
    ensures ResolveModel(Some(JStr(name))) ==
              (if name == "large" then Some(LARGE_MODEL) else if name in INHERITED then None else Some(MEDIUM_MODEL))
  {
  }

  datatype Message = Message(role: string, content: Json)

  /** `[{ role: "system", content: system }]` when `system` is truthy, then
      the user's prompt. */
  function Messages(system: Option<Json>, prompt: Json): (r: seq<Message>)
    ensures |r| == (if Truthy(system) then 2 else 1)
    ensures r[|r| - 1] == Message("user", prompt)
    ensures Truthy(system) ==> r[0] == Message("system", system.value)
  {
    (if Truthy(system) then [Message("system", system.value)] else []) + [Message("user", prompt)]
  }

  function MessageJson(m: Message): Json {
    JObj(map["role" := JStr(m.role), "content" := m.content])
  }

  /** An object of the fields that are not `undefined`, as
      `JSON.stringify` writes it. */
  function Defined(fields: map<string, Option<Json>>): (r: Json)
    ensures r.JObj? && forall k :: k in r.fields <==> k in fields && fields[k].Some?
  {
    JObj(map k | k in fields && fields[k].Some? :: fields[k].value)
  }

  /** The chat-completions request: fixed sampling parameters, and a
      `json_schema` response format only for a truthy `jsonResponse`. */
  function RequestBody(body: Json): (r: Json)
    requires body != JNull
    ensures r.JObj? && "temperature" in r.fields && "max_completion_tokens" in r.fields && "top_p" in r.fields
    ensures r.fields["temperature"] == JNum(1) && r.fields["max_completion_tokens"] == JNum(1024) && r.fields["top_p"] == JNum(1)
    ensures "model" in r.fields <==> ResolveModel(OptProp(Some(body), "model")).Some?
    ensures "model" in r.fields ==> r.fields["model"] == JStr(ResolveModel(OptProp(Some(body), "model")).value)
    ensures "response_format" in r.fields <==> Truthy(OptProp(Some(body), "jsonResponse"))
  {
    var messages := Messages(OptProp(Some(body), "system"), OptProp(Some(body), "prompt").GetOr(JNull));
    var model := ResolveModel(OptProp(Some(body), "model"));
    var fixed := map[
      "messages" := JArr(seq(|messages|, i requires 0 <= i < |messages| => MessageJson(messages[i]))),
      "temperature" := JNum(1),
      "max_completion_tokens" := JNum(1024),
      "top_p" := JNum(1)];
    var base := if model.Some? then fixed["model" := JStr(model.value)] else fixed;
    var schema := OptProp(Some(body), "jsonResponse");
    if !Truthy(schema) then JObj(base)
    else
      var format := JObj(map[
        "type" := JStr("json_schema"),
        "json_schema" := Defined(map[
          "name" := OptProp(schema, "name"),
          "description" := OptProp(schema, "description"),
          "schema" := OptProp(schema, "schema")])]);
      JObj(base["response_format" := format])
  }

  /** The chat service: the provider's answer to a request body sent with
      an `Authorization` header (`None` when `fetch` rejects). */
  type Chat = (string, Json) -> Option<FetchReply>

  datatype Outcome = Outcome(response: Response, sent: Option<Json>, store: Store)

  /** The three token counters, each grown by `used`. */
  function TokenPatch(m: Member, used: int): Patch {
    NO_COLUMNS.(tokensToday := Some(m.tokensToday + used),
                tokensThisMonth := Some(m.tokensThisMonth + used),
                tokensTotal := Some(m.tokensTotal + used))
  }

  /** The request handler. Everything after the caller is known runs in a
      `try`: an exception is answered with 500 and its message (`thrown`).
      The counter update's own error is not looked at. */
  function Handle(req: Request, rt: Runtime, s: Store, readFault: Option<DbError>, chat: Chat,
                  writeFault: Option<string>, thrown: string): (o: Outcome)
    ensures req.corsPreflight ==> o == Outcome(Preflight, None, s)
    ensures !req.corsPreflight && GetUser(req, rt).None? ==> o == Outcome(ErrorResponse("Unauthorized", 401), None, s)
    ensures !req.corsPreflight && GetUser(req, rt).Some? && rt.parseJson(req.body).None? ==>
              o == Outcome(ErrorResponse(thrown, 500), None, s)
    ensures (!req.corsPreflight && GetUser(req, rt).Some? && rt.parseJson(req.body).Some?
             && rt.parseJson(req.body).value != JNull && !Truthy(OptProp(rt.parseJson(req.body), "prompt"))) ==>
              o == Outcome(ErrorResponse("prompt is required"), None, s)
    ensures (!req.corsPreflight && GetUser(req, rt).Some? && Truthy(OptProp(rt.parseJson(req.body), "prompt"))) ==>
              if EnvValue(rt, "GROQ_API_KEY").None? then o == Outcome(ErrorResponse("GROQ_API_KEY not configured", 500), None, s)
              else ReadSingle(s, GetUser(req, rt).value.id, readFault).Failed? ==>
                     o == Outcome(ErrorResponse("Member not initialized. Call member-init first.", 403), None, s)
    // the request is built from the body, and only past every gate
    ensures o.sent.Some? ==>
              && GetUser(req, rt).Some? && rt.parseJson(req.body).Some? && rt.parseJson(req.body).value != JNull
              && ReadSingle(s, GetUser(req, rt).value.id, readFault).Row?
              && o.sent.value == RequestBody(rt.parseJson(req.body).value)
    ensures o.store != s ==> o.sent.Some?
  {
    if req.corsPreflight then Outcome(Preflight, None, s)
    else match GetUser(req, rt)
      case None => Outcome(ErrorResponse("Unauthorized", 401), None, s)
      case Some(user) =>
        var caught := Outcome(ErrorResponse(thrown, 500), None, s);
        match rt.parseJson(req.body)
        case None => caught
        case Some(body) =>
          match Prop(Some(body), "prompt")
          case Threw => caught
          case Got(prompt) =>
            if !Truthy(prompt) then Outcome(ErrorResponse("prompt is required"), None, s)
            else match EnvValue(rt, "GROQ_API_KEY")
              case None => Outcome(ErrorResponse("GROQ_API_KEY not configured", 500), None, s)
              case Some(key) =>
                match ReadSingle(s, user.id, readFault)
                case Failed(_) => Outcome(ErrorResponse("Member not initialized. Call member-init first.", 403), None, s)
                case Row(_) => Generate(s, user.id, RequestBody(body), key, chat, rt, writeFault, thrown)
  }

  /** The completion and the counter update once the caller's row was
      read: the request is sent, and only a completion with a numeric
      token count writes, and then only the caller's counters. */
  function Generate(s: Store, id: string, request: Json, key: string, chat: Chat, rt: Runtime,
                    writeFault: Option<string>, thrown: string): (o: Outcome)
    requires id in s
    ensures o.sent == Some(request)
    ensures o.store != s ==>
              && o.response.Reply? && o.response.status == 200
              && o.store.Keys == s.Keys
              && (forall k | k in s && k != id :: o.store[k] == s[k])
              && exists used: int :: o.store[id] == Apply(s[id], TokenPatch(s[id], used))
  {
    match Completed(chat(BEARER + key, request), rt, thrown)
    case Left(response) => Outcome(response, Some(request), s)
    case Right((text, used)) =>
      var written := match used
        case Some(n) => Commit(s, UpdateById(s, id, TokenPatch(s[id], n)), writeFault)
        // a usage that is not a number is taken as a refused write
        case None => s;
      Outcome(JsonResponse(JObj(map["text" := text])), Some(request), written)
  }

  /** Only a successful completion writes, and then only the caller's
      token counters. */
  lemma OnlyCallerCountersWritten(req: Request, rt: Runtime, s: Store, readFault: Option<DbError>, chat: Chat,
                                  writeFault: Option<string>, thrown: string)
    ensures var o := Handle(req, rt, s, readFault, chat, writeFault, thrown);
      o.store != s ==>
        && o.response.Reply? && o.response.status == 200 && GetUser(req, rt).Some?
        && var id := GetUser(req, rt).value.id;
           && id in s && o.store.Keys == s.Keys
           && (forall k | k in s && k != id :: o.store[k] == s[k])
           && exists used: int :: o.store[id] == Apply(s[id], TokenPatch(s[id], used))
  {
  }

  datatype Either<L, R> = Left(left: L) | Right(right: R)

  /** The provider's reply read as `result.choices[0].message?.content || ""`
      and `result.usage?.total_tokens || 0`: either the response to send
      at once, or the text with the tokens used (`None` when that value is
      not a number). */
  function Completed(reply: Option<FetchReply>, rt: Runtime, thrown: string): (r: Either<Response, (Json, Option<int>)>)
    ensures reply.None? ==> r == Left(ErrorResponse(thrown, 500))
    ensures reply.Some? && !reply.value.ok ==>
              r == Left(ErrorResponse("Groq API error: " + IntToString(reply.value.status) + " " + reply.value.body, 502))
    ensures reply.Some? && reply.value.ok && rt.parseJson(reply.value.body).Some? ==>
              var result := rt.parseJson(reply.value.body);
              result.value != JNull && (!Truthy(OptProp(result, "choices"))
                                        || OptProp(OptProp(result, "choices"), "length") == Some(JNum(0))) ==>
                r == Left(ErrorResponse("No response from Groq", 502))
    ensures r.Right? ==> reply.Some? && reply.value.ok
  {
    match reply
    case None => Left(ErrorResponse(thrown, 500))
    case Some(rep) =>
      if !rep.ok then Left(ErrorResponse("Groq API error: " + IntToString(rep.status) + " " + rep.body, 502))
      else match rt.parseJson(rep.body)
        case None => Left(ErrorResponse(thrown, 500))
        case Some(result) =>
          match Prop(Some(result), "choices")
          case Threw => Left(ErrorResponse(thrown, 500))
          case Got(choices) =>
            if !Truthy(choices) || Prop(choices, "length") == Got(Some(JNum(0))) then
              Left(ErrorResponse("No response from Groq", 502))
            else match Index(choices, 0)
              case Threw => Left(ErrorResponse(thrown, 500))
              case Got(first) =>
                match Prop(first, "message")
                case Threw => Left(ErrorResponse(thrown, 500))
                case Got(message) =>
                  var text := Or(OptProp(message, "content"), JStr(""));
                  var used := Or(OptProp(OptProp(Some(result), "usage"), "total_tokens"), JNum(0));
                  Right((text, if used.JNum? then Some(used.n) else None))
  }

  /** A completion reporting `total_tokens` n grows each of the caller's
      three token counters by exactly n and writes nothing else; a missing
      count adds 0. */
  lemma TokensGrowByUsage(m: Member, n: int)
    ensures var r := Apply(m, TokenPatch(m, n));
            && r.tokensToday == m.tokensToday + n
            && r.tokensThisMonth == m.tokensThisMonth + n
            && r.tokensTotal == m.tokensTotal + n
            && r == m.(tokensToday := r.tokensToday, tokensThisMonth := r.tokensThisMonth, tokensTotal := r.tokensTotal)
    ensures Apply(m, TokenPatch(m, 0)) == m
  {
  }

  /** A reply with one choice yields that choice's content and the
      reported token count. */
  lemma CompletedReadsFirstChoice(rt: Runtime, thrown: string, replyText: string, content: string, n: int)
    requires rt.parseJson(replyText) == Some(JObj(map[
               "choices" := JArr([JObj(map["message" := JObj(map["content" := JStr(content)])])]),
               "usage" := JObj(map["total_tokens" := JNum(n)])]))
    ensures Completed(Some(FetchReply(true, 200, replyText)), rt, thrown) == Right((JStr(content), Some(n)))
  {
    var result := rt.parseJson(replyText).value;
    var choices := JArr([JObj(map["message" := JObj(map["content" := JStr(content)])])]);
    assert Prop(Some(result), "choices") == Got(Some(choices));
    assert Prop(Some(choices), "length") == Got(Some(JNum(1)));
    assert Index(Some(choices), 0) == Got(Some(choices.items[0]));
    assert OptProp(OptProp(Some(result), "usage"), "total_tokens") == Some(JNum(n));
  }

  /** End to end: a reply with one choice and `usage.total_tokens` n adds n
      to the caller's counters and answers the choice's content. */
  lemma SuccessfulCompletion(req: Request, rt: Runtime, s: Store, chat: Chat, thrown: string,
                             body: Json, key: string, replyText: string, content: string, n: int)
    requires !req.corsPreflight && GetUser(req, rt).Some? && GetUser(req, rt).value.id in s
    requires rt.parseJson(req.body) == Some(body) && body.JObj? && "prompt" in body.fields && Truthy(Some(body.fields["prompt"]))
    requires EnvValue(rt, "GROQ_API_KEY") == Some(key)
    requires chat(BEARER + key, RequestBody(body)) == Some(FetchReply(true, 200, replyText))
    requires rt.parseJson(replyText) == Some(JObj(map[
               "choices" := JArr([JObj(map["message" := JObj(map["content" := JStr(content)])])]),
               "usage" := JObj(map["total_tokens" := JNum(n)])]))
    ensures var id := GetUser(req, rt).value.id;
            var o := Handle(req, rt, s, None, chat, None, thrown);
            && o.response == JsonResponse(JObj(map["text" := JStr(content)]))
            && o.store == s[id := Apply(s[id], TokenPatch(s[id], n))]
  {
    CompletedReadsFirstChoice(rt, thrown, replyText, content, n);
    assert Prop(Some(body), "prompt") == Got(Some(body.fields["prompt"]));
  }
}

=== FILE: http.dfy ===
/** The edge functions' shared HTTP layer: the request and response shapes,
    `jsonResponse`/`errorResponse` (_shared/response.ts), `getUser`
    (_shared/auth.ts) and the runtime each function runs in (environment
    variables, JSON parsing, the authentication service). The CORS module
    (_shared/cors.ts) is not part of this model: a request records whether
    `handleCors` answered it, and that answer is `Preflight`. */
module Http {
  import opened Common
  import opened JsonValues

  /** An incoming request; header names are stored lower-cased because
      `Headers.get` is case-insensitive. */
  datatype Request = Request(
    httpMethod: string,
    headers: map<string, string>,
    corsPreflight: bool,
    body: string)

  datatype AuthUser = AuthUser(id: string, email: Option<string>)

  /** What a function can see besides its request: `Deno.env`, `JSON.parse`
      (`None` when it throws) and `supabase.auth.getUser(token)` (`None` on
      an error or when no user comes back). */
  datatype Runtime = Runtime(
    env: map<string, string>,
    parseJson: string -> Option<Json>,
    authLookup: string -> Option<AuthUser>)

  datatype Response =
    | Preflight
    | Reply(status: int, body: Json, contentType: string, withCors: bool)
    | Crashed  // an uncaught exception; the runtime answers it, not the function

  const JSON_CONTENT_TYPE: string := "application/json"

  /** `jsonResponse(data, status = 200)` */
  function JsonResponse(data: Json, status: int := 200): (r: Response)
    ensures r.Reply? && r.status == status && r.body == data
    ensures r.contentType == JSON_CONTENT_TYPE && r.withCors
  {
    Reply(status, data, JSON_CONTENT_TYPE, true)
  }

  /** `errorResponse(message, status = 400)`: an object whose only key is
      `error`. */
  function ErrorResponse(message: string, status: int := 400): (r: Response)
    ensures r.Reply? && r.status == status
    ensures r.body.JObj? && r.body.fields.Keys == {"error"} && r.body.fields["error"] == JStr(message)
    ensures r.contentType == JSON_CONTENT_TYPE && r.withCors
  {
    JsonResponse(JObj(map["error" := JStr(message)]), status)
  }

  /** The message an error response carries, read back from its body. */
  function ErrorMessage(r: Response): Option<string> {
    if r.Reply? && r.body.JObj? && r.body.fields.Keys == {"error"} && r.body.fields["error"].JStr?
    then Some(r.body.fields["error"].s)
    else None
  }

  /** An error response can be told apart from its body alone, and both
      helpers fill in their documented default statuses. */
  lemma ResponseDefaults(message: string, data: Json)
    ensures ErrorMessage(ErrorResponse(message)) == Some(message)
    ensures ErrorResponse(message).status == 400
    ensures JsonResponse(data).status == 200 && JsonResponse(data).body == data
  {
  }

  function Header(req: Request, name: string): Option<string> {
    if name in req.headers then Some(req.headers[name]) else None
  }

  /** `Deno.env.get(name)` read through `!value`: set and non-empty. */
  function EnvValue(rt: Runtime, name: string): (r: Option<string>)
    ensures r.Some? <==> name in rt.env && rt.env[name] != ""
    ensures r.Some? ==> r.value == rt.env[name]
  {
    if name in rt.env && rt.env[name] != "" then Some(rt.env[name]) else None
  }

  const BEARER: string := "Bearer "

  /** The token of an `Authorization` header: absent for a missing or empty
      header and for one not starting with exactly "Bearer "; otherwise the
      header with that first "Bearer " replaced by nothing. */
  function BearerToken(header: Option<string>): (r: Option<string>)
  {
    if header.None? || header.value == "" || !StartsWith(header.value, BEARER) then None
    else Some(ReplaceFirst(header.value, BEARER, ""))
  }

  /** The token is exactly what follows the leading "Bearer ", and a header
      yields one iff it starts with "Bearer " (case and the single space
      included). */
  lemma BearerTokenSpec(header: Option<string>)
    ensures BearerToken(header).Some? <==> header.Some? && StartsWith(header.value, BEARER)
    ensures BearerToken(header).Some? ==> BEARER + BearerToken(header).value == header.value
  {
    if header.Some? && StartsWith(header.value, BEARER) {
      ReplaceFirstOfPrefix(header.value, BEARER);
      assert header.value == header.value[..|BEARER|] + header.value[|BEARER|..];
    }
  }

  /** `getUser(req)` */
  function GetUser(req: Request, rt: Runtime): (r: Option<AuthUser>)
    ensures Header(req, "authorization").None? ==> r.None?
    ensures r.Some? ==> exists token :: BearerToken(Header(req, "authorization")) == Some(token)
                                         && rt.authLookup(token) == r
  {
    match BearerToken(Header(req, "authorization"))
    case None => None
    case Some(token) => rt.authLookup(token)
  }

  /** What `fetch` resolves to: the `ok` flag, the status and the body
      text. A rejected `fetch` is `None` in the functions that model it. */
  datatype FetchReply = FetchReply(ok: bool, status: int, body: string)

  /** `{ received: true }`, the webhooks' acknowledgement. */
  const RECEIVED: Json := JObj(map["received" := JBool(true)])

  /** `{}` */
  const EMPTY_OBJECT: Json := JObj(map[])

  /** `{ success: true }` */
  const SUCCESS: Json := JObj(map["success" := JBool(true)])
}

=== FILE: json_values.dfy ===
/** Values of parsed JSON documents as JavaScript code sees them: truthiness,
    property access that throws on `null`/`undefined`, optional chaining,
    `||` and `??`. Numbers are integers here. */
module JsonValues {
  import opened Common

  datatype Json =
    | JNull
    | JBool(b: bool)
    | JNum(n: int)
    | JStr(s: string)
    | JArr(items: seq<Json>)
    | JObj(fields: map<string, Json>)

  /** JavaScript truthiness of a value; `None` is `undefined`. */
  predicate Truthy(v: Option<Json>) {
    match v
    case None => false
    case Some(JNull) => false
    case Some(JBool(b)) => b
    case Some(JNum(n)) => n != 0
    case Some(JStr(s)) => s != ""
    case Some(_) => true
  }

  /** Outcome of a property read `v.key`. */
  datatype Access = Threw | Got(value: Option<Json>)

  /** `v.key`: a TypeError on `null`/`undefined`; the field of an object
      (`undefined` when absent); the `length` of an array or a string;
      `undefined` for every other read. */
  function Prop(v: Option<Json>, key: string): (r: Access)
    ensures r.Threw? <==> (v.None? || v == Some(JNull))
    ensures v.Some? && v.value.JObj? ==>
              r == Got(if key in v.value.fields then Some(v.value.fields[key]) else None)
    ensures v.Some? && v.value.JArr? && key == "length" ==> r == Got(Some(JNum(|v.value.items|)))
    ensures v.Some? && (v.value.JBool? || v.value.JNum?) ==> r == Got(None)
  {
    match v
    case None => Threw
    case Some(JNull) => Threw
    case Some(JObj(fields)) => if key in fields then Got(Some(fields[key])) else Got(None)
    case Some(JArr(items)) => if key == "length" then Got(Some(JNum(|items|))) else Got(None)
    case Some(JStr(s)) => if key == "length" then Got(Some(JNum(|s|))) else Got(None)
    case Some(_) => Got(None)
  }

  /** `v?.key`: short-circuits to `undefined` on `null`/`undefined`. */
  function OptProp(v: Option<Json>, key: string): (r: Option<Json>)
    ensures (v.None? || v == Some(JNull)) ==> r.None?
    ensures v.Some? && v.value.JObj? ==> r == (if key in v.value.fields then Some(v.value.fields[key]) else None)
    ensures r.Some? ==> Prop(v, key) == Got(r)
  {
    match Prop(v, key)
    case Threw => None
    case Got(x) => x
  }

  /** `v[i]` for a numeric index: an array element, a one-character string,
      or the object field named by the index's decimal form. */
  function Index(v: Option<Json>, i: nat): (r: Access)
    ensures r.Threw? <==> (v.None? || v == Some(JNull))
    ensures v.Some? && v.value.JArr? ==> r == Got(if i < |v.value.items| then Some(v.value.items[i]) else None)
  {
    match v
    case None => Threw
    case Some(JNull) => Threw
    case Some(JArr(items)) => if i < |items| then Got(Some(items[i])) else Got(None)
    case Some(JStr(s)) => if i < |s| then Got(Some(JStr([s[i]]))) else Got(None)
    case Some(JObj(fields)) =>
      var key := NatToString(i);
      if key in fields then Got(Some(fields[key])) else Got(None)
    case Some(_) => Got(None)
  }

  /** `String(v)`, as a template literal `${v}` renders a value: arrays
      join their elements with "," (null elements render empty), objects
      render as "[object Object]". */
  function JsString(v: Json): (r: string)
    ensures v.JStr? ==> r == v.s
    ensures v.JNum? ==> r == IntToString(v.n)
  {
    match v
    case JNull => "null"
    case JBool(b) => if b then "true" else "false"
    case JNum(n) => IntToString(n)
    case JStr(s) => s
    case JArr(items) =>
      if |items| == 0 then ""
      else Join(seq(|items|, i requires 0 <= i < |items| =>
                      if items[i].JNull? then "" else JsString(items[i])), ',')
    case JObj(_) => "[object Object]"
  }

  /** `v || fallback` */
  function Or(v: Option<Json>, fallback: Json): (r: Json)
    ensures Truthy(v) ==> r == v.value
    ensures !Truthy(v) ==> r == fallback
  {
    if Truthy(v) then v.value else fallback
  }

  /** `v ?? fallback` */
  function Nullish(v: Option<Json>, fallback: Json): (r: Json)
    ensures (v.None? || v == Some(JNull)) ==> r == fallback
    ensures v.Some? && v.value != JNull ==> r == v.value
  {
    if v.None? || v == Some(JNull) then fallback else v.value
  }

  /** The value as a string when it is one (`typeof v === "string"`). */
  function AsString(v: Option<Json>): Option<string> {
    if v.Some? && v.value.JStr? then Some(v.value.s) else None
  }

  /** The properties an object literal inherits from `Object.prototype`,
      by key, with the name of the built-in function each one holds; a
      lookup `table[key]` by a key the table lacks finds these. The Deno
      runtime removes the `__proto__` accessor, so it is not among them. */
  const INHERITED: map<string, string> := map[
    "constructor" := "Object", "hasOwnProperty" := "hasOwnProperty",
    "isPrototypeOf" := "isPrototypeOf", "propertyIsEnumerable" := "propertyIsEnumerable",
    "toLocaleString" := "toLocaleString", "toString" := "toString", "valueOf" := "valueOf",
    "__defineGetter__" := "__defineGetter__", "__defineSetter__" := "__defineSetter__",
    "__lookupGetter__" := "__lookupGetter__", "__lookupSetter__" := "__lookupSetter__"]

  /** `String(f)` of the built-in function named `name`. */
  function NativeSource(name: string): (r: string)
    ensures |r| == |name| + 29
  {
    "function " + name + "() { [native code] }"
  }

  /** A record whose keys are all strings, as a JSON object. */
  function StrObj(fields: map<string, string>): Json {
    JObj(map k | k in fields :: JStr(fields[k]))
  }
}

=== FILE: kakao_oauth.dfy ===
/** The desktop app's Kakao sign-in callback listener
    (apps/desktop/src-tauri/src/system/kakao_oauth.rs): how one request to
    the loopback server is classified, the HTTP response it is answered
    with, and the outcome of the accept loop.

    I/O is replaced by what it produced: a request is the result of one
    read (its byte count and its text, absent when not UTF-8), whether a
    response could be written is a flag, and the accept loop sees the
    sequence of accept results that arrive before the two-minute timeout.
    URL parsing is the `url` crate, which is not part of this model: it is
    a parameter giving the path and the decoded query pairs. */
module KakaoOAuth {
  import opened Common

  const CALLBACK_PATH: string := "/callback"
  const SUCCESS_PAGE: string := "<html><body><h1>Sign-in complete. You can close this window.</h1></body></html>"

  /** Everything that ends the listener without a code. */
  datatype KakaoError =
    | ListenerSetupFailed
    | ListenerFailed
    | TimedOut
    | ReadFailed
    | EmptyRequest
    | InvalidPayload
    | MalformedRequestLine
    | UrlParseFailed
    | ProviderError(error: string, description: string)
    | SendFailed

  /** The errors only the accept loop itself raises. */
  predicate LoopError(e: KakaoError) {
    e.ListenerSetupFailed? || e.ListenerFailed? || e.TimedOut?
  }

  /** The error texts that do not carry an I/O error's own message. */
  function ErrorText(e: KakaoError): string {
    match e
    case ListenerSetupFailed => "Kakao OAuth listener configuration failure"
    case ListenerFailed => "Kakao OAuth listener failed"
    case TimedOut => "Timed out waiting for Kakao authentication"
    case ReadFailed => "Failed to read Kakao OAuth callback request"
    case EmptyRequest => "Received empty Kakao OAuth callback request"
    case InvalidPayload => "Invalid Kakao OAuth callback payload"
    case MalformedRequestLine => "Malformed Kakao OAuth request line"
    case UrlParseFailed => "Failed to parse Kakao OAuth callback URL"
    case ProviderError(error, description) => "Kakao OAuth error: " + error + " — " + description
    case SendFailed => "Failed to send Kakao OAuth response"
  }

  // ---------------------------------------------------------------------------
  // Words of the request line (`split_whitespace`)

  predicate NoSpace(w: string) {
    forall i :: 0 <= i < |w| ==> !IsRustSpace(w[i])
  }

  predicate IsWord(w: string) {
    |w| > 0 && NoSpace(w)
  }

  /** The scan behind `split_whitespace`, with `cur` the word read so far:
      white space ends a non-empty word, any other character extends it. */
  function WordsFrom(s: string, cur: string): seq<string>
    decreases |s|
  {
    if |s| == 0 then (if cur == "" then [] else [cur])
    else if IsRustSpace(s[0]) then (if cur == "" then WordsFrom(s[1..], "") else [cur] + WordsFrom(s[1..], ""))
    else WordsFrom(s[1..], cur + [s[0]])
  }

  lemma {:induction false} WordsFromAreWords(s: string, cur: string)
    requires NoSpace(cur)
    ensures forall i :: 0 <= i < |WordsFrom(s, cur)| ==> IsWord(WordsFrom(s, cur)[i])
    decreases |s|
  {
    if |s| > 0 {
      if IsRustSpace(s[0]) {
        WordsFromAreWords(s[1..], "");
      } else {
        WordsFromAreWords(s[1..], cur + [s[0]]);
      }
    }
  }

  /** `s.split_whitespace()`: the maximal runs of non-whitespace. */
  function Words(s: string): (r: seq<string>)
    ensures forall i :: 0 <= i < |r| ==> IsWord(r[i])
  {
    WordsFromAreWords(s, "");
    WordsFrom(s, "")
  }

  /** Words joined by single spaces. */
  function Unwords(ws: seq<string>): string
    decreases |ws|
  {
    if |ws| == 0 then ""
    else if |ws| == 1 then ws[0]
    else ws[0] + " " + Unwords(ws[1..])
  }

  /** Characters without white space only extend the current word. */
  lemma {:induction false} WordsFromWord(w: string, tail: string, cur: string)
    requires NoSpace(w)
    ensures WordsFrom(w + tail, cur) == WordsFrom(tail, cur + w)
    decreases |w|
  {
    if |w| == 0 {
      assert w + tail == tail;
      assert cur + w == cur;
    } else {
      assert (w + tail)[0] == w[0];
      assert (w + tail)[1..] == w[1..] + tail;
      WordsFromWord(w[1..], tail, cur + [w[0]]);
      assert cur + [w[0]] + w[1..] == cur + w;
    }
  }

  /** The words of one word followed by a space and more text. */
  lemma WordsStep(w: string, rest: string)
    requires IsWord(w)
    ensures Words(w + " " + rest) == [w] + Words(rest)
  {
    assert w + " " + rest == w + (" " + rest);
    WordsFromWord(w, " " + rest, "");
    assert "" + w == w;
    assert (" " + rest)[1..] == rest;
  }

  lemma WordsOfWord(w: string)
    requires IsWord(w)
    ensures Words(w) == [w]
  {
    WordsFromWord(w, "", "");
    assert w + "" == w;
    assert "" + w == w;
  }

  /** Splitting words joined by spaces gives the words back. */
  lemma {:induction false} WordsOfUnwords(ws: seq<string>)
    requires forall i :: 0 <= i < |ws| ==> IsWord(ws[i])
    ensures Words(Unwords(ws)) == ws
    decreases |ws|
  {
    if |ws| == 1 {
      WordsOfWord(ws[0]);
    } else if |ws| > 1 {
      var tail := ws[1..];
      assert forall i :: 0 <= i < |tail| ==> tail[i] == ws[i + 1];
      WordsStep(ws[0], Unwords(tail));
      WordsOfUnwords(tail);
      assert ws == [ws[0]] + tail;
    }
  }

  // ---------------------------------------------------------------------------
  // One request

  /** What one `read` of the 4096-byte buffer produced. */
  datatype Incoming = ReadError | Received(byteCount: nat, text: Option<string>)

  /** The parts of a parsed URL the handler reads: its path and its query
      pairs in order. */
  datatype Url = Url(path: string, query: seq<(string, string)>)

  type UrlParser = string -> Option<Url>

  /** `query.get(key)` on the pairs collected into a map: the last pair
      with that key wins. */
  function QueryGet(pairs: seq<(string, string)>, key: string): (r: Option<string>)
    ensures r.None? <==> forall i :: 0 <= i < |pairs| ==> pairs[i].0 != key
    ensures r.Some? ==> exists i :: (0 <= i < |pairs| && pairs[i] == (key, r.value)
      && forall j :: i < j < |pairs| ==> pairs[j].0 != key)
    decreases |pairs|
  {
    if |pairs| == 0 then None
    else if pairs[|pairs| - 1].0 == key then Some(pairs[|pairs| - 1].1)
    else QueryGet(pairs[..|pairs| - 1], key)
  }

  /** `request.split("\r\n").next()`: the text before the first CRLF. */
  function RequestLine(request: string): (r: string)
    ensures |r| <= |request| && r == request[..|r|]
    ensures forall j :: 0 <= j < |r| ==> !OccursAt(request, j, "\r\n")
    ensures r == request || OccursAt(request, |r|, "\r\n")
  {
    match IndexOf(request, "\r\n")
    case None => request
    case Some(i) => request[..i]
  }

  datatype Parsing = Bad(error: KakaoError) | Parsed(url: Url)

  /** Everything `handle_request` does before it looks at the path. */
  function ParseRequest(incoming: Incoming, parse: UrlParser): (r: Parsing)
    ensures r.Parsed? <==> (incoming.Received? && incoming.byteCount > 0 && incoming.text.Some?
      && |Words(RequestLine(incoming.text.value))| >= 2
      && parse("http://localhost" + Words(RequestLine(incoming.text.value))[1]).Some?)
    ensures r.Parsed? ==> Some(r.url) == parse("http://localhost" + Words(RequestLine(incoming.text.value))[1])
    ensures r == Bad(EmptyRequest) <==> incoming.Received? && incoming.byteCount == 0
    ensures r.Bad? ==> r.error in {ReadFailed, EmptyRequest, InvalidPayload, MalformedRequestLine, UrlParseFailed}
  {
    match incoming
    case ReadError => Bad(ReadFailed)
    case Received(count, text) =>
      if count == 0 then Bad(EmptyRequest)
      else match text
        case None => Bad(InvalidPayload)
        case Some(request) =>
          var parts := Words(RequestLine(request));
          if |parts| < 2 then Bad(MalformedRequestLine)
          else match parse("http://localhost" + parts[1])
            case None => Bad(UrlParseFailed)
            case Some(url) => Parsed(url)
  }

  /** A response as `respond` is asked to send it. */
  datatype Response = Response(status: nat, body: string)

  /** What `handle_request` returns: a code, nothing (keep listening), or
      an error that stops the listener. */
  datatype Step = Got(code: string) | Skip | Fail(error: KakaoError)

  /** The response written (if any) and the step taken. */
  datatype Handled = Handled(sent: Option<Response>, step: Step)

  /** Writing `resp` and, if that works, taking `next`. */
  function Reply(resp: Response, sendOk: bool, next: Step): (r: Handled)
    ensures r.sent == Some(resp)
    ensures r.step == (if sendOk then next else Fail(SendFailed))
  {
    Handled(Some(resp), if sendOk then next else Fail(SendFailed))
  }

  /** `handle_request` */
  function HandleRequest(incoming: Incoming, parse: UrlParser, sendOk: bool): (r: Handled)
    ensures ParseRequest(incoming, parse).Bad? ==> r == Handled(None, Fail(ParseRequest(incoming, parse).error))
    ensures r.sent.Some? <==> ParseRequest(incoming, parse).Parsed?
    ensures r.sent.Some? ==> r.sent.value.status in {200, 400, 404}
    ensures !sendOk && r.sent.Some? ==> r.step == Fail(SendFailed)
    ensures r.step.Fail? ==> (|| r.step.error.ProviderError? || r.step.error == SendFailed
                              || (ParseRequest(incoming, parse).Bad? && r.step.error == ParseRequest(incoming, parse).error))
  {
    match ParseRequest(incoming, parse)
    case Bad(e) => Handled(None, Fail(e))
    case Parsed(url) =>
      if url.path != CALLBACK_PATH then Reply(Response(404, "Not found"), sendOk, Skip)
      else
        var code := QueryGet(url.query, "code");
        match QueryGet(url.query, "error")
        case Some(error) =>
          var description := QueryGet(url.query, "error_description").GetOr("Unknown error");
          Reply(Response(400, "Authentication failed: " + description), sendOk, Fail(ProviderError(error, description)))
        case None =>
          if code.None? then Reply(Response(400, "Missing authorization code"), sendOk, Skip)
          else Reply(Response(200, SUCCESS_PAGE), sendOk, Got(code.value))
  }

  /** A code is taken exactly from a callback-path request that carries a
      `code` and no `error`, once the success page went out; the code is
      the last `code` pair of the query. */
  lemma CodeOnlyFromCallback(incoming: Incoming, parse: UrlParser, sendOk: bool)
    ensures var r := HandleRequest(incoming, parse, sendOk); var p := ParseRequest(incoming, parse);
      r.step.Got? <==> (p.Parsed? && p.url.path == CALLBACK_PATH && QueryGet(p.url.query, "error").None?
        && QueryGet(p.url.query, "code").Some? && sendOk)
    ensures var r := HandleRequest(incoming, parse, sendOk); var p := ParseRequest(incoming, parse);
      r.step.Got? ==> Some(r.step.code) == QueryGet(p.url.query, "code") && r.sent == Some(Response(200, SUCCESS_PAGE))
  {
  }

  /** The status tells the browser what happened: 404 off the callback
      path, 400 for a provider error (which stops the listener) or a
      missing code (which does not), 200 only with a code. */
  lemma StatusMatchesStep(incoming: Incoming, parse: UrlParser)
    ensures var r := HandleRequest(incoming, parse, true); var p := ParseRequest(incoming, parse);
      r.sent.Some? && r.sent.value.status == 404 <==> p.Parsed? && p.url.path != CALLBACK_PATH
    ensures var r := HandleRequest(incoming, parse, true);
      r.sent.Some? && r.sent.value.status == 200 <==> r.step.Got?
    ensures var r := HandleRequest(incoming, parse, true);
      r.step.Fail? && r.sent.Some? ==> r.step.error.ProviderError? && r.sent.value.status == 400
    ensures var r := HandleRequest(incoming, parse, true);
      r.step == Skip ==> r.sent.Some? && r.sent.value.status in {400, 404}
  {
    match ParseRequest(incoming, parse)
    case Bad(_) =>
    case Parsed(url) =>
      if url.path == CALLBACK_PATH {
        match QueryGet(url.query, "error")
        case Some(_) =>
        case None =>
      }
  }

  /** An `error` parameter wins over a `code` in the same callback. */
  lemma ErrorWinsOverCode(incoming: Incoming, parse: UrlParser, sendOk: bool)
    requires ParseRequest(incoming, parse).Parsed?
    requires ParseRequest(incoming, parse).url.path == CALLBACK_PATH
    requires QueryGet(ParseRequest(incoming, parse).url.query, "error").Some?
    ensures HandleRequest(incoming, parse, sendOk).step.Fail?
    ensures sendOk ==> (HandleRequest(incoming, parse, sendOk).step.error.error
      == QueryGet(ParseRequest(incoming, parse).url.query, "error").value)
  {
  }

  // ---------------------------------------------------------------------------
  // Response framing

  /** The reason phrase; any other status reads "OK". */
  function Reason(status: nat): string {
    if status == 200 then "OK"
    else if status == 400 then "Bad Request"
    else if status == 404 then "Not Found"
    else "OK"
  }

  const CONTENT_TYPE_LINE: string := "Content-Type: text/html; charset=utf-8"

  function StatusLine(status: nat): string {
    "HTTP/1.1 " + NatToString(status) + " " + Reason(status)
  }

  function LengthLine(length: nat): string {
    "Content-Length: " + NatToString(length)
  }

  /** The status line and headers, ending with the blank line. */
  function Head(status: nat, length: nat): string {
    StatusLine(status) + "\r\n" + LengthLine(length) + "\r\n" + CONTENT_TYPE_LINE + "\r\n\r\n"
  }

  /** `respond`'s bytes; `body.len()` is the body's UTF-8 length. */
  function Frame(status: nat, body: string): string {
    Head(status, Utf8Len(body)) + body
  }

  predicate NoCr(s: string) {
    forall i :: 0 <= i < |s| ==> s[i] != '\r'
  }

  /** In `a + "\r\n" + b + "\r\n" + c + "\r\n\r\n"` with CR-free lines
      that do not start with a CR the first blank line is the last one. */
  lemma FirstBlankLine(a: string, b: string, c: string, tail: string)
    requires NoCr(a) && NoCr(b) && NoCr(c) && |b| > 0 && |c| > 0
    ensures var head := a + "\r\n" + b + "\r\n" + c + "\r\n\r\n";
      IndexOf(head + tail, "\r\n\r\n") == Some(|head| - 4)
  {
    var head := a + "\r\n" + b + "\r\n" + c + "\r\n\r\n";
    var s := head + tail;
    var p, q := |a|, |a| + 2 + |b|;
    assert OccursAt(s, |head| - 4, "\r\n\r\n") by {
      assert s[|head| - 4..|head|] == head[|head| - 4..] == "\r\n\r\n";
    }
    forall j | 0 <= j < |head| - 4
      ensures !OccursAt(s, j, "\r\n\r\n")
    {
      if j < p {
        assert s[j] == a[j];
      } else if j == p {
        assert s[j + 2] == b[0];
      } else if j == p + 1 {
        assert s[j] == '\n';
      } else if j < q {
        assert s[j] == b[j - p - 2];
      } else if j == q {
        assert s[j + 2] == c[0];
      } else if j == q + 1 {
        assert s[j] == '\n';
      } else {
        assert s[j] == c[j - q - 2];
      }
      assert s[j] != '\r' || s[j + 2] != '\r';
    }
    var idx := IndexOf(s, "\r\n\r\n");
    assert idx.Some?;
  }

  lemma ReasonNoCr(status: nat)
    ensures NoCr(Reason(status))
  {
  }

  lemma NoCrConcat(x: string, y: string)
    requires NoCr(x) && NoCr(y)
    ensures NoCr(x + y)
  {
    forall i | 0 <= i < |x + y|
      ensures (x + y)[i] != '\r'
    {
      if i < |x| {
        assert (x + y)[i] == x[i];
      } else {
        assert (x + y)[i] == y[i - |x|];
      }
    }
  }

  lemma DigitsNoCr(n: nat)
    ensures NoCr(NatToString(n))
  {
    assert forall i :: 0 <= i < |NatToString(n)| ==> IsAsciiDigit(NatToString(n)[i]);
  }

  /** The status line holds no CR. */
  lemma StatusLineNoCr(status: nat)
    ensures NoCr(StatusLine(status))
  {
    ReasonNoCr(status);
    DigitsNoCr(status);
    NoCrConcat("HTTP/1.1 ", NatToString(status));
    NoCrConcat("HTTP/1.1 " + NatToString(status), " ");
    NoCrConcat("HTTP/1.1 " + NatToString(status) + " ", Reason(status));
  }

  lemma HeadLinesNoCr(status: nat, length: nat)
    ensures NoCr(StatusLine(status)) && NoCr(LengthLine(length)) && |LengthLine(length)| > 0
  {
    StatusLineNoCr(status);
    DigitsNoCr(length);
    NoCrConcat("Content-Length: ", NatToString(length));
  }

  /** The three head lines, the blank line and the body: the first blank
      line ends the head, the body follows it, and the frame starts with
      the first line. */
  lemma FrameOfLines(a: string, b: string, c: string, body: string)
    requires NoCr(a) && NoCr(b) && NoCr(c) && |b| > 0 && |c| > 0
    ensures var h := a + "\r\n" + b + "\r\n" + c + "\r\n\r\n";
      && IndexOf(h + body, "\r\n\r\n") == Some(|h| - 4)
      && (h + body)[|h|..] == body
      && StartsWith(h + body, a + "\r\n")
  {
    var h := a + "\r\n" + b + "\r\n" + c + "\r\n\r\n";
    FirstBlankLine(a, b, c, body);
    assert (h + body)[..|a| + 2] == a + "\r\n";
  }

  /** The framing for any announced length: the first blank line ends the
      head, the body follows it and the head starts with the status line. */
  lemma HeadThenBody(status: nat, length: nat, body: string)
    ensures var h := Head(status, length);
      && IndexOf(h + body, "\r\n\r\n") == Some(|h| - 4)
      && (h + body)[|h|..] == body
      && StartsWith(h + body, StatusLine(status) + "\r\n")
  {
    HeadLinesNoCr(status, length);
    FrameOfLines(StatusLine(status), LengthLine(length), CONTENT_TYPE_LINE, body);
  }

  /** A client that reads up to the first blank line and then as many
      bytes as `Content-Length` announces gets exactly the body: the head
      ends at the first blank line, it starts with the status line, and
      the announced length, the body's UTF-8 length, reads back. */
  lemma FrameReadsBack(status: nat, length: nat, body: string)
    requires length == Utf8Len(body)
    ensures var h := Head(status, length);
      && Frame(status, body) == h + body
      && IndexOf(h + body, "\r\n\r\n") == Some(|h| - 4)
      && (h + body)[|h|..] == body
      && StartsWith(h + body, StatusLine(status) + "\r\n")
      && DecimalValue(NatToString(length)) == length
  {
    HeadThenBody(status, length, body);
    DecimalRoundTrip(length);
  }

  // ---------------------------------------------------------------------------
  // The accept loop

  /** One non-blocking `accept` result. */
  datatype Accept = WouldBlock | AcceptFailed | Connection(incoming: Incoming, sendOk: bool)

  /** What the loop does with one accept result: wait on (`Skip`), stop
      with a code, or stop with an error. */
  function StepOf(a: Accept, parse: UrlParser): (r: Step)
    ensures a.WouldBlock? ==> r == Skip
    ensures a.AcceptFailed? ==> r == Fail(ListenerFailed)
    ensures a.Connection? ==> !(r.Fail? && LoopError(r.error))
  {
    match a
    case WouldBlock => Skip
    case AcceptFailed => Fail(ListenerFailed)
    case Connection(incoming, sendOk) => HandleRequest(incoming, parse, sendOk).step
  }

  /** The index of the first step that is not `Skip`, or the length when
      every step is. */
  method FirstStop(steps: seq<Step>) returns (k: nat)
    ensures k <= |steps|
    ensures forall j :: 0 <= j < k ==> steps[j] == Skip
    ensures k < |steps| ==> steps[k] != Skip
  {
    k := 0;
    while k < |steps| && steps[k] == Skip
      invariant k <= |steps|
      invariant forall j :: 0 <= j < k ==> steps[j] == Skip
    {
      k := k + 1;
    }
  }

  /** `run_local_http_server`: `configOk` is whether switching the
      listener to non-blocking worked and `arrivals` the accept results
      seen before the timeout. */
  method RunLocalHttpServer(configOk: bool, arrivals: seq<Accept>, parse: UrlParser) returns (r: Step)
    ensures !r.Skip?
    ensures !configOk ==> r == Fail(ListenerSetupFailed)
    ensures configOk ==> (r == Fail(TimedOut) <==> forall i :: 0 <= i < |arrivals| ==> StepOf(arrivals[i], parse) == Skip)
    ensures configOk && r != Fail(TimedOut) ==> exists i :: (0 <= i < |arrivals| && StepOf(arrivals[i], parse) != Skip
      && r == StepOf(arrivals[i], parse) && forall j :: 0 <= j < i ==> StepOf(arrivals[j], parse) == Skip)
  {
    if !configOk {
      return Fail(ListenerSetupFailed);
    }
    var steps := seq(|arrivals|, i requires 0 <= i < |arrivals| => StepOf(arrivals[i], parse));
    var k := FirstStop(steps);
    forall j | 0 <= j < k ensures StepOf(arrivals[j], parse) == Skip {
      assert steps[j] == StepOf(arrivals[j], parse);
    }
    if k == |steps| {
      r := Fail(TimedOut);
    } else {
      r := steps[k];
      assert r == StepOf(arrivals[k], parse);
    }
  }
}

=== FILE: limits.dfy ===
/** The plan limits shared by the apps (packages/types/src/config.types.ts):
    monthly word limits, monthly token limits derived from them, and
    per-day limits that are effectively unlimited. */
module Limits {
  datatype FullConfig = FullConfig(
    freeWordsPerDay: int,
    freeWordsPerMonth: int,
    freeTokensPerDay: int,
    freeTokensPerMonth: int,
    proWordsPerDay: int,
    proWordsPerMonth: int,
    proTokensPerDay: int,
    proTokensPerMonth: int)

  /** `Number.MAX_SAFE_INTEGER` */
  const MAX_SAFE_INTEGER: int := 0x1F_FFFF_FFFF_FFFF

  const TOKEN_MULT: int := 18
  const FREE_WORDS_PER_MONTH: int := 500
  const FREE_TOKENS_PER_MONTH: int := FREE_WORDS_PER_MONTH * TOKEN_MULT
  const PRO_WORDS_PER_MONTH: int := 100_000
  const PRO_TOKENS_PER_MONTH: int := PRO_WORDS_PER_MONTH * TOKEN_MULT

  const FULL_CONFIG: FullConfig := FullConfig(
    MAX_SAFE_INTEGER, FREE_WORDS_PER_MONTH, MAX_SAFE_INTEGER, FREE_TOKENS_PER_MONTH,
    MAX_SAFE_INTEGER, PRO_WORDS_PER_MONTH, MAX_SAFE_INTEGER, PRO_TOKENS_PER_MONTH)

  /** The shipped values: 500 and 100000 words a month, eighteen tokens per
      word, and per-day limits at 2^53 - 1. */
  lemma ConfigValues()
    ensures FULL_CONFIG.freeWordsPerMonth == 500 && FULL_CONFIG.proWordsPerMonth == 100000
    ensures FULL_CONFIG.freeTokensPerMonth == 9000 && FULL_CONFIG.proTokensPerMonth == 1800000
    ensures FULL_CONFIG.freeTokensPerMonth == FULL_CONFIG.freeWordsPerMonth * 18
    ensures FULL_CONFIG.proTokensPerMonth == FULL_CONFIG.proWordsPerMonth * 18
    ensures MAX_SAFE_INTEGER + 1 == Pow2(53)
    ensures FULL_CONFIG.freeWordsPerDay == FULL_CONFIG.freeTokensPerDay == MAX_SAFE_INTEGER
    ensures FULL_CONFIG.proWordsPerDay == FULL_CONFIG.proTokensPerDay == MAX_SAFE_INTEGER
  {
    Pow2Value53();
  }

  function Pow2(n: nat): (r: nat)
    ensures r >= 1
  {
    if n == 0 then 1 else 2 * Pow2(n - 1)
  }

  lemma Pow2Value53()
    ensures Pow2(53) == 0x20_0000_0000_0000
  {
    assert Pow2(10) == 1024;
    assert Pow2(20) == 1024 * 1024;
    assert Pow2(40) == Pow2(20) * Pow2(20) by { Pow2Add(20, 20); }
    assert Pow2(50) == Pow2(40) * Pow2(10) by { Pow2Add(40, 10); }
    assert Pow2(53) == Pow2(50) * 8 by { Pow2Add(50, 3); }
  }

  lemma {:induction false} Pow2Add(a: nat, b: nat)
    ensures Pow2(a + b) == Pow2(a) * Pow2(b)
    decreases b
  {
    if b > 0 {
      Pow2Add(a, b - 1);
      assert Pow2(a + b) == 2 * Pow2(a + b - 1);
    }
  }

  /** Every pro monthly limit strictly exceeds the free one. */
  lemma ProExceedsFree()
    ensures FULL_CONFIG.proWordsPerMonth > FULL_CONFIG.freeWordsPerMonth
    ensures FULL_CONFIG.proTokensPerMonth > FULL_CONFIG.freeTokensPerMonth
  {
  }
}

=== FILE: locale.dfy ===
/** The web site's locale choice (apps/web/src/i18n/intl.ts): matching a
    requested locale against the supported ones, the locale read back from
    storage, and the message table chosen for it. The supported list and
    the default locale live in the i18n config, which is not part of this
    model: both are parameters. Stored values are the `app-locale` entry of
    local storage, `None` when absent or when rendering without a
    browser. Message tables are named by their locale. */
module Locale {
  import opened Common

  /** The keys of `LOCALE_MESSAGES`. */
  const MESSAGE_LOCALES: set<string> := {"en", "es", "fr", "de", "pt", "pt-BR", "it", "zh-TW", "zh-CN", "ko"}

  /** `value.replace(/_/g, "-")` */
  function Clean(value: string): (r: string)
    ensures |r| == |value| && '_' !in r
    ensures forall i :: 0 <= i < |value| ==> r[i] == (if value[i] == '_' then '-' else value[i])
  {
    seq(|value|, i requires 0 <= i < |value| => if value[i] == '_' then '-' else value[i])
  }

  /** `cleaned.toLowerCase().split("-")[0]` */
  function Language(cleaned: string): string {
    FirstPiece(Lower(cleaned), {'-'})
  }

  /** `matchSupportedLocale`: the requested locale with underscores read
      as hyphens when that is supported, else its lower-case language part
      when that is supported, else nothing. */
  function MatchSupportedLocale(value: Option<string>, supported: seq<string>): (r: Option<string>)
    ensures r.Some? ==> r.value in supported && r.value != "" && '_' !in r.value
    ensures (value.None? || value == Some("")) ==> r.None?
    ensures value.Some? && value.value != "" && Clean(value.value) in supported ==> r == Some(Clean(value.value))
    ensures value.Some? && value.value != "" && Clean(value.value) !in supported ==>
      r == (if Language(Clean(value.value)) != "" && Language(Clean(value.value)) in supported
            then Some(Language(Clean(value.value))) else None)
  {
    match value
    case None => None
    case Some(v) =>
      if v == "" then None
      else
        var cleaned := Clean(v);
        if cleaned in supported then Some(cleaned)
        else
          var language := Language(cleaned);
          if language != "" && language in supported then Some(language) else None
  }

  lemma CleanFixes(s: string)
    requires '_' !in s
    ensures Clean(s) == s
  {
  }

  /** Matching what was matched gives it back: the match is idempotent. */
  lemma MatchIdempotent(value: Option<string>, supported: seq<string>)
    requires MatchSupportedLocale(value, supported).Some?
    ensures MatchSupportedLocale(MatchSupportedLocale(value, supported), supported) == MatchSupportedLocale(value, supported)
  {
    CleanFixes(MatchSupportedLocale(value, supported).value);
  }

  /** A supported locale is matched by itself, and by its spelling with
      underscores for hyphens. */
  lemma SupportedMatchesItself(locale: string, spelled: string, supported: seq<string>)
    requires locale in supported && locale != "" && '_' !in locale
    requires Clean(spelled) == locale
    ensures MatchSupportedLocale(Some(spelled), supported) == Some(locale)
  {
    assert spelled != "" by { assert |spelled| == |locale|; }
  }

  /** A region the list does not carry falls back to its language:
      "fr_CA" is matched to "fr" when only "fr" is supported. */
  lemma RegionFallsBackToLanguage(supported: seq<string>)
    requires "fr" in supported && "fr-CA" !in supported
    ensures MatchSupportedLocale(Some("fr_CA"), supported) == Some("fr")
  {
    assert Clean("fr_CA") == "fr-CA";
    assert Lower("fr-CA") == "fr-ca";
    assert FirstPiece("fr-ca", {'-'}) == "fr" by {
      assert "fr-ca"[..2] == "fr";
    }
  }

  /** `detectLocale`: a non-empty stored locale that is supported, else the
      default. */
  function DetectLocale(stored: Option<string>, supported: seq<string>, defaultLocale: string): (r: string)
    ensures r == defaultLocale || (r in supported && r != "" && stored == Some(r))
    ensures (stored.Some? && stored.value != "" && stored.value in supported) <==> (stored.Some? && r == stored.value && r != "" && r in supported)
  {
    match stored
    case Some(s) => if s != "" && s in supported then s else defaultLocale
    case None => defaultLocale
  }

  /** `setStoredLocale`: what storage holds afterwards. */
  function SetStoredLocale(locale: string): (r: Option<string>)
    ensures r.Some?
  {
    Some(locale)
  }

  /** Storing a supported locale and detecting again gives it back; any
      other value reads back as the default. */
  lemma StoredLocaleRoundTrip(locale: string, supported: seq<string>, defaultLocale: string)
    ensures locale != "" && locale in supported ==> DetectLocale(SetStoredLocale(locale), supported, defaultLocale) == locale
    ensures !(locale != "" && locale in supported) ==> DetectLocale(SetStoredLocale(locale), supported, defaultLocale) == defaultLocale
  {
  }

  /** `getMessagesForLocale`: the table of the locale, else the default's,
      named by its locale; `None` when neither has one. */
  function MessagesFor(locale: string, defaultLocale: string): (r: Option<string>)
    ensures r.Some? ==> r.value in MESSAGE_LOCALES
    ensures locale in MESSAGE_LOCALES ==> r == Some(locale)
    ensures locale !in MESSAGE_LOCALES ==> (r.Some? <==> defaultLocale in MESSAGE_LOCALES)
    ensures locale !in MESSAGE_LOCALES && r.Some? ==> r.value == defaultLocale
  {
    if locale in MESSAGE_LOCALES then Some(locale)
    else if defaultLocale in MESSAGE_LOCALES then Some(defaultLocale)
    else None
  }

  datatype IntlConfig = IntlConfig(locale: string, defaultLocale: string, messages: Option<string>)

  /** `getIntlConfig` */
  function GetIntlConfig(stored: Option<string>, supported: seq<string>, defaultLocale: string): (r: IntlConfig)
    ensures r.defaultLocale == defaultLocale
    ensures r.locale == DetectLocale(stored, supported, defaultLocale)
    ensures r.messages == MessagesFor(r.locale, defaultLocale)
  {
    var locale := DetectLocale(stored, supported, defaultLocale);
    IntlConfig(locale, defaultLocale, MessagesFor(locale, defaultLocale))
  }

  /** When every supported locale and the default have a table, the
      configuration always carries the table of its own locale. */
  lemma ConfigMessagesMatchLocale(stored: Option<string>, supported: seq<string>, defaultLocale: string)
    requires forall i :: 0 <= i < |supported| ==> supported[i] in MESSAGE_LOCALES
    requires defaultLocale in MESSAGE_LOCALES
    ensures GetIntlConfig(stored, supported, defaultLocale).messages == Some(GetIntlConfig(stored, supported, defaultLocale).locale)
  {
  }
}

=== FILE: member_endpoints.dfy ===
/** The create and read halves of `members` for the signed-in user:
    member-init/index.ts (insert-if-absent) and member-get/index.ts (the
    row, projected from snake_case columns to camelCase keys). */
module MemberEndpoints {
  import opened Common
  import opened JsonValues
  import opened Http
  import opened Members

  datatype Outcome = Outcome(response: Response, store: Store)

  /** member-init: the caller's free row is inserted unless a row with its
      id exists; a write error is answered with its message. */
  function Init(req: Request, rt: Runtime, s: Store, fault: Option<string>): (o: Outcome)
    ensures req.corsPreflight ==> o == Outcome(Preflight, s)
    ensures !req.corsPreflight && GetUser(req, rt).None? ==> o == Outcome(ErrorResponse("Unauthorized", 401), s)
    ensures !req.corsPreflight && GetUser(req, rt).Some? && fault.Some? ==>
              o == Outcome(ErrorResponse(fault.value, 500), s)
    ensures !req.corsPreflight && GetUser(req, rt).Some? && fault.None? ==>
              o.response == JsonResponse(EMPTY_OBJECT)
              && o.store == InsertIfAbsent(s, GetUser(req, rt).value.id, NewMemberPatch(PLAN_FREE))
  {
    if req.corsPreflight then Outcome(Preflight, s)
    else match GetUser(req, rt)
      case None => Outcome(ErrorResponse("Unauthorized", 401), s)
      case Some(user) =>
        match fault
        case Some(message) => Outcome(ErrorResponse(message, 500), s)
        case None => Outcome(JsonResponse(EMPTY_OBJECT), InsertIfAbsent(s, user.id, NewMemberPatch(PLAN_FREE)))
  }

  /** Only the caller's row is written; a new row is a zero-usage free
      user with trial off; an existing row, "pro" or not, stays as it was. */
  lemma InitEffect(req: Request, rt: Runtime, s: Store)
    requires !req.corsPreflight && GetUser(req, rt).Some?
    ensures var id := GetUser(req, rt).value.id;
            var r := Init(req, rt, s, None).store;
            && id in r
            && (id in s ==> r == s)
            && (id !in s ==> r[id].kind == MEMBER_TYPE_USER && r[id].plan == PLAN_FREE && !r[id].isOnTrial
                             && ZeroUsage(r[id]) && r[id].polarSubscriptionId.None?)
            && (forall k | k in s :: k in r && r[k] == s[k])
  {
  }

  /** Calling member-init twice is calling it once. */
  lemma InitIdempotent(req: Request, rt: Runtime, s: Store)
    ensures var once := Init(req, rt, s, None).store; Init(req, rt, once, None) == Init(req, rt, s, None)
  {
  }

  /** The row as `select("*")` returns it, keyed by column name. */
  function RowJson(m: Member): map<string, Json> {
    map[
      "id" := JStr(m.id), "type" := JStr(m.kind), "plan" := JStr(m.plan),
      "is_on_trial" := JBool(m.isOnTrial),
      "polar_subscription_id" := NullableText(m.polarSubscriptionId),
      "paddle_subscription_id" := NullableText(m.paddleSubscriptionId),
      "words_today" := JNum(m.wordsToday), "words_this_month" := JNum(m.wordsThisMonth),
      "words_total" := JNum(m.wordsTotal), "tokens_today" := JNum(m.tokensToday),
      "tokens_this_month" := JNum(m.tokensThisMonth), "tokens_total" := JNum(m.tokensTotal),
      "today_reset_at" := NullableText(m.todayResetAt),
      "this_month_reset_at" := NullableText(m.thisMonthResetAt),
      "trial_ends_at" := NullableText(m.trialEndsAt),
      "created_at" := NullableText(m.createdAt), "updated_at" := NullableText(m.updatedAt)]
  }

  function NullableText(v: Option<string>): Json {
    if v.Some? then JStr(v.value) else JNull
  }

  /** The fifteen (camelCase key, snake_case column) pairs member-get
      copies. */
  const PROJECTION: seq<(string, string)> := [
    ("id", "id"), ("type", "type"), ("plan", "plan"),
    ("wordsToday", "words_today"), ("wordsThisMonth", "words_this_month"), ("wordsTotal", "words_total"),
    ("tokensToday", "tokens_today"), ("tokensThisMonth", "tokens_this_month"), ("tokensTotal", "tokens_total"),
    ("todayResetAt", "today_reset_at"), ("thisMonthResetAt", "this_month_reset_at"),
    ("isOnTrial", "is_on_trial"), ("trialEndsAt", "trial_ends_at"),
    ("createdAt", "created_at"), ("updatedAt", "updated_at")]

  /** The `member` object member-get builds from a row. */
  function MemberJson(row: map<string, Json>): map<string, Json>
    requires forall i | 0 <= i < |PROJECTION| :: PROJECTION[i].1 in row
  {
    map i | 0 <= i < |PROJECTION| :: PROJECTION[i].0 := row[PROJECTION[i].1]
  }

  lemma ProjectionKeysDistinct()
    ensures forall i, j | 0 <= i < j < |PROJECTION| :: PROJECTION[i].0 != PROJECTION[j].0
  {
  }

  /** The projection has exactly the fifteen camelCase keys, each holding
      its column's value unchanged; the subscription-id columns are not
      exposed. */
  lemma ProjectionCopiesColumns(m: Member)
    ensures forall i | 0 <= i < |PROJECTION| :: PROJECTION[i].1 in RowJson(m)
    ensures var out := MemberJson(RowJson(m));
            && out.Keys == (set i | 0 <= i < |PROJECTION| :: PROJECTION[i].0)
            && (forall i | 0 <= i < |PROJECTION| :: out[PROJECTION[i].0] == RowJson(m)[PROJECTION[i].1])
  {
    RowHasColumns(m);
    ProjectionKeysDistinct();
  }

  lemma RowHasColumns(m: Member)
    ensures forall i | 0 <= i < |PROJECTION| :: PROJECTION[i].1 in RowJson(m)
  {
  }

  /** Neither subscription-id column is among the projected ones. */
  lemma SubscriptionsNotProjected()
    ensures forall i | 0 <= i < |PROJECTION| ::
              PROJECTION[i].1 != "polar_subscription_id" && PROJECTION[i].1 != "paddle_subscription_id"
  {
  }

  /** member-get: the caller's row projected, `{ member: null }` when it
      has none (PGRST116), and any other read error answered with 500. */
  function Get(req: Request, rt: Runtime, s: Store, readFault: Option<DbError>): (r: Response)
    ensures req.corsPreflight ==> r == Preflight
    ensures !req.corsPreflight && GetUser(req, rt).None? ==> r == ErrorResponse("Unauthorized", 401)
    ensures !req.corsPreflight && GetUser(req, rt).Some? && readFault.Some? && readFault.value.code != NO_ROWS_CODE ==>
              r == ErrorResponse(readFault.value.message, 500)
    ensures !req.corsPreflight && GetUser(req, rt).Some? && readFault.None? ==>
              var id := GetUser(req, rt).value.id;
              r == JsonResponse(JObj(map["member" := if id in s then JObj(MemberJson(RowJson(s[id]))) else JNull]))
  {
    if req.corsPreflight then Preflight
    else match GetUser(req, rt)
      case None => ErrorResponse("Unauthorized", 401)
      case Some(user) =>
        match ReadSingle(s, user.id, readFault)
        case Failed(error) =>
          if error.code != NO_ROWS_CODE then ErrorResponse(error.message, 500)
          else JsonResponse(JObj(map["member" := JNull]))
        case Row(m) => JsonResponse(JObj(map["member" := JObj(MemberJson(RowJson(m)))]))
  }

  /** Straight after member-init creates the caller's row, member-get
      reports that row: a free user with trial off and all six counters 0. */
  lemma InitThenGet(req: Request, rt: Runtime, s: Store)
    requires !req.corsPreflight && GetUser(req, rt).Some? && GetUser(req, rt).value.id !in s
    ensures var id := GetUser(req, rt).value.id;
            var after := Init(req, rt, s, None).store;
            id in after
            && Get(req, rt, after, None) == JsonResponse(JObj(map["member" := JObj(MemberJson(RowJson(after[id])))]))
            && after[id].plan == PLAN_FREE && !after[id].isOnTrial && ZeroUsage(after[id]) && after[id].id == id
  {
  }
}

=== FILE: members.dfy ===
/** The `members` table the edge functions read and write, with the three
    write shapes they use: insert-if-absent (`upsert` with
    `ignoreDuplicates`), update by a column value, and upsert-with-merge
    (`upsert` keyed on `id`). No function writes the timestamp columns;
    the row a first insert creates takes them, and the subscription ids,
    from BlankRow. */
module Members {
  import opened Common
  import opened JsonValues

  const PLAN_FREE: string := "free"
  const PLAN_PRO: string := "pro"
  const MEMBER_TYPE_USER: string := "user"

  /** One row of `members`; `kind` is the `type` column. */
  datatype Member = Member(
    id: string,
    kind: string,
    plan: string,
    isOnTrial: bool,
    polarSubscriptionId: Option<string>,
    paddleSubscriptionId: Option<string>,
    wordsToday: int,
    wordsThisMonth: int,
    wordsTotal: int,
    tokensToday: int,
    tokensThisMonth: int,
    tokensTotal: int,
    todayResetAt: Option<string>,
    thisMonthResetAt: Option<string>,
    trialEndsAt: Option<string>,
    createdAt: Option<string>,
    updatedAt: Option<string>)

  /** The table, keyed by the `id` column. */
  type Store = map<string, Member>

  predicate WellKeyed(s: Store) {
    forall id | id in s :: s[id].id == id
  }

  predicate ZeroUsage(m: Member) {
    m.wordsToday == 0 && m.wordsThisMonth == 0 && m.wordsTotal == 0
    && m.tokensToday == 0 && m.tokensThisMonth == 0 && m.tokensTotal == 0
  }

  /** The columns one write sets; `None` leaves a column as it is. For the
      nullable subscription columns `Some(None)` writes `null`. */
  datatype Patch = Patch(
    kind: Option<string>,
    plan: Option<string>,
    isOnTrial: Option<bool>,
    polarSubscriptionId: Option<Option<string>>,
    paddleSubscriptionId: Option<Option<string>>,
    wordsToday: Option<int>,
    wordsThisMonth: Option<int>,
    wordsTotal: Option<int>,
    tokensToday: Option<int>,
    tokensThisMonth: Option<int>,
    tokensTotal: Option<int>)

  const NO_COLUMNS: Patch := Patch(None, None, None, None, None, None, None, None, None, None, None)

  /** `{ plan, is_on_trial }` */
  function PlanPatch(plan: string, isOnTrial: Option<bool>): Patch {
    NO_COLUMNS.(plan := Some(plan), isOnTrial := isOnTrial)
  }

  /** `{ type: "user", plan, is_on_trial: false, words_* : 0, tokens_* : 0 }`,
      the payload of every member-creating upsert. */
  function NewMemberPatch(plan: string): Patch {
    Patch(Some(MEMBER_TYPE_USER), Some(plan), Some(false), None, None,
          Some(0), Some(0), Some(0), Some(0), Some(0), Some(0))
  }

  /** The row written columns turn into: every set column takes its new
      value, every other column keeps the old one. */
  function Apply(m: Member, p: Patch): (r: Member)
    ensures r.id == m.id
    ensures r.kind == p.kind.GetOr(m.kind) && r.plan == p.plan.GetOr(m.plan)
    ensures r.isOnTrial == p.isOnTrial.GetOr(m.isOnTrial)
    ensures r.polarSubscriptionId == p.polarSubscriptionId.GetOr(m.polarSubscriptionId)
    ensures r.paddleSubscriptionId == p.paddleSubscriptionId.GetOr(m.paddleSubscriptionId)
    ensures r.tokensToday == p.tokensToday.GetOr(m.tokensToday)
    ensures r.tokensThisMonth == p.tokensThisMonth.GetOr(m.tokensThisMonth)
    ensures r.tokensTotal == p.tokensTotal.GetOr(m.tokensTotal)
    ensures r.wordsToday == p.wordsToday.GetOr(m.wordsToday)
    ensures r.wordsThisMonth == p.wordsThisMonth.GetOr(m.wordsThisMonth)
    ensures r.wordsTotal == p.wordsTotal.GetOr(m.wordsTotal)
    ensures r.todayResetAt == m.todayResetAt && r.thisMonthResetAt == m.thisMonthResetAt
    ensures r.trialEndsAt == m.trialEndsAt && r.createdAt == m.createdAt && r.updatedAt == m.updatedAt
  {
    m.(kind := p.kind.GetOr(m.kind),
       plan := p.plan.GetOr(m.plan),
       isOnTrial := p.isOnTrial.GetOr(m.isOnTrial),
       polarSubscriptionId := p.polarSubscriptionId.GetOr(m.polarSubscriptionId),
       paddleSubscriptionId := p.paddleSubscriptionId.GetOr(m.paddleSubscriptionId),
       wordsToday := p.wordsToday.GetOr(m.wordsToday),
       wordsThisMonth := p.wordsThisMonth.GetOr(m.wordsThisMonth),
       wordsTotal := p.wordsTotal.GetOr(m.wordsTotal),
       tokensToday := p.tokensToday.GetOr(m.tokensToday),
       tokensThisMonth := p.tokensThisMonth.GetOr(m.tokensThisMonth),
       tokensTotal := p.tokensTotal.GetOr(m.tokensTotal))
  }

  /** Writing the same columns twice is writing them once. */
  lemma ApplyIdempotent(m: Member, p: Patch)
    ensures Apply(Apply(m, p), p) == Apply(m, p)
  {
  }

  /** The columns of `p`, overwritten by those `q` sets. */
  function Then(p: Patch, q: Patch): Patch {
    Patch(if q.kind.Some? then q.kind else p.kind,
          if q.plan.Some? then q.plan else p.plan,
          if q.isOnTrial.Some? then q.isOnTrial else p.isOnTrial,
          if q.polarSubscriptionId.Some? then q.polarSubscriptionId else p.polarSubscriptionId,
          if q.paddleSubscriptionId.Some? then q.paddleSubscriptionId else p.paddleSubscriptionId,
          if q.wordsToday.Some? then q.wordsToday else p.wordsToday,
          if q.wordsThisMonth.Some? then q.wordsThisMonth else p.wordsThisMonth,
          if q.wordsTotal.Some? then q.wordsTotal else p.wordsTotal,
          if q.tokensToday.Some? then q.tokensToday else p.tokensToday,
          if q.tokensThisMonth.Some? then q.tokensThisMonth else p.tokensThisMonth,
          if q.tokensTotal.Some? then q.tokensTotal else p.tokensTotal)
  }

  /** Two updates in a row are one update whose later columns win, and an
      update naming no column leaves the row as it is. */
  lemma ApplyThen(m: Member, p: Patch, q: Patch)
    ensures Apply(Apply(m, p), q) == Apply(m, Then(p, q))
    ensures Apply(m, NO_COLUMNS) == m
  {
  }

  /** The row a first insert starts from, before the written columns are
      applied. The table's own defaults are not known here, so every column
      no function writes on insert (the subscription ids and the
      timestamps) is taken as null, and the counters as 0. */
  function BlankRow(id: string): Member {
    Member(id, MEMBER_TYPE_USER, PLAN_FREE, false, None, None, 0, 0, 0, 0, 0, 0,
           None, None, None, None, None)
  }

  /** `upsert(row, { onConflict: "id", ignoreDuplicates: true })`: the row
      is inserted only when no row has its id. */
  function InsertIfAbsent(s: Store, id: string, p: Patch): (r: Store)
    ensures id in r && r[id] == (if id in s then s[id] else Apply(BlankRow(id), p))
    ensures forall k :: k != id ==> (k in r <==> k in s)
    ensures forall k | k in s && k != id :: r[k] == s[k]
    ensures WellKeyed(s) ==> WellKeyed(r)
  {
    if id in s then s else s[id := Apply(BlankRow(id), p)]
  }

  /** `upsert(row, { onConflict: "id" })`: the row is inserted when absent,
      and otherwise its supplied columns overwrite the existing row's. */
  function Upsert(s: Store, id: string, p: Patch): (r: Store)
    ensures id in r && r[id] == Apply(if id in s then s[id] else BlankRow(id), p)
    ensures forall k :: k != id ==> (k in r <==> k in s)
    ensures forall k | k in s && k != id :: r[k] == s[k]
    ensures WellKeyed(s) ==> WellKeyed(r)
  {
    s[id := Apply(if id in s then s[id] else BlankRow(id), p)]
  }

  /** `update(p).eq("id", id)`: no row is created for an unknown id. */
  function UpdateById(s: Store, id: string, p: Patch): (r: Store)
    ensures r.Keys == s.Keys
    ensures id in s ==> r[id] == Apply(s[id], p)
    ensures forall k | k in s && k != id :: r[k] == s[k]
    ensures WellKeyed(s) ==> WellKeyed(r)
  {
    if id in s then s[id := Apply(s[id], p)] else s
  }

  /** The subscription columns an update can be filtered on. */
  datatype SubscriptionColumn = PolarSubscription | PaddleSubscription

  function SubscriptionOf(m: Member, col: SubscriptionColumn): Option<string> {
    match col
    case PolarSubscription => m.polarSubscriptionId
    case PaddleSubscription => m.paddleSubscriptionId
  }

  /** `update(p).eq(col, value)`: every row whose column equals `value`,
      and no other, is written. */
  function UpdateWhere(s: Store, col: SubscriptionColumn, value: string, p: Patch): (r: Store)
    ensures r.Keys == s.Keys
    ensures forall k | k in s :: r[k] == (if SubscriptionOf(s[k], col) == Some(value) then Apply(s[k], p) else s[k])
    ensures WellKeyed(s) ==> WellKeyed(r)
  {
    map k | k in s :: if SubscriptionOf(s[k], col) == Some(value) then Apply(s[k], p) else s[k]
  }

  /** Filtering on a subscription column and writing its rows is
      idempotent, whether or not the update rewrites the column it filters
      on: a row the first update took out of the filter is left alone the
      second time, and one still in it is written the same again. */
  lemma UpdateWhereIdempotent(s: Store, col: SubscriptionColumn, value: string, p: Patch)
    ensures UpdateWhere(UpdateWhere(s, col, value, p), col, value, p) == UpdateWhere(s, col, value, p)
  {
    var once := UpdateWhere(s, col, value, p);
    var twice := UpdateWhere(once, col, value, p);
    forall k | k in s
      ensures twice[k] == once[k]
    {
      RowSettles(s[k], col, value, p);
    }
  }

  /** One row's part of UpdateWhereIdempotent. */
  lemma RowSettles(m: Member, col: SubscriptionColumn, value: string, p: Patch)
    ensures var once := if SubscriptionOf(m, col) == Some(value) then Apply(m, p) else m;
            (if SubscriptionOf(once, col) == Some(value) then Apply(once, p) else once) == once
  {
    if SubscriptionOf(m, col) == Some(value) {
      ApplyIdempotent(m, p);
    }
  }

  /** Filtering on a subscription column that only one row carries is
      updating that row by id; when no row carries it nothing changes. */
  lemma UpdateWhereOneRow(s: Store, col: SubscriptionColumn, value: string, p: Patch, id: string)
    requires id in s && SubscriptionOf(s[id], col) == Some(value)
    requires forall k | k in s && k != id :: SubscriptionOf(s[k], col) != Some(value)
    ensures UpdateWhere(s, col, value, p) == UpdateById(s, id, p)
  {
  }

  lemma UpdateWhereNoRow(s: Store, col: SubscriptionColumn, value: string, p: Patch)
    requires forall k | k in s :: SubscriptionOf(s[k], col) != Some(value)
    ensures UpdateWhere(s, col, value, p) == s
  {
  }

  /** Whether the database refuses the n-th write a request makes, and the
      error message it answers with. */
  type WriteFaults = nat -> Option<string>

  function NoFaults(): WriteFaults {
    _ => None
  }

  /** The store after attempting a write: unchanged when the write fails. */
  function Commit(s: Store, written: Store, fault: Option<string>): (r: Store)
    ensures fault.Some? ==> r == s
    ensures fault.None? ==> r == written
  {
    if fault.Some? then s else written
  }

  /** An error a read reports instead of a row. */
  datatype DbError = DbError(code: string, message: string)

  /** The code `.single()` reports when no row matches. */
  const NO_ROWS_CODE: string := "PGRST116"

  /** `.select(...).eq("id", id).single()`: the row, or an error; with no
      fault a missing row is the PGRST116 error. */
  function ReadSingle(s: Store, id: string, readFault: Option<DbError>): (r: Result)
    ensures readFault.Some? ==> r == Failed(readFault.value)
    ensures readFault.None? && id in s ==> r == Row(s[id])
    ensures readFault.None? && id !in s ==> r.Failed? && r.error.code == NO_ROWS_CODE
  {
    if readFault.Some? then Failed(readFault.value)
    else if id in s then Row(s[id])
    else Failed(DbError(NO_ROWS_CODE, "JSON object requested, multiple (or no) rows returned"))
  }

  datatype Result = Row(row: Member) | Failed(error: DbError)

  /** A value the code hands to the database as a text column, when it is
      a JSON string. Any other value is taken as a refused write, although
      the database would store a number there as its decimal text; the
      providers only ever send strings in these places. */
  function DbText(v: Json): Option<string> {
    if v.JStr? then Some(v.s) else None
  }
}

=== FILE: overlay.dfy ===
/** The desktop app's overlay windows (apps/desktop/src-tauri/src/
    overlay.rs): the URL each overlay window loads, the `ensure_*`
    functions that create a window only when none with its label exists,
    and the pill's hovered/expanded state machine run on every cursor
    poll. Window placement and the platform calls behind it are not
    modelled; geometry is in exact real arithmetic. */
module Overlay {
  import opened Common

  const PILL_OVERLAY_LABEL: string := "pill-overlay"
  const TOAST_OVERLAY_LABEL: string := "toast-overlay"
  const AGENT_OVERLAY_LABEL: string := "agent-overlay"

  datatype OverlayKind = Pill | Toast | Agent

  /** The window label, which is also the query parameter its URL carries. */
  function Label(kind: OverlayKind): (r: string)
    ensures r in {PILL_OVERLAY_LABEL, TOAST_OVERLAY_LABEL, AGENT_OVERLAY_LABEL}
  {
    match kind
    case Pill => PILL_OVERLAY_LABEL
    case Toast => TOAST_OVERLAY_LABEL
    case Agent => AGENT_OVERLAY_LABEL
  }

  lemma LabelInjective(a: OverlayKind, b: OverlayKind)
    ensures Label(a) == Label(b) <==> a == b
  {
  }

  // ---------------------------------------------------------------------------
  // Overlay URLs

  /** The configured dev server URL, reduced to what the builder touches:
      everything before the query, and the query. */
  datatype DevUrl = DevUrl(base: string, query: Option<string>)

  datatype WebviewUrl = External(url: DevUrl) | App(path: string)

  /** `build_overlay_webview_url`; `debug` is whether debug assertions are
      compiled in. A dev URL gets `param=1` appended to a non-empty query
      or as its whole query; otherwise the bundled page is loaded. */
  function BuildOverlayUrl(debug: bool, devUrl: Option<DevUrl>, param: string): (r: WebviewUrl)
    ensures !(debug && devUrl.Some?) ==> r == App("index.html?" + param + "=1")
    ensures debug && devUrl.Some? ==> r.External? && r.url.base == devUrl.value.base
    ensures debug && devUrl.Some? && devUrl.value.query.Some? && devUrl.value.query.value != ""
      ==> r.url.query == Some(devUrl.value.query.value + "&" + param + "=1")
    ensures debug && devUrl.Some? && (devUrl.value.query.None? || devUrl.value.query == Some(""))
      ==> r.url.query == Some(param + "=1")
  {
    if debug && devUrl.Some? then
      var u := devUrl.value;
      var query := match u.query
        case Some(existing) => if existing != "" then existing + "&" + param + "=1" else param + "=1"
        case None => param + "=1";
      External(u.(query := Some(query)))
    else App("index.html?" + param + "=1")
  }

  // ---------------------------------------------------------------------------
  // Creating a window once

  /** The open windows by label, with the URL each was created with. */
  type Windows = map<string, WebviewUrl>

  /** What an `ensure_*` call leaves: the windows and whether it succeeded. */
  datatype Ensured = Ensured(windows: Windows, ok: bool)

  /** `ensure_pill_overlay_window`, `ensure_toast_overlay_window` and
      `ensure_agent_overlay_window`; `buildOk` is whether the window
      builder succeeded. */
  function EnsureOverlayWindow(kind: OverlayKind, windows: Windows, debug: bool, devUrl: Option<DevUrl>, buildOk: bool): (r: Ensured)
    ensures Label(kind) in windows ==> r == Ensured(windows, true)
    ensures Label(kind) !in windows ==> r.ok == buildOk
    ensures r.ok ==> Label(kind) in r.windows
    ensures Label(kind) !in windows && r.ok ==> r.windows[Label(kind)] == BuildOverlayUrl(debug, devUrl, Label(kind))
    ensures r.windows.Keys == windows.Keys + (if r.ok then {Label(kind)} else {})
    ensures forall l :: l in windows ==> l in r.windows && r.windows[l] == windows[l]
  {
    var name := Label(kind);
    if name in windows then Ensured(windows, true)
    else if buildOk then Ensured(windows[name := BuildOverlayUrl(debug, devUrl, name)], true)
    else Ensured(windows, false)
  }

  /** Once an overlay window exists, ensuring it again changes nothing,
      whatever the builder would do. */
  lemma EnsureIdempotent(kind: OverlayKind, windows: Windows, debug: bool, devUrl: Option<DevUrl>, buildOk: bool,
                         debug2: bool, devUrl2: Option<DevUrl>, buildOk2: bool)
    requires EnsureOverlayWindow(kind, windows, debug, devUrl, buildOk).ok
    ensures var once := EnsureOverlayWindow(kind, windows, debug, devUrl, buildOk);
      EnsureOverlayWindow(kind, once.windows, debug2, devUrl2, buildOk2) == Ensured(once.windows, true)
  {
  }

  // ---------------------------------------------------------------------------
  // The pill's hover state machine

  const MIN_PILL_WIDTH: real := 48.0
  const MIN_PILL_HEIGHT: real := 6.0
  const MIN_PILL_HOVER_PADDING: real := 4.0
  const EXPANDED_PILL_WIDTH: real := 120.0
  const EXPANDED_PILL_HEIGHT: real := 32.0
  const EXPANDED_PILL_HOVERABLE_WIDTH: real := EXPANDED_PILL_WIDTH + 16.0
  const EXPANDED_PILL_HOVERABLE_HEIGHT: real := EXPANDED_PILL_HEIGHT + 16.0
  const PILL_OVERLAY_WIDTH: real := 256.0
  const PILL_OVERLAY_HEIGHT: real := 96.0

  /** The two flags kept between polls. */
  datatype Follower = Follower(hovered: bool, expanded: bool)

  const INITIAL_FOLLOWER: Follower := Follower(false, false)

  /** The screen frame the pill sits on: its left edge, width and bottom. */
  datatype Frame = Frame(x: real, width: real, bottom: real)

  /** What one poll reads. `frame` is absent when the cursor's screen
      cannot be read (the poll then returns early); `pillOpen` is whether
      the pill window exists. */
  datatype Poll = Poll(
    frame: Option<Frame>,
    cursorX: real,
    cursorY: real,
    bottomOffset: real,
    pillOpen: bool,
    hoverEnabled: bool,
    idle: bool)

  /** The `PillExpandedPayload` event. */
  datatype PillEvent = PillEvent(expanded: bool, hovered: bool)

  /** The flags after a poll, the click-through setting made (if any) and
      the event emitted (if any). */
  datatype Tick = Tick(state: Follower, clickThrough: Option<bool>, event: Option<PillEvent>)

  /** The hover box: the expanded pill's hoverable area once expanded,
      otherwise the minimal pill with its padding. */
  function HoverSize(expanded: bool): (r: (real, real))
    ensures expanded ==> r == (136.0, 48.0)
    ensures !expanded ==> r == (56.0, 14.0)
  {
    if expanded then (EXPANDED_PILL_HOVERABLE_WIDTH, EXPANDED_PILL_HOVERABLE_HEIGHT)
    else (MIN_PILL_WIDTH + MIN_PILL_HOVER_PADDING * 2.0, MIN_PILL_HEIGHT + MIN_PILL_HOVER_PADDING * 2.0)
  }

  /** The cursor lies in the closed box of the given size, centred on the
      frame, whose bottom edge is `bottomOffset` above the frame's bottom. */
  predicate InHoverBox(f: Frame, bottomOffset: real, size: (real, real), cx: real, cy: real) {
    var left := f.x + (f.width - size.0) / 2.0;
    var top := f.bottom - size.1 - bottomOffset;
    left <= cx <= left + size.0 && top <= cy <= top + size.1
  }

  /** The pill part of `update_cursor_follower`. */
  function UpdateCursorFollower(s: Follower, p: Poll): (r: Tick)
    ensures p.frame.None? || !p.pillOpen ==> r == Tick(s, None, None)
    ensures p.frame.Some? && p.pillOpen ==>
      && (r.state.hovered <==> p.hoverEnabled && InHoverBox(p.frame.value, p.bottomOffset, HoverSize(s.expanded), p.cursorX, p.cursorY))
      && (r.state.expanded <==> r.state.hovered || !p.idle)
      && (r.clickThrough.Some? <==> r.state.expanded != s.expanded)
      && (r.clickThrough.Some? ==> r.clickThrough.value == !r.state.expanded)
      && (r.event.Some? <==> r.state != s)
      && (r.event.Some? ==> r.event.value == PillEvent(r.state.expanded, r.state.hovered))
  {
    if p.frame.None? || !p.pillOpen then Tick(s, None, None)
    else
      var newHovered := p.hoverEnabled && InHoverBox(p.frame.value, p.bottomOffset, HoverSize(s.expanded), p.cursorX, p.cursorY);
      var newExpanded := newHovered || !p.idle;
      var hoveredChanged := newHovered != s.hovered;
      var expandedChanged := newExpanded != s.expanded;
      Tick(
        Follower(newHovered, newExpanded),
        if expandedChanged then Some(!newExpanded) else None,
        if hoveredChanged || expandedChanged then Some(PillEvent(newExpanded, newHovered)) else None)
  }

  /** The collapsed hover box lies inside the expanded one: both are
      centred on the frame and share their bottom edge. */
  lemma CollapsedBoxInsideExpanded(f: Frame, bottomOffset: real, cx: real, cy: real)
    ensures InHoverBox(f, bottomOffset, HoverSize(false), cx, cy) ==> InHoverBox(f, bottomOffset, HoverSize(true), cx, cy)
  {
  }

  /** Both hover boxes lie inside the pill window, which is centred on the
      frame with its bottom edge at the same height. */
  lemma HoverBoxInsidePill(f: Frame, bottomOffset: real, expanded: bool, cx: real, cy: real)
    requires InHoverBox(f, bottomOffset, HoverSize(expanded), cx, cy)
    ensures InHoverBox(f, bottomOffset, (PILL_OVERLAY_WIDTH, PILL_OVERLAY_HEIGHT), cx, cy)
  {
  }

  /** The flags always satisfy `expanded == hovered || !idle` after a poll
      that reached the pill. */
  predicate Consistent(s: Follower, idle: bool) {
    s.expanded == (s.hovered || !idle)
  }

  /** With the cursor and the app state held still, the flags settle
      within two polls, and a poll that found the flags settled emits
      nothing and leaves click-through alone. */
  lemma SettlesWithinTwoPolls(s: Follower, p: Poll)
    ensures var t1 := UpdateCursorFollower(s, p);
      var t2 := UpdateCursorFollower(t1.state, p);
      var t3 := UpdateCursorFollower(t2.state, p);
      t3 == Tick(t2.state, None, None)
    ensures var t1 := UpdateCursorFollower(s, p);
      t1.state.expanded == s.expanded ==> UpdateCursorFollower(t1.state, p) == Tick(t1.state, None, None)
  {
    if p.frame.Some? && p.pillOpen {
      var f := p.frame.value;
      CollapsedBoxInsideExpanded(f, p.bottomOffset, p.cursorX, p.cursorY);
      var t1 := UpdateCursorFollower(s, p);
      var t2 := UpdateCursorFollower(t1.state, p);
      if t1.state.expanded != s.expanded && t1.state.hovered {
        assert !s.expanded;
        assert t2.state == t1.state;
      }
    }
  }

  /** Hovering is only ever reported with hover enabled, and a busy
      (non-idle) app keeps the pill expanded. */
  lemma HoverNeedsEnabledAndBusyExpands(s: Follower, p: Poll)
    requires p.frame.Some? && p.pillOpen
    ensures !p.hoverEnabled ==> !UpdateCursorFollower(s, p).state.hovered
    ensures !p.idle ==> UpdateCursorFollower(s, p).state.expanded
    ensures Consistent(UpdateCursorFollower(s, p).state, p.idle)
  {
  }
}

=== FILE: overlay_root.dfy ===
/** Which React root the desktop app's page renders
    (apps/desktop/src/main.tsx): the overlay windows are told apart by a
    query parameter equal to "1", read through `URLSearchParams`, with the
    pill first, then the toast, then the agent overlay, and the main app
    otherwise. Together with the URL builder of the overlay module this
    closes the loop: the page a window loads renders that window's root.
    Percent-decoding and `+` in query values are not modelled; the
    parameters the builder writes use neither. */
module OverlayRoot {
  import opened Common
  import opened Overlay

  datatype Root = PillOverlayRoot | ToastOverlayRoot | AgentOverlayRoot | MainApp

  /** The root that belongs to an overlay window. */
  function RootOf(kind: OverlayKind): Root {
    match kind
    case Pill => PillOverlayRoot
    case Toast => ToastOverlayRoot
    case Agent => AgentOverlayRoot
  }

  // ---------------------------------------------------------------------------
  // URLSearchParams

  /** One `name=value` piece; a piece without "=" has an empty value. */
  function ParsePair(piece: string): (r: (string, string))
    ensures '=' !in r.0
  {
    var name := FirstPiece(piece, {'='});
    (name, if |name| < |piece| then piece[|name| + 1..] else "")
  }

  /** The pairs of the pieces, skipping empty pieces. */
  function ParsePieces(pieces: seq<string>): (r: seq<(string, string)>)
    ensures |r| <= |pieces|
    decreases |pieces|
  {
    if |pieces| == 0 then []
    else if pieces[0] == "" then ParsePieces(pieces[1..])
    else [ParsePair(pieces[0])] + ParsePieces(pieces[1..])
  }

  lemma {:induction false} ParsePiecesAppend(a: seq<string>, b: seq<string>)
    ensures ParsePieces(a + b) == ParsePieces(a) + ParsePieces(b)
    decreases |a|
  {
    if |a| > 0 {
      var t := a[1..];
      assert (a + b)[0] == a[0];
      assert (a + b)[1..] == t + b;
      ParsePiecesAppend(t, b);
      if a[0] == "" {
        assert ParsePieces(a) == ParsePieces(t);
      } else {
        assert ParsePieces(a) == [ParsePair(a[0])] + ParsePieces(t);
      }
    } else {
      assert a + b == b;
    }
  }

  /** The pairs of a query string (without its "?"). */
  function QueryPairs(query: string): seq<(string, string)> {
    ParsePieces(Split(query, '&'))
  }

  /** `new URLSearchParams(search)`: a leading "?" is dropped. */
  function SearchParams(search: string): seq<(string, string)> {
    QueryPairs(if |search| > 0 && search[0] == '?' then search[1..] else search)
  }

  /** `params.get(name)`: the value of the first pair with that name. */
  function Get(pairs: seq<(string, string)>, name: string): (r: Option<string>)
    ensures r.None? <==> forall i :: 0 <= i < |pairs| ==> pairs[i].0 != name
    ensures r.Some? ==> exists i :: (0 <= i < |pairs| && pairs[i] == (name, r.value)
      && forall j :: 0 <= j < i ==> pairs[j].0 != name)
    decreases |pairs|
  {
    if |pairs| == 0 then None
    else if pairs[0].0 == name then Some(pairs[0].1)
    else Get(pairs[1..], name)
  }

  lemma {:induction false} GetAppend(a: seq<(string, string)>, b: seq<(string, string)>, name: string)
    ensures Get(a + b, name) == if Get(a, name).Some? then Get(a, name) else Get(b, name)
    decreases |a|
  {
    if |a| > 0 {
      assert (a + b)[1..] == a[1..] + b;
      GetAppend(a[1..], b, name);
    } else {
      assert a + b == b;
    }
  }

  /** `window.location.search` of the page a webview URL loads: the query
      with its "?", or nothing when the query is empty. */
  function LocationSearch(u: WebviewUrl): string {
    match u
    case App(path) =>
      var rest := path[|FirstPiece(path, {'?'})|..];
      if |rest| <= 1 then "" else rest
    case External(d) =>
      match d.query
      case Some(q) => if q != "" then "?" + q else ""
      case None => ""
  }

  // ---------------------------------------------------------------------------
  // Root selection

  /** `searchParams?.get(param) === "1"` */
  function Flag(search: Option<string>, param: string): (r: bool)
    ensures r <==> search.Some? && Get(SearchParams(search.value), param) == Some("1")
  {
    match search
    case None => false
    case Some(s) => Get(SearchParams(s), param) == Some("1")
  }

  /** The root rendered; `search` is absent without a window. */
  function SelectRoot(search: Option<string>): (r: Root)
    ensures r == PillOverlayRoot <==> Flag(search, PILL_OVERLAY_LABEL)
    ensures r == ToastOverlayRoot <==> !Flag(search, PILL_OVERLAY_LABEL) && Flag(search, TOAST_OVERLAY_LABEL)
    ensures r == AgentOverlayRoot <==> (!Flag(search, PILL_OVERLAY_LABEL) && !Flag(search, TOAST_OVERLAY_LABEL)
      && Flag(search, AGENT_OVERLAY_LABEL))
    ensures search.None? ==> r == MainApp
  {
    if Flag(search, PILL_OVERLAY_LABEL) then PillOverlayRoot
    else if Flag(search, TOAST_OVERLAY_LABEL) then ToastOverlayRoot
    else if Flag(search, AGENT_OVERLAY_LABEL) then AgentOverlayRoot
    else MainApp
  }

  /** Only the value "1" turns a flag on: "true", "01" or an empty value
      leave the pill root off. The value carries no `%` or `+`, so that
      `URLSearchParams` would read it back unchanged as well. */
  lemma OnlyOneTurnsFlagOn(value: string)
    requires value != "1" && '&' !in value && '%' !in value && '+' !in value
    ensures SelectRoot(Some("?pill-overlay=" + value)) != PillOverlayRoot
  {
    var q := "pill-overlay=" + value;
    assert ("?pill-overlay=" + value)[1..] == q;
    SplitWithoutSeparator(q, '&');
    FirstPieceAt(q, {'='}, 12);
    assert q[..12] == PILL_OVERLAY_LABEL;
    assert q[13..] == value;
    assert QueryPairs(q) == [(PILL_OVERLAY_LABEL, value)];
  }

  // ---------------------------------------------------------------------------
  // The round trip with the URL builder

  /** A string with neither "&" nor "=" and at least one character. */
  predicate PlainName(p: string) {
    |p| > 0 && '&' !in p && '=' !in p
  }

  lemma PairOfFlag(p: string)
    requires PlainName(p)
    ensures QueryPairs(p + "=1") == [(p, "1")]
  {
    var piece := p + "=1";
    SplitWithoutSeparator(piece, '&');
    FirstPieceAt(piece, {'='}, |p|);
    assert piece[..|p|] == p;
    assert piece[|p| + 1..] == "1";
  }

  lemma SplitWithoutSeparator(s: string, sep: char)
    requires sep !in s
    ensures Split(s, sep) == [s]
  {
    SplitWhole(s, {sep});
  }

  lemma {:induction false} SplitWhole(s: string, seps: set<char>)
    requires forall i :: 0 <= i < |s| ==> s[i] !in seps
    ensures SplitOn(s, seps) == [s]
    decreases |s|
  {
    if |s| > 0 {
      SplitWhole(s[1..], seps);
      assert [s[0]] + s[1..] == s;
    }
  }

  /** The bundled page's search string carries only the flag. */
  lemma SearchOfAppUrl(p: string)
    requires PlainName(p)
    ensures SearchParams(LocationSearch(App("index.html?" + p + "=1"))) == [(p, "1")]
  {
    var flag := p + "=1";
    var path := "index.html?" + flag;
    assert "index.html?" + p + "=1" == path;
    FirstPieceAt(path, {'?'}, 10);
    assert path[10..] == "?" + flag;
    assert ("?" + flag)[1..] == flag;
    PairOfFlag(p);
  }

  /** A dev server page's search string carries its own query's pairs, if
      any, followed by the flag. */
  lemma SearchOfDevUrl(d: DevUrl, p: string)
    requires PlainName(p)
    ensures var search := SearchParams(LocationSearch(BuildOverlayUrl(true, Some(d), p)));
      if d.query.Some? && d.query.value != "" then search == QueryPairs(d.query.value) + [(p, "1")]
      else search == [(p, "1")]
  {
    var flag := p + "=1";
    PairOfFlag(p);
    if d.query.Some? && d.query.value != "" {
      var existing := d.query.value;
      var q := existing + "&" + p + "=1";
      assert BuildOverlayUrl(true, Some(d), p).url.query == Some(q);
      assert LocationSearch(BuildOverlayUrl(true, Some(d), p)) == "?" + q;
      assert ("?" + q)[1..] == q;
      assert q == existing + ['&'] + flag;
      SplitAppend(existing, flag, '&');
      ParsePiecesAppend(Split(existing, '&'), Split(flag, '&'));
    } else {
      assert BuildOverlayUrl(true, Some(d), p).url.query == Some(flag);
      assert LocationSearch(BuildOverlayUrl(true, Some(d), p)) == "?" + flag;
      assert ("?" + flag)[1..] == flag;
    }
  }

  /** The search string of a page whose query is `q`, with the builder's
      flag `p=1` added by itself or after `q`. */
  lemma SearchOfBuiltUrl(debug: bool, devUrl: Option<DevUrl>, p: string)
    requires PlainName(p)
    ensures var u := BuildOverlayUrl(debug, devUrl, p);
      || (SearchParams(LocationSearch(u)) == [(p, "1")])
      || (debug && devUrl.Some? && devUrl.value.query.Some? && devUrl.value.query.value != ""
          && SearchParams(LocationSearch(u)) == QueryPairs(devUrl.value.query.value) + [(p, "1")])
  {
    if debug && devUrl.Some? {
      SearchOfDevUrl(devUrl.value, p);
    } else {
      SearchOfAppUrl(p);
    }
  }

  /** One overlay flag on a built page: on exactly for the page's own
      parameter, provided a dev server's own query does not name it. */
  lemma FlagOfBuiltUrl(debug: bool, devUrl: Option<DevUrl>, p: string, name: string)
    requires PlainName(p)
    requires debug && devUrl.Some? && devUrl.value.query.Some? ==>
      forall i :: 0 <= i < |QueryPairs(devUrl.value.query.value)| ==> QueryPairs(devUrl.value.query.value)[i].0 != name
    ensures Get(SearchParams(LocationSearch(BuildOverlayUrl(debug, devUrl, p))), name) == (if name == p then Some("1") else None)
  {
    SearchOfBuiltUrl(debug, devUrl, p);
    var pairs := SearchParams(LocationSearch(BuildOverlayUrl(debug, devUrl, p)));
    if pairs != [(p, "1")] {
      GetAppend(QueryPairs(devUrl.value.query.value), [(p, "1")], name);
    }
  }

  /** The page a window is created with renders that window's root,
      provided a dev server's own query names none of the overlays. */
  lemma BuiltUrlSelectsItsRoot(kind: OverlayKind, debug: bool, devUrl: Option<DevUrl>)
    requires debug && devUrl.Some? && devUrl.value.query.Some? ==>
      forall i :: 0 <= i < |QueryPairs(devUrl.value.query.value)| ==>
        QueryPairs(devUrl.value.query.value)[i].0 !in {PILL_OVERLAY_LABEL, TOAST_OVERLAY_LABEL, AGENT_OVERLAY_LABEL}
    ensures SelectRoot(Some(LocationSearch(BuildOverlayUrl(debug, devUrl, Label(kind))))) == RootOf(kind)
  {
    var p := Label(kind);
    FlagOfBuiltUrl(debug, devUrl, p, PILL_OVERLAY_LABEL);
    FlagOfBuiltUrl(debug, devUrl, p, TOAST_OVERLAY_LABEL);
    FlagOfBuiltUrl(debug, devUrl, p, AGENT_OVERLAY_LABEL);
    assert PILL_OVERLAY_LABEL != TOAST_OVERLAY_LABEL && PILL_OVERLAY_LABEL != AGENT_OVERLAY_LABEL by {
      assert PILL_OVERLAY_LABEL[0] == 'p';
    }
    assert TOAST_OVERLAY_LABEL != AGENT_OVERLAY_LABEL by {
      assert TOAST_OVERLAY_LABEL[0] != AGENT_OVERLAY_LABEL[0];
    }
  }

  /** The main window's page, which carries no overlay flag, renders the
      app. */
  lemma PlainPageRendersApp()
    ensures SelectRoot(Some(LocationSearch(App("index.html")))) == MainApp
  {
    FirstPieceAt("index.html", {'?'}, 10);
    assert SearchParams("") == [] by {
      SplitWithoutSeparator("", '&');
    }
  }
}

=== FILE: paddle_webhook.dfy ===
/** The Paddle webhook endpoint (paddle-webhook/index.ts): the
    `paddle-signature` header parser, the hex HMAC check, and the two
    event types it acts on. Write errors are ignored by the code. */
module PaddleWebhook {
  import opened Common
  import opened JsonValues
  import opened Http
  import opened Members
  import opened Crypto

  // ---------------------------------------------------------------------------
  // Header parsing

  /** `const [key, value] = part.split("=")`; `value` is `undefined`
      (`None`) when the part has no "=". */
  function KeyOf(part: string): string {
    Split(part, '=')[0]
  }

  function ValueOf(part: string): Option<string> {
    var pieces := Split(part, '=');
    if |pieces| >= 2 then Some(pieces[1]) else None
  }

  /** The `for (const part of parts)` loop for one key: every part with
      that key overwrites the accumulator. */
  function Scan(parts: seq<string>, key: string, acc: Option<string>): Option<string>
    decreases |parts|
  {
    if |parts| == 0 then acc
    else Scan(parts[1..], key, if KeyOf(parts[0]) == key then ValueOf(parts[0]) else acc)
  }

  /** With no part carrying the key the initial value stays. */
  lemma {:induction false} ScanNoKey(parts: seq<string>, key: string, acc: Option<string>)
    requires forall i :: 0 <= i < |parts| ==> KeyOf(parts[i]) != key
    ensures Scan(parts, key, acc) == acc
    decreases |parts|
  {
    if |parts| > 0 {
      assert forall j :: 0 <= j < |parts| - 1 ==> parts[1..][j] == parts[j + 1];
      ScanNoKey(parts[1..], key, acc);
    }
  }

  /** The last part with the key wins. */
  lemma {:induction false} ScanLastWins(parts: seq<string>, key: string, acc: Option<string>, i: nat)
    requires i < |parts| && KeyOf(parts[i]) == key
    requires forall j :: i < j < |parts| ==> KeyOf(parts[j]) != key
    ensures Scan(parts, key, acc) == ValueOf(parts[i])
    decreases |parts|
  {
    var acc' := if KeyOf(parts[0]) == key then ValueOf(parts[0]) else acc;
    assert forall j :: 0 <= j < |parts| - 1 ==> parts[1..][j] == parts[j + 1];
    if i == 0 {
      ScanNoKey(parts[1..], key, acc');
    } else {
      ScanLastWins(parts[1..], key, acc', i - 1);
    }
  }

  /** The `ts` and `h1` of a header (both start as ""). */
  function Timestamp(signature: string): Option<string> {
    Scan(Split(signature, ';'), "ts", Some(""))
  }

  function Digest(signature: string): Option<string> {
    Scan(Split(signature, ';'), "h1", Some(""))
  }

  /** `!value` for a string that may be `undefined`. */
  predicate Blank(v: Option<string>) {
    v.None? || v.value == ""
  }

  /** The hex HMAC-SHA256 of "ts:body", keyed with the secret as given. */
  function ExpectedDigest(ts: string, body: string, secret: string, c: Primitives): string {
    c.hexEncode(c.hmacSha256(c.utf8Encode(secret), c.utf8Encode(ts + ":" + body)))
  }

  /** `verifySignature(signature, rawBody, secret)` */
  function VerifySignature(signature: string, body: string, secret: string, c: Primitives): (r: bool)
    ensures Blank(Timestamp(signature)) || Blank(Digest(signature)) ==> !r
    ensures r <==> !Blank(Timestamp(signature)) && !Blank(Digest(signature))
                   && c.utf8Encode(ExpectedDigest(Timestamp(signature).value, body, secret, c))
                      == c.utf8Encode(Digest(signature).value)
  {
    var ts := Timestamp(signature);
    var h1 := Digest(signature);
    if Blank(ts) || Blank(h1) then false
    else
      var computed := ExpectedDigest(ts.value, body, secret, c);
      SameBytes(c.utf8Encode(computed), c.utf8Encode(h1.value))
  }

  // ---------------------------------------------------------------------------
  // Event router

  const TRANSACTION_COMPLETED: string := "transaction.completed"
  const SUBSCRIPTION_CANCELED: string := "subscription.canceled"

  predicate IsType(event: Json, name: string) {
    OptProp(Some(event), "event_type") == Some(JStr(name))
  }

  /** `event.data?.custom_data?.userId` */
  function CustomUserId(event: Json): Option<Json> {
    OptProp(OptProp(OptProp(Some(event), "data"), "custom_data"), "userId")
  }

  /** `event.data?.subscription_id` */
  function SubscriptionId(event: Json): Option<Json> {
    OptProp(OptProp(Some(event), "data"), "subscription_id")
  }

  /** The store after the handler acts on a verified, parsed, non-null
      event; each branch makes at most one write, write 0. */
  function Route(event: Json, s: Store, faults: WriteFaults): Store {
    if IsType(event, TRANSACTION_COMPLETED) then
      var userId := CustomUserId(event);
      var subscriptionId := SubscriptionId(event);
      if !Truthy(userId) then s
      else match DbText(userId.value)
        case None => s
        case Some(id) =>
          if !Truthy(subscriptionId) then
            Commit(s, UpdateById(s, id, PlanPatch(PLAN_PRO, Some(false))), faults(0))
          else match DbText(subscriptionId.value)
            case None => s
            case Some(sub) =>
              var p := PlanPatch(PLAN_PRO, Some(false)).(paddleSubscriptionId := Some(Some(sub)));
              Commit(s, UpdateById(s, id, p), faults(0))
    else if IsType(event, SUBSCRIPTION_CANCELED) then
      var subscriptionId := SubscriptionId(event);
      if !Truthy(subscriptionId) then s
      else match DbText(subscriptionId.value)
        case None => s
        case Some(sub) => Commit(s, UpdateWhere(s, PaddleSubscription, sub, PlanPatch(PLAN_FREE, None)), faults(0))
    else s
  }

  datatype Outcome = Outcome(response: Response, store: Store)

  /** The request handler of paddle-webhook/index.ts; there is no method
      check. */
  function Handle(req: Request, rt: Runtime, c: Primitives, s: Store, faults: WriteFaults): (o: Outcome)
    ensures Blank(Header(req, "paddle-signature")) ==> o == Outcome(ErrorResponse("Missing signature", 401), s)
    ensures !Blank(Header(req, "paddle-signature")) && EnvValue(rt, "PADDLE_WEBHOOK_SECRET").None? ==>
              o == Outcome(ErrorResponse("Webhook secret not configured", 500), s)
    ensures !Blank(Header(req, "paddle-signature")) && EnvValue(rt, "PADDLE_WEBHOOK_SECRET").Some?
            && !VerifySignature(req.headers["paddle-signature"], req.body, EnvValue(rt, "PADDLE_WEBHOOK_SECRET").value, c) ==>
              o == Outcome(ErrorResponse("Invalid signature", 401), s)
    ensures !Blank(Header(req, "paddle-signature")) && EnvValue(rt, "PADDLE_WEBHOOK_SECRET").Some?
            && VerifySignature(req.headers["paddle-signature"], req.body, EnvValue(rt, "PADDLE_WEBHOOK_SECRET").value, c) ==>
              (o.response == JsonResponse(RECEIVED) <==> rt.parseJson(req.body).Some? && rt.parseJson(req.body).value != JNull)
    ensures o.response != JsonResponse(RECEIVED) ==> o.store == s
  {
    var signature := Header(req, "paddle-signature");
    if Blank(signature) then Outcome(ErrorResponse("Missing signature", 401), s)
    else match EnvValue(rt, "PADDLE_WEBHOOK_SECRET")
    case None => Outcome(ErrorResponse("Webhook secret not configured", 500), s)
    case Some(secret) =>
      if !VerifySignature(signature.value, req.body, secret, c) then Outcome(ErrorResponse("Invalid signature", 401), s)
      else match rt.parseJson(req.body)
        case None => Outcome(Crashed, s)
        case Some(event) =>
          if event == JNull then Outcome(Crashed, s)
          else Outcome(JsonResponse(RECEIVED), Route(event, s, faults))
  }

  // ---------------------------------------------------------------------------
  // Properties of the router

  /** A completed transaction without a user id changes nothing. */
  lemma CompletedWithoutUser(event: Json, s: Store, faults: WriteFaults)
    requires IsType(event, TRANSACTION_COMPLETED) && !Truthy(CustomUserId(event))
    ensures Route(event, s, faults) == s
  {
  }

  /** A completed transaction only updates an existing row: no row is
      created for an unknown id; a known row becomes "pro" with trial off,
      taking the Paddle subscription id only when the event has one. */
  lemma CompletedIsUpdateOnly(event: Json, s: Store, id: string)
    requires IsType(event, TRANSACTION_COMPLETED) && CustomUserId(event) == Some(JStr(id)) && id != ""
    requires !Truthy(SubscriptionId(event)) || SubscriptionId(event).value.JStr?
    ensures var r := Route(event, s, NoFaults());
            && r.Keys == s.Keys
            && (id in s ==> r[id] == s[id].(plan := PLAN_PRO, isOnTrial := false,
                                            paddleSubscriptionId :=
                                              if Truthy(SubscriptionId(event)) then Some(SubscriptionId(event).value.s)
                                              else s[id].paddleSubscriptionId))
            && (forall k | k in s && k != id :: r[k] == s[k])
  {
  }

  /** A cancellation sets plan "free" on the rows carrying its subscription
      id and keeps that id on them; without an id it is a no-op. */
  lemma CanceledKeepsSubscription(event: Json, s: Store)
    requires IsType(event, SUBSCRIPTION_CANCELED)
    ensures var r := Route(event, s, NoFaults());
            && r.Keys == s.Keys
            && (!Truthy(SubscriptionId(event)) ==> r == s)
            && (Truthy(SubscriptionId(event)) && SubscriptionId(event).value.JStr? ==>
                  var sub := SubscriptionId(event).value.s;
                  forall k | k in s :: r[k] == (if s[k].paddleSubscriptionId == Some(sub) then s[k].(plan := PLAN_FREE) else s[k]))
  {
  }

  /** Any other event type changes nothing. */
  lemma OtherEventsChangeNothing(event: Json, s: Store, faults: WriteFaults)
    requires !IsType(event, TRANSACTION_COMPLETED) && !IsType(event, SUBSCRIPTION_CANCELED)
    ensures Route(event, s, faults) == s
  {
  }

  /** Redelivering an event, with every write accepted, changes nothing
      more. */
  lemma RouteIdempotent(event: Json, s: Store)
    ensures Route(event, Route(event, s, NoFaults()), NoFaults()) == Route(event, s, NoFaults())
  {
    if IsType(event, TRANSACTION_COMPLETED) {
      var userId := CustomUserId(event);
      var subscriptionId := SubscriptionId(event);
      if Truthy(userId) && userId.value.JStr? && (!Truthy(subscriptionId) || subscriptionId.value.JStr?) {
        var id := userId.value.s;
        var p := if !Truthy(subscriptionId) then PlanPatch(PLAN_PRO, Some(false))
                 else PlanPatch(PLAN_PRO, Some(false)).(paddleSubscriptionId := Some(Some(subscriptionId.value.s)));
        if id in s { ApplyIdempotent(s[id], p); }
      }
    } else if IsType(event, SUBSCRIPTION_CANCELED) {
      var subscriptionId := SubscriptionId(event);
      if Truthy(subscriptionId) && subscriptionId.value.JStr? {
        var once := Route(event, s, NoFaults());
        var sub := subscriptionId.value.s;
        assert UpdateWhere(once, PaddleSubscription, sub, PlanPatch(PLAN_FREE, None)) == once;
      }
    }
  }
}

=== FILE: payment_verify.dfy ===
/** The one-shot payment checks paddle-verify/index.ts and
    portone-verify/index.ts. Both follow the same steps: the caller names a
    payment, the provider's API is asked about it, and an accepted payment
    turns the caller's own row "pro". They differ only in the names,
    messages, URL, authorization scheme and the status they accept, which
    `Provider` collects. */
module PaymentVerify {
  import opened Common
  import opened JsonValues
  import opened Http
  import opened Members

  /** The provider's answer to `GET url` sent with an `Authorization`
      header; `None` when `fetch` rejects. */
  type Fetch = (string, string) -> Option<FetchReply>

  /** The response, the table afterwards, and the URL the provider was
      asked (`None` when the function returned before asking). */
  datatype Outcome = Outcome(response: Response, store: Store, fetched: Option<string>)

  const PADDLE_PRODUCTION: string := "https://api.paddle.com"
  const PADDLE_SANDBOX: string := "https://sandbox-api.paddle.com"
  const PORTONE_PAYMENTS: string := "https://api.portone.io/payments/"

  /** `(Deno.env.get("PADDLE_ENVIRONMENT") || "sandbox") === "production"`
      picks the live API; any other value, an empty one included, picks
      the sandbox. */
  function PaddleBaseUrl(rt: Runtime): (r: string)
    ensures r == PADDLE_PRODUCTION || r == PADDLE_SANDBOX
    ensures r == PADDLE_PRODUCTION <==> "PADDLE_ENVIRONMENT" in rt.env && rt.env["PADDLE_ENVIRONMENT"] == "production"
  {
    var environment := EnvValue(rt, "PADDLE_ENVIRONMENT").GetOr("sandbox");
    if environment == "production" then PADDLE_PRODUCTION else PADDLE_SANDBOX
  }

  datatype Provider = Paddle | PortOne {
    /** The body field naming the payment. */
    function IdKey(): string {
      if Paddle? then "transactionId" else "paymentId"
    }

    function MissingIdMessage(): string {
      if Paddle? then "Missing transactionId" else "Missing paymentId"
    }

    /** The environment variable holding the API credential. */
    function SecretVar(): string {
      if Paddle? then "PADDLE_API_KEY" else "PORTONE_API_SECRET"
    }

    function MissingSecretMessage(): string {
      if Paddle? then "Paddle API key not configured" else "PortOne API secret not configured"
    }

    function FailedMessage(): string {
      if Paddle? then "Failed to verify transaction with Paddle" else "Failed to verify payment with PortOne"
    }

    function RejectedMessage(): string {
      if Paddle? then "Transaction not completed" else "Payment not confirmed"
    }

    /** The URL asked about payment `id`, rendered as a template literal
        renders it. */
    function Url(rt: Runtime, id: Json): string {
      if Paddle? then PaddleBaseUrl(rt) + "/transactions/" + JsString(id)
      else PORTONE_PAYMENTS + JsString(id)
    }

    function Authorization(secret: string): string {
      if Paddle? then "Bearer " + secret else "PortOne " + secret
    }

    /** Where the payment status sits in the provider's reply:
        `transactionData.data.status` for Paddle, `paymentData.status` for
        PortOne. */
    function Status(reply: Json): Access {
      if Paddle? then
        match Prop(Some(reply), "data")
        case Threw => Threw
        case Got(data) => Prop(data, "status")
      else Prop(Some(reply), "status")
    }

    /** The statuses the `!==` comparisons let through. */
    function AcceptedStatuses(): set<string> {
      if Paddle? then {"completed", "paid"} else {"PAID"}
    }
  }

  /** A status read that did not throw and is one of the accepted strings. */
  predicate Accepts(p: Provider, status: Access) {
    status.Got? && status.value.Some? && status.value.value.JStr? && status.value.value.s in p.AcceptedStatuses()
  }

  /** The caller's named payment: present when the body parses and its id
      field is truthy. */
  function RequestedId(p: Provider, req: Request, rt: Runtime): (r: Option<Json>)
    ensures r.Some? <==> rt.parseJson(req.body).Some? && Prop(rt.parseJson(req.body), p.IdKey()).Got?
                         && Truthy(Prop(rt.parseJson(req.body), p.IdKey()).value)
    ensures r.Some? ==> Prop(rt.parseJson(req.body), p.IdKey()) == Got(r)
  {
    match rt.parseJson(req.body)
    case None => None
    case Some(body) =>
      match Prop(Some(body), p.IdKey())
      case Threw => None
      case Got(id) => if Truthy(id) then id else None
  }

  /** The provider confirms payment `id`: it answers OK with a parseable
      body whose status is accepted. */
  predicate Confirmed(p: Provider, rt: Runtime, fetch: Fetch, id: Json, secret: string) {
    var reply := fetch(p.Url(rt, id), p.Authorization(secret));
    && reply.Some? && reply.value.ok
    && rt.parseJson(reply.value.body).Some?
    && Accepts(p, p.Status(rt.parseJson(reply.value.body).value))
  }

  /** Every write here: the caller's row becomes "pro" with trial off. */
  const PROMOTION: Patch := PlanPatch(PLAN_PRO, Some(false))

  /** The request handler shared by paddle-verify and portone-verify;
      `fault` is the update's error, if it fails. */
  function Handle(p: Provider, req: Request, rt: Runtime, s: Store, fetch: Fetch, fault: Option<string>): (o: Outcome)
    ensures req.corsPreflight ==> o == Outcome(Preflight, s, None)
    ensures !req.corsPreflight && GetUser(req, rt).None? ==> o == Outcome(ErrorResponse("Unauthorized", 401), s, None)
    ensures !req.corsPreflight && GetUser(req, rt).Some? && rt.parseJson(req.body).Some?
            && Prop(rt.parseJson(req.body), p.IdKey()).Got? && RequestedId(p, req, rt).None? ==>
              o == Outcome(ErrorResponse(p.MissingIdMessage()), s, None)
    ensures !req.corsPreflight && GetUser(req, rt).Some? && RequestedId(p, req, rt).Some?
            && EnvValue(rt, p.SecretVar()).None? ==>
              o == Outcome(ErrorResponse(p.MissingSecretMessage(), 500), s, None)
    // the provider is asked only past every gate, and about the named payment
    ensures o.fetched.Some? <==> !req.corsPreflight && GetUser(req, rt).Some? && RequestedId(p, req, rt).Some?
                                 && EnvValue(rt, p.SecretVar()).Some?
    ensures o.fetched.Some? ==> o.fetched.value == p.Url(rt, RequestedId(p, req, rt).value)
    // success exactly when the provider confirms and the write goes through
    ensures o.response == JsonResponse(SUCCESS) <==>
              o.fetched.Some? && fault.None?
              && Confirmed(p, rt, fetch, RequestedId(p, req, rt).value, EnvValue(rt, p.SecretVar()).value)
    ensures o.store == (if o.response == JsonResponse(SUCCESS) then UpdateById(s, GetUser(req, rt).value.id, PROMOTION) else s)
  {
    if req.corsPreflight then Outcome(Preflight, s, None)
    else match GetUser(req, rt)
      case None => Outcome(ErrorResponse("Unauthorized", 401), s, None)
      case Some(user) =>
        match rt.parseJson(req.body)
        case None => Outcome(Crashed, s, None)
        case Some(body) =>
          match Prop(Some(body), p.IdKey())
          case Threw => Outcome(Crashed, s, None)
          case Got(id) =>
            if !Truthy(id) then Outcome(ErrorResponse(p.MissingIdMessage()), s, None)
            else match EnvValue(rt, p.SecretVar())
              case None => Outcome(ErrorResponse(p.MissingSecretMessage(), 500), s, None)
              case Some(secret) =>
                var url := p.Url(rt, id.value);
                match fetch(url, p.Authorization(secret))
                case None => Outcome(Crashed, s, Some(url))
                case Some(reply) =>
                  if !reply.ok then Outcome(ErrorResponse(p.FailedMessage(), 500), s, Some(url))
                  else match rt.parseJson(reply.body)
                    case None => Outcome(Crashed, s, Some(url))
                    case Some(data) =>
                      if !Accepts(p, p.Status(data)) then
                        if p.Status(data).Threw? then Outcome(Crashed, s, Some(url))
                        else Outcome(ErrorResponse(p.RejectedMessage()), s, Some(url))
                      else match fault
                        case Some(message) => Outcome(ErrorResponse(message, 500), s, Some(url))
                        case None => Outcome(JsonResponse(SUCCESS), UpdateById(s, user.id, PROMOTION), Some(url))
  }

  /** Paddle accepts exactly "completed" and "paid"; PortOne exactly
      "PAID". */
  lemma AcceptedStatusesExact(status: string)
    ensures Accepts(Paddle, Got(Some(JStr(status)))) <==> status == "completed" || status == "paid"
    ensures Accepts(PortOne, Got(Some(JStr(status)))) <==> status == "PAID"
  {
  }

  /** A provider reply that is not OK, or whose status is not accepted,
      writes nothing. */
  lemma UnconfirmedWritesNothing(p: Provider, req: Request, rt: Runtime, s: Store, fetch: Fetch, fault: Option<string>)
    requires RequestedId(p, req, rt).Some? && EnvValue(rt, p.SecretVar()).Some?
    requires !Confirmed(p, rt, fetch, RequestedId(p, req, rt).value, EnvValue(rt, p.SecretVar()).value)
    ensures Handle(p, req, rt, s, fetch, fault).store == s
    ensures Handle(p, req, rt, s, fetch, fault).response != JsonResponse(SUCCESS)
  {
  }

  /** The write is update-only and touches only the caller's row: no row
      is created, the caller's row (if any) becomes "pro" with trial off
      and keeps its subscription ids and counters, and every other row is
      unchanged. */
  lemma PromotesOnlyCaller(p: Provider, req: Request, rt: Runtime, s: Store, fetch: Fetch, fault: Option<string>)
    requires !req.corsPreflight && GetUser(req, rt).Some?
    ensures var o := Handle(p, req, rt, s, fetch, fault);
            var id := GetUser(req, rt).value.id;
            && o.store.Keys == s.Keys
            && (forall k | k in s && k != id :: o.store[k] == s[k])
            && (id in s && o.store != s ==>
                  o.store[id] == s[id].(plan := PLAN_PRO, isOnTrial := false))
  {
  }

  /** Repeating a successful verification changes nothing further. */
  lemma VerifyIdempotent(p: Provider, req: Request, rt: Runtime, s: Store, fetch: Fetch)
    ensures var once := Handle(p, req, rt, s, fetch, None).store;
            Handle(p, req, rt, once, fetch, None).store == once
  {
    var once := Handle(p, req, rt, s, fetch, None).store;
    if once != s {
      var id := GetUser(req, rt).value.id;
      ApplyIdempotent(s[id], PROMOTION);
    }
  }
}

=== FILE: polar_checkout.dfy ===
/** The two Polar session starters: polar-checkout/index.ts (a checkout for
    a product, tagged with the caller's id) and polar-portal/index.ts (a
    customer-portal session, with a configured fallback URL). Neither
    touches the members table. */
module PolarCheckout {
  import opened Common
  import opened JsonValues
  import opened Http
  import PolarWebhook

  /** The provider's answer to a `POST url` with an `Authorization` header
      and a JSON payload; `None` when `fetch` rejects. */
  type Post = (string, string, Json) -> Option<FetchReply>

  /** The response and the payload posted to Polar, if any. */
  datatype Outcome = Outcome(response: Response, sent: Option<Json>)

  const POLAR_API_BASE: string := "https://api.polar.sh"
  const CHECKOUT_URL: string := POLAR_API_BASE + "/v1/checkouts/custom/"
  const SESSION_URL: string := POLAR_API_BASE + "/v1/customer-sessions/"
  const SUCCESS_URL: string := "https://vocally-web.vercel.app/checkout/success"
  const DEFAULT_LOCALE: string := "en"

  /** The gates both functions share: preflight, a POST, a signed-in
      caller and a configured access token, in that order. */
  function Gate(req: Request, rt: Runtime): (r: Option<Response>)
    ensures req.corsPreflight ==> r == Some(Preflight)
    ensures !req.corsPreflight && req.httpMethod != "POST" ==> r == Some(ErrorResponse("Method not allowed", 405))
    ensures !req.corsPreflight && req.httpMethod == "POST" && GetUser(req, rt).None? ==>
              r == Some(ErrorResponse("Unauthorized", 401))
    ensures (!req.corsPreflight && req.httpMethod == "POST" && GetUser(req, rt).Some?
             && EnvValue(rt, "POLAR_ACCESS_TOKEN").None?) ==> r == Some(ErrorResponse("Polar not configured", 500))
    ensures r.None? <==> !req.corsPreflight && req.httpMethod == "POST" && GetUser(req, rt).Some?
                         && EnvValue(rt, "POLAR_ACCESS_TOKEN").Some?
  {
    if req.corsPreflight then Some(Preflight)
    else if req.httpMethod != "POST" then Some(ErrorResponse("Method not allowed", 405))
    else if GetUser(req, rt).None? then Some(ErrorResponse("Unauthorized", 401))
    else if EnvValue(rt, "POLAR_ACCESS_TOKEN").None? then Some(ErrorResponse("Polar not configured", 500))
    else None
  }

  /** The keys every checkout body has. */
  const PAYLOAD_KEYS: set<string> := {"product_id", "payment_processor", "external_customer_id", "metadata",
                                       "success_url", "allow_discount_codes", "locale"}

  /** The checkout body: `customer_email` only for a caller with a
      non-empty email, and the caller's id both as the external customer
      id and as the metadata's `supabase_user_id`. */
  function CheckoutPayload(user: AuthUser, productId: Json, locale: Json): (r: Json)
    ensures r.JObj? && r.fields.Keys - {"customer_email"} == PAYLOAD_KEYS
    ensures r.fields["external_customer_id"] == JStr(user.id)
    ensures r.fields["metadata"] == JObj(map[PolarWebhook.USER_ID_KEY := JStr(user.id)])
    ensures r.fields["product_id"] == productId && r.fields["locale"] == locale
    ensures "customer_email" in r.fields <==> user.email.Some? && user.email.value != ""
    ensures "customer_email" in r.fields ==> r.fields["customer_email"] == JStr(user.email.value)
  {
    var always := map[
      "product_id" := productId,
      "payment_processor" := JStr("stripe"),
      "external_customer_id" := JStr(user.id),
      "metadata" := JObj(map[PolarWebhook.USER_ID_KEY := JStr(user.id)]),
      "success_url" := JStr(SUCCESS_URL),
      "allow_discount_codes" := JBool(true),
      "locale" := locale];
    if user.email.Some? && user.email.value != "" then JObj(always["customer_email" := JStr(user.email.value)])
    else JObj(always)
  }

  /** polar-checkout's answer once the checkout was requested; `reply` is
      Polar's reply, `None` when `fetch` rejects. A refusal is a 502 naming
      Polar's status, and an accepted checkout hands back its `url`. */
  function CheckoutResponse(rt: Runtime, reply: Option<FetchReply>): (r: Response)
    ensures reply.None? ==> r == Crashed
    ensures reply.Some? && !reply.value.ok ==>
              r == ErrorResponse("Failed to create checkout: " + IntToString(reply.value.status), 502)
    ensures reply.Some? && reply.value.ok && rt.parseJson(reply.value.body).None? ==> r == Crashed
    ensures reply.Some? && reply.value.ok && rt.parseJson(reply.value.body).Some? ==>
              match Prop(rt.parseJson(reply.value.body), "url")
              case Threw => r == Crashed
              // `JSON.stringify` leaves out an undefined `checkoutUrl`
              case Got(None) => r == JsonResponse(EMPTY_OBJECT)
              case Got(Some(url)) => r == JsonResponse(JObj(map["checkoutUrl" := url]))
  {
    match reply
    case None => Crashed
    case Some(reply) =>
      if !reply.ok then ErrorResponse("Failed to create checkout: " + IntToString(reply.status), 502)
      else match rt.parseJson(reply.body)
        case None => Crashed
        case Some(checkout) =>
          match Prop(Some(checkout), "url")
          case Threw => Crashed
          case Got(None) => JsonResponse(EMPTY_OBJECT)
          case Got(Some(url)) => JsonResponse(JObj(map["checkoutUrl" := url]))
  }

  /** polar-checkout: after the gates, the body must parse (400 otherwise)
      and name a product (400 otherwise); the locale defaults to "en". */
  function Checkout(req: Request, rt: Runtime, post: Post): (o: Outcome)
    ensures Gate(req, rt).Some? ==> o == Outcome(Gate(req, rt).value, None)
    ensures Gate(req, rt).None? && rt.parseJson(req.body).None? ==> o == Outcome(ErrorResponse("Invalid JSON body"), None)
    ensures Gate(req, rt).None? && rt.parseJson(req.body).Some? && rt.parseJson(req.body).value != JNull
            && !Truthy(Prop(rt.parseJson(req.body), "productId").value) ==>
              o == Outcome(ErrorResponse("productId is required"), None)
    // what is posted, when something is
    ensures o.sent.Some? ==>
              Gate(req, rt).None? && rt.parseJson(req.body).Some?
              && var body := rt.parseJson(req.body);
                 && Truthy(OptProp(body, "productId"))
                 && o.sent.value == CheckoutPayload(GetUser(req, rt).value, OptProp(body, "productId").value,
                                                    Or(OptProp(body, "locale"), JStr(DEFAULT_LOCALE)))
    // and Polar's reply to it decides the answer
    ensures o.sent.Some? ==>
              o.response == CheckoutResponse(rt, post(CHECKOUT_URL, BEARER + EnvValue(rt, "POLAR_ACCESS_TOKEN").value, o.sent.value))
    ensures o.response.Reply? && o.response.status == 200 ==> o.sent.Some?
  {
    if Gate(req, rt).Some? then Outcome(Gate(req, rt).value, None)
    else
      var user := GetUser(req, rt).value;
      var token := EnvValue(rt, "POLAR_ACCESS_TOKEN").value;
      match rt.parseJson(req.body)
      case None => Outcome(ErrorResponse("Invalid JSON body"), None)
      case Some(body) =>
        match Prop(Some(body), "productId")
        case Threw => Outcome(Crashed, None)
        case Got(productId) =>
          if !Truthy(productId) then Outcome(ErrorResponse("productId is required"), None)
          else
            var locale := Or(OptProp(Some(body), "locale"), JStr(DEFAULT_LOCALE));
            var payload := CheckoutPayload(user, productId.value, locale);
            Outcome(CheckoutResponse(rt, post(CHECKOUT_URL, BEARER + token, payload)), Some(payload))
  }

  /** The locale is the body's when truthy and "en" otherwise. */
  lemma LocaleDefault(body: Json)
    requires body.JObj?
    ensures "locale" !in body.fields ==> Or(OptProp(Some(body), "locale"), JStr(DEFAULT_LOCALE)) == JStr("en")
    ensures "locale" in body.fields && body.fields["locale"] == JStr("") ==>
              Or(OptProp(Some(body), "locale"), JStr(DEFAULT_LOCALE)) == JStr("en")
    ensures "locale" in body.fields && body.fields["locale"].JStr? && body.fields["locale"].s != "" ==>
              Or(OptProp(Some(body), "locale"), JStr(DEFAULT_LOCALE)) == body.fields["locale"]
  {
  }

  /** A webhook event carrying the checkout's metadata is attributed to the
      caller who started the checkout: the first place polar-webhook looks
      for a user id is the one checkout fills in. */
  lemma CheckoutMetadataIdentifiesCaller(user: AuthUser, productId: Json, locale: Json, eventType: Json, data: map<string, Json>)
    requires user.id != ""
    requires "metadata" in data && data["metadata"] == CheckoutPayload(user, productId, locale).fields["metadata"]
    ensures PolarWebhook.ExtractUserId(JObj(map["type" := eventType, "data" := JObj(data)])) == Some(JStr(user.id))
  {
    var event := JObj(map["type" := eventType, "data" := JObj(data)]);
    assert OptProp(Some(event), "data") == Some(JObj(data));
  }

  /** The session body: the caller's id as the external customer id, and
      `return_url` only for a non-empty return URL. */
  function PortalPayload(userId: string, returnUrl: Option<string>): (j: Json)
    ensures j.JObj? && "external_customer_id" in j.fields && j.fields["external_customer_id"] == JStr(userId)
    ensures "return_url" in j.fields <==> returnUrl.Some? && returnUrl.value != ""
    ensures "return_url" in j.fields ==> j.fields["return_url"] == JStr(returnUrl.value)
    ensures j.fields.Keys <= {"external_customer_id", "return_url"}
  {
    if returnUrl.Some? && returnUrl.value != "" then
      JObj(map["external_customer_id" := JStr(userId), "return_url" := JStr(returnUrl.value)])
    else JObj(map["external_customer_id" := JStr(userId)])
  }

  /** The portal's answer once the session was requested; `reply` is
      Polar's reply, `None` when `fetch` rejects. A refusal is answered by
      the fallback, and a 200 always carries a truthy `portalUrl`. */
  function PortalResponse(rt: Runtime, reply: Option<FetchReply>): (r: Response)
    ensures reply.None? ==> r == Crashed
    ensures reply.Some? && !reply.value.ok ==> r == PortalFallback(rt)
    ensures reply.Some? && reply.value.ok && rt.parseJson(reply.value.body).None? ==> r == Crashed
    ensures reply.Some? && reply.value.ok && rt.parseJson(reply.value.body).Some? ==>
              match PortalUrl(rt.parseJson(reply.value.body).value)
              case Threw => r == Crashed
              case Got(url) =>
                && (Truthy(url) ==> r == JsonResponse(JObj(map["portalUrl" := url.value])))
                && (!Truthy(url) ==> r == ErrorResponse("Customer portal URL missing from response", 502))
    ensures r.Reply? && r.status == 200 ==>
              r.body.JObj? && "portalUrl" in r.body.fields && Truthy(Some(r.body.fields["portalUrl"]))
  {
    match reply
    case None => Crashed
    case Some(reply) =>
      if !reply.ok then PortalFallback(rt)
      else match rt.parseJson(reply.body)
        case None => Crashed
        case Some(data) =>
          match PortalUrl(data)
          case Threw => Crashed
          case Got(url) =>
            if !Truthy(url) then ErrorResponse("Customer portal URL missing from response", 502)
            else JsonResponse(JObj(map["portalUrl" := url.value]))
  }

  /** polar-portal: after the gates, a session for the caller is requested,
      with a `return_url` only when the body parses to a value whose
      `returnUrl` is a non-empty string; an unparseable body is ignored. */
  function Portal(req: Request, rt: Runtime, post: Post): (o: Outcome)
    ensures Gate(req, rt).Some? ==> o == Outcome(Gate(req, rt).value, None)
    ensures Gate(req, rt).None? <==> o.sent.Some?
    ensures o.sent.Some? ==>
              && o.sent.value.JObj? && "external_customer_id" in o.sent.value.fields
              && o.sent.value.fields["external_customer_id"] == JStr(GetUser(req, rt).value.id)
              && ("return_url" in o.sent.value.fields <==> ReturnUrl(req, rt).Some? && ReturnUrl(req, rt).value != "")
              && o.sent.value.fields.Keys <= {"external_customer_id", "return_url"}
              && ("return_url" in o.sent.value.fields ==> o.sent.value.fields["return_url"] == JStr(ReturnUrl(req, rt).value))
    // Polar refusing the session is answered by the fallback
    ensures o.sent.Some? ==>
              var reply := post(SESSION_URL, BEARER + EnvValue(rt, "POLAR_ACCESS_TOKEN").value, o.sent.value);
              reply.Some? && !reply.value.ok ==> o.response == PortalFallback(rt)
  {
    if Gate(req, rt).Some? then Outcome(Gate(req, rt).value, None)
    else
      var payload := PortalPayload(GetUser(req, rt).value.id, ReturnUrl(req, rt));
      var token := EnvValue(rt, "POLAR_ACCESS_TOKEN").value;
      Outcome(PortalResponse(rt, post(SESSION_URL, BEARER + token, payload)), Some(payload))
  }

  /** The `returnUrl` of a body that parses to a truthy value, when it is
      a string. */
  function ReturnUrl(req: Request, rt: Runtime): (r: Option<string>)
    ensures r.Some? ==> rt.parseJson(req.body).Some? && OptProp(rt.parseJson(req.body), "returnUrl") == Some(JStr(r.value))
    ensures rt.parseJson(req.body).None? ==> r.None?
  {
    var body := rt.parseJson(req.body);
    if Truthy(body) then AsString(OptProp(body, "returnUrl")) else None
  }

  /** When Polar refuses the session: the configured portal URL, marked as
      a fallback, or 502 when none is configured. */
  function PortalFallback(rt: Runtime): (r: Response)
    ensures EnvValue(rt, "POLAR_PORTAL_URL").Some? ==>
              r == JsonResponse(JObj(map["portalUrl" := JStr(rt.env["POLAR_PORTAL_URL"]), "fallback" := JBool(true)]))
    ensures EnvValue(rt, "POLAR_PORTAL_URL").None? ==> r == ErrorResponse("Failed to create customer portal session", 502)
  {
    match EnvValue(rt, "POLAR_PORTAL_URL")
    case Some(url) => JsonResponse(JObj(map["portalUrl" := JStr(url), "fallback" := JBool(true)]))
    case None => ErrorResponse("Failed to create customer portal session", 502)
  }

  /** `data.customer_portal_url ?? data.customerPortalUrl` */
  function PortalUrl(data: Json): (r: Access)
    ensures r.Threw? <==> data == JNull
    ensures data.JObj? && "customer_portal_url" in data.fields && data.fields["customer_portal_url"] != JNull ==>
              r == Got(Some(data.fields["customer_portal_url"]))
    ensures data.JObj? && ("customer_portal_url" !in data.fields || data.fields["customer_portal_url"] == JNull) ==>
              r == Got(if "customerPortalUrl" in data.fields then Some(data.fields["customerPortalUrl"]) else None)
  {
    match Prop(Some(data), "customer_portal_url")
    case Threw => Threw
    case Got(first) =>
      if first.None? || first == Some(JNull) then Prop(Some(data), "customerPortalUrl") else Got(first)
  }

  /** Where the portal URL handed to the caller comes from: the
      snake_case key whenever it holds a non-null value (even a falsy one,
      which is then a 502), the camelCase key otherwise. */
  lemma PortalUrlPreference(req: Request, rt: Runtime, post: Post, data: map<string, Json>)
    requires Gate(req, rt).None?
    requires var reply := post(SESSION_URL, BEARER + EnvValue(rt, "POLAR_ACCESS_TOKEN").value,
                               PortalPayload(GetUser(req, rt).value.id, ReturnUrl(req, rt)));
             reply.Some? && reply.value.ok && rt.parseJson(reply.value.body) == Some(JObj(data))
    ensures "customer_portal_url" in data && data["customer_portal_url"] != JNull ==>
              Portal(req, rt, post).response ==
                (if Truthy(Some(data["customer_portal_url"]))
                 then JsonResponse(JObj(map["portalUrl" := data["customer_portal_url"]]))
                 else ErrorResponse("Customer portal URL missing from response", 502))
    ensures ("customer_portal_url" !in data || data["customer_portal_url"] == JNull)
            && "customerPortalUrl" in data && Truthy(Some(data["customerPortalUrl"])) ==>
              Portal(req, rt, post).response == JsonResponse(JObj(map["portalUrl" := data["customerPortalUrl"]]))
  {
    var payload := PortalPayload(GetUser(req, rt).value.id, ReturnUrl(req, rt));
    var reply := post(SESSION_URL, BEARER + EnvValue(rt, "POLAR_ACCESS_TOKEN").value, payload);
    assert Portal(req, rt, post).response == PortalResponse(rt, reply);
  }
}

=== FILE: polar_reconcile.dfy ===
/** The reconciliation endpoint (polar-reconcile/index.ts): it pages
    through Polar's orders and makes every ordering user a "pro" member,
    creating rows that are missing and upgrading rows that are not "pro".
    The Polar listing replies are given as a sequence (the reply to page
    n is element n - 1); whether the n-th scanned order's member read or
    write fails is given by `Faults`. */
module PolarReconcile {
  import opened Common
  import opened JsonValues
  import opened Http
  import opened Members

  /** The fields of a Polar order the scan reads. */
  datatype Order = Order(
    id: string,
    status: string,
    subscriptionId: Option<string>,
    metadata: Option<map<string, string>>,
    customer: Option<Customer>)

  datatype Customer = Customer(metadata: Option<map<string, string>>)

  /** What `data.pagination.max_page` reads as: a throw when the body has
      no `pagination`, `undefined` when the pagination has no `max_page`
      key (`page >= undefined` is false), or the page count. A `null`
      `max_page` compares as 0 and is the page count 0. */
  datatype MaxPage = NoPagination | NoMaxPage | MaxPage(n: int)

  /** `page >= data.pagination.max_page` holds. */
  predicate LastPage(page: nat, m: MaxPage) {
    m.MaxPage? && page >= m.n
  }

  /** The reply to one listing request. */
  datatype PageReply =
    | NotOk(status: int)                               // `!polarRes.ok`
    | Listing(items: seq<Order>, maxPage: MaxPage)     // `{ items, pagination: { max_page } }`
    | Malformed                                        // a body without `items`: reading it throws

  /** Per scanned order (numbered from 0): whether its member read fails,
      and the error its write fails with, if any. */
  datatype Faults = Faults(readFails: nat -> bool, writeFault: nat -> Option<string>)

  function Reliable(): Faults {
    Faults(_ => false, _ => None)
  }

  const USER_ID_KEY: string := "supabase_user_id"

  function MetadataUserId(metadata: Option<map<string, string>>): Option<string> {
    if metadata.Some? && USER_ID_KEY in metadata.value && metadata.value[USER_ID_KEY] != ""
    then Some(metadata.value[USER_ID_KEY]) else None
  }

  /** `extractUserId(order)`: the order's own metadata first, then its
      customer's, ignoring empty ids. */
  function ExtractUserId(order: Order): (r: Option<string>)
    ensures r.Some? ==> r.value != ""
    ensures MetadataUserId(order.metadata).Some? ==> r == MetadataUserId(order.metadata)
    ensures MetadataUserId(order.metadata).None? && order.customer.Some? ==> r == MetadataUserId(order.customer.value.metadata)
    ensures MetadataUserId(order.metadata).None? && order.customer.None? ==> r.None?
  {
    if MetadataUserId(order.metadata).Some? then MetadataUserId(order.metadata)
    else if order.customer.Some? then MetadataUserId(order.customer.value.metadata)
    else None
  }

  /** The running totals of a scan and the store it has written. */
  datatype Tally = Tally(
    totalOrders: nat,
    totalReconciled: nat,
    reconciled: seq<string>,
    errors: seq<string>,
    store: Store)

  /** The subscription column an order's write carries, if any. */
  function SubscriptionColumn(order: Order): Option<Option<string>> {
    if order.subscriptionId.Some? && order.subscriptionId.value != "" then Some(order.subscriptionId) else None
  }

  /** One pass of the `for (const order of orders)` body. */
  function ProcessOrder(t: Tally, order: Order, faults: Faults): (r: Tally)
    ensures r.totalOrders == t.totalOrders + 1
    ensures ExtractUserId(order).None? ==>
              r == t.(totalOrders := t.totalOrders + 1,
                      errors := t.errors + ["Order " + order.id + ": no supabase_user_id in metadata"])
    ensures || (r.reconciled == t.reconciled && r.totalReconciled == t.totalReconciled)
            || (ExtractUserId(order).Some? && r.reconciled == t.reconciled + [ExtractUserId(order).value]
                && r.totalReconciled == t.totalReconciled + 1)
    ensures || r.store == t.store
            || (ExtractUserId(order).Some? && ExtractUserId(order).value in r.store
                && r.store == t.store[ExtractUserId(order).value := r.store[ExtractUserId(order).value]]
                && r.store[ExtractUserId(order).value].plan == PLAN_PRO
                && !r.store[ExtractUserId(order).value].isOnTrial)
    ensures |r.reconciled| > |t.reconciled| ==>
              var id := ExtractUserId(order).value;
              id in r.store && r.store[id].plan == PLAN_PRO
              && (!faults.readFails(t.totalOrders) ==> id !in t.store || t.store[id].plan != PLAN_PRO)
  {
    var ordinal := t.totalOrders;
    var t1 := t.(totalOrders := t.totalOrders + 1);
    match ExtractUserId(order)
    case None =>
      t1.(errors := t1.errors + ["Order " + order.id + ": no supabase_user_id in metadata"])
    case Some(userId) =>
      var member := if faults.readFails(ordinal) || userId !in t.store then None else Some(t.store[userId]);
      if member.None? then
        match faults.writeFault(ordinal)
        case Some(message) =>
          t1.(errors := t1.errors + ["Order " + order.id + ": failed to create member " + userId + ": " + message])
        case None =>
          var p := NewMemberPatch(PLAN_PRO).(polarSubscriptionId := SubscriptionColumn(order));
          t1.(store := Upsert(t.store, userId, p),
              totalReconciled := t.totalReconciled + 1,
              reconciled := t.reconciled + [userId])
      else if member.value.plan != PLAN_PRO then
        match faults.writeFault(ordinal)
        case Some(message) =>
          t1.(errors := t1.errors + ["Order " + order.id + ": failed to update member " + userId + ": " + message])
        case None =>
          var p := PlanPatch(PLAN_PRO, Some(false)).(polarSubscriptionId := SubscriptionColumn(order));
          t1.(store := UpdateById(t.store, userId, p),
              totalReconciled := t.totalReconciled + 1,
              reconciled := t.reconciled + [userId])
      else t1
  }

  function ProcessOrders(t: Tally, orders: seq<Order>, faults: Faults): (r: Tally)
    ensures r.totalOrders == t.totalOrders + |orders|
    decreases |orders|
  {
    if |orders| == 0 then t else ProcessOrders(ProcessOrder(t, orders[0], faults), orders[1..], faults)
  }

  /** How a scan ends. */
  datatype ScanEnd =
    | Finished(tally: Tally, pagesFetched: nat)        // an empty page, or page >= max_page
    | Aborted(status: int, store: Store)               // a non-OK listing reply
    | BadListing(store: Store)                         // reading `items` or `pagination` threw
    | RepliesExhausted(tally: Tally)                   // the given replies ran out first

  /** The `while (true)` loop from page `page` on; `replies[0]` is the
      reply to `page`. */
  function ScanPages(t: Tally, replies: seq<PageReply>, page: nat, faults: Faults): ScanEnd
    decreases |replies|
  {
    if |replies| == 0 then RepliesExhausted(t)
    else match replies[0]
      case NotOk(status) => Aborted(status, t.store)
      case Malformed => BadListing(t.store)
      case Listing(items, maxPage) =>
        if |items| == 0 then Finished(t, page)
        else
          var t' := ProcessOrders(t, items, faults);
          // the page's orders are written before `pagination` is read
          if maxPage.NoPagination? then BadListing(t'.store)
          else if LastPage(page, maxPage) then Finished(t', page)
          else ScanPages(t', replies[1..], page + 1, faults)
  }

  function StartTally(s: Store): Tally {
    Tally(0, 0, [], [], s)
  }

  /** The report `{ totalOrders, totalReconciled, reconciledUserIds, errors }`. */
  function Report(t: Tally): Json {
    JObj(map[
      "totalOrders" := JNum(t.totalOrders),
      "totalReconciled" := JNum(t.totalReconciled),
      "reconciledUserIds" := JArr(seq(|t.reconciled|, i requires 0 <= i < |t.reconciled| => JStr(t.reconciled[i]))),
      "errors" := JArr(seq(|t.errors|, i requires 0 <= i < |t.errors| => JStr(t.errors[i])))])
  }

  /** The handler's answer and the store it leaves; `None` for the
      response when the given replies ran out before the scan ended. */
  datatype Outcome = Outcome(response: Option<Response>, store: Store, pagesFetched: nat)

  /** The request handler of polar-reconcile/index.ts. */
  function Handle(req: Request, rt: Runtime, s: Store, replies: seq<PageReply>, faults: Faults): (o: Outcome)
    ensures req.corsPreflight ==> o == Outcome(Some(Preflight), s, 0)
    ensures !req.corsPreflight && req.httpMethod != "POST" ==>
              o == Outcome(Some(ErrorResponse("Method not allowed", 405)), s, 0)
    ensures !req.corsPreflight && req.httpMethod == "POST" && GetUser(req, rt).None? ==>
              o == Outcome(Some(ErrorResponse("Unauthorized", 401)), s, 0)
    ensures !req.corsPreflight && req.httpMethod == "POST" && GetUser(req, rt).Some?
            && EnvValue(rt, "POLAR_ACCESS_TOKEN").None? ==>
              o == Outcome(Some(ErrorResponse("Polar not configured", 500)), s, 0)
    ensures !req.corsPreflight && req.httpMethod == "POST" && GetUser(req, rt).Some?
            && EnvValue(rt, "POLAR_ACCESS_TOKEN").Some? ==>
              match ScanPages(StartTally(s), replies, 1, faults)
              case Finished(t, pages) => o == Outcome(Some(JsonResponse(Report(t))), t.store, pages)
              case Aborted(status, s') =>
                o == Outcome(Some(ErrorResponse("Polar API error: " + IntToString(status), 502)), s', 0)
              case BadListing(s') => o == Outcome(Some(Crashed), s', 0)
              case RepliesExhausted(t) => o == Outcome(None, t.store, 0)
  {
    if req.corsPreflight then Outcome(Some(Preflight), s, 0)
    else if req.httpMethod != "POST" then Outcome(Some(ErrorResponse("Method not allowed", 405)), s, 0)
    else if GetUser(req, rt).None? then Outcome(Some(ErrorResponse("Unauthorized", 401)), s, 0)
    else if EnvValue(rt, "POLAR_ACCESS_TOKEN").None? then Outcome(Some(ErrorResponse("Polar not configured", 500)), s, 0)
    else match ScanPages(StartTally(s), replies, 1, faults)
      case Finished(t, pages) => Outcome(Some(JsonResponse(Report(t))), t.store, pages)
      case Aborted(status, s') =>
        Outcome(Some(ErrorResponse("Polar API error: " + IntToString(status), 502)), s', 0)
      case BadListing(s') => Outcome(Some(Crashed), s', 0)
      case RepliesExhausted(t) => Outcome(None, t.store, 0)
  }

  // ---------------------------------------------------------------------------
  // Run invariants

  /** What holds of every tally a scan starting from store `s0` reaches:
      the counter matches the id list, no row disappears, no row's plan
      changes except to "pro", and every reconciled id is "pro" now. */
  ghost predicate Inv(s0: Store, t: Tally) {
    && t.totalReconciled == |t.reconciled|
    && (forall k | k in s0 :: k in t.store)
    && (forall k | k in t.store :: t.store[k].plan == PLAN_PRO || (k in s0 && t.store[k].plan == s0[k].plan))
    && (forall i | 0 <= i < |t.reconciled| :: t.reconciled[i] in t.store && t.store[t.reconciled[i]].plan == PLAN_PRO)
  }

  /** With reliable reads a user is reconciled at most once, and only if
      at the start it had no row or a row that was not "pro". */
  ghost predicate ReliableInv(s0: Store, t: Tally) {
    && (forall i, j | 0 <= i < j < |t.reconciled| :: t.reconciled[i] != t.reconciled[j])
    && (forall i | 0 <= i < |t.reconciled| :: t.reconciled[i] !in s0 || s0[t.reconciled[i]].plan != PLAN_PRO)
  }

  lemma ProcessOrderInv(s0: Store, t: Tally, order: Order, faults: Faults)
    requires Inv(s0, t)
    ensures Inv(s0, ProcessOrder(t, order, faults))
    ensures (forall n :: !faults.readFails(n)) && ReliableInv(s0, t) ==> ReliableInv(s0, ProcessOrder(t, order, faults))
  {
    ProcessOrderKeepsInv(s0, t, order, faults);
    if (forall n :: !faults.readFails(n)) && ReliableInv(s0, t) {
      ProcessOrderKeepsReliableInv(s0, t, order, faults);
    }
  }

  lemma ProcessOrderKeepsInv(s0: Store, t: Tally, order: Order, faults: Faults)
    requires Inv(s0, t)
    ensures Inv(s0, ProcessOrder(t, order, faults))
  {
    var r := ProcessOrder(t, order, faults);
    if |r.reconciled| > |t.reconciled| {
      assert r.reconciled == t.reconciled + [ExtractUserId(order).value];
    }
  }

  /** With reliable reads an id is added only when it was not "pro" yet,
      so it is new to the list and was not "pro" at the start. */
  lemma ProcessOrderKeepsReliableInv(s0: Store, t: Tally, order: Order, faults: Faults)
    requires Inv(s0, t) && ReliableInv(s0, t) && forall n :: !faults.readFails(n)
    ensures ReliableInv(s0, ProcessOrder(t, order, faults))
  {
    var r := ProcessOrder(t, order, faults);
    if |r.reconciled| > |t.reconciled| {
      var id := ExtractUserId(order).value;
      assert r.reconciled == t.reconciled + [id];
      assert !faults.readFails(t.totalOrders);
      forall i | 0 <= i < |t.reconciled| ensures t.reconciled[i] != id {
        assert t.store[t.reconciled[i]].plan == PLAN_PRO;
      }
    }
  }

  lemma {:induction false} ProcessOrdersInv(s0: Store, t: Tally, orders: seq<Order>, faults: Faults)
    requires Inv(s0, t)
    ensures Inv(s0, ProcessOrders(t, orders, faults))
    ensures (forall n :: !faults.readFails(n)) && ReliableInv(s0, t) ==> ReliableInv(s0, ProcessOrders(t, orders, faults))
    decreases |orders|
  {
    if |orders| > 0 {
      ProcessOrderInv(s0, t, orders[0], faults);
      ProcessOrdersInv(s0, ProcessOrder(t, orders[0], faults), orders[1..], faults);
    }
  }

  lemma {:induction false} ScanPagesInv(s0: Store, t: Tally, replies: seq<PageReply>, page: nat, faults: Faults)
    requires Inv(s0, t)
    ensures match ScanPages(t, replies, page, faults)
            case Finished(t', _) => Inv(s0, t')
            case RepliesExhausted(t') => Inv(s0, t')
            case Aborted(_, s') => Inv(s0, t.(store := s')) || exists t' :: Inv(s0, t') && t'.store == s'
            case BadListing(s') => exists t' :: Inv(s0, t') && t'.store == s'
    ensures (forall n :: !faults.readFails(n)) && ReliableInv(s0, t) ==>
              match ScanPages(t, replies, page, faults)
              case Finished(t', _) => ReliableInv(s0, t')
              case RepliesExhausted(t') => ReliableInv(s0, t')
              case _ => true
    decreases |replies|
  {
    if |replies| > 0 && replies[0].Listing? && |replies[0].items| > 0 {
      var t' := ProcessOrders(t, replies[0].items, faults);
      ProcessOrdersInv(s0, t, replies[0].items, faults);
      if replies[0].maxPage.NoPagination? {
        assert Inv(s0, t');
      } else if !LastPage(page, replies[0].maxPage) {
        ScanPagesInv(s0, t', replies[1..], page + 1, faults);
      }
    }
  }

  /** The scan never demotes: every row that existed is still there, and
      any row whose plan differs from the start is "pro" (so no row is ever
      written "free"), whether the scan finishes, aborts or throws. */
  lemma NeverDemotes(req: Request, rt: Runtime, s: Store, replies: seq<PageReply>, faults: Faults)
    ensures var r := Handle(req, rt, s, replies, faults).store;
            && (forall k | k in s :: k in r)
            && (forall k | k in r :: r[k].plan == PLAN_PRO || (k in s && r[k].plan == s[k].plan))
  {
    ScanPagesInv(s, StartTally(s), replies, 1, faults);
  }

  /** A finished scan reports totalReconciled equal to the length of
      reconciledUserIds, every reconciled user is "pro" afterwards, and with
      reliable reads no user is reconciled twice and only users that had
      no row or a row that was not "pro" are. */
  lemma ReportConsistent(s: Store, replies: seq<PageReply>, faults: Faults)
    ensures match ScanPages(StartTally(s), replies, 1, faults)
            case Finished(t, _) =>
              && t.totalReconciled == |t.reconciled|
              && (forall i | 0 <= i < |t.reconciled| ::
                    t.reconciled[i] in t.store && t.store[t.reconciled[i]].plan == PLAN_PRO)
              && ((forall n :: !faults.readFails(n)) ==>
                    && (forall i, j | 0 <= i < j < |t.reconciled| :: t.reconciled[i] != t.reconciled[j])
                    && (forall i | 0 <= i < |t.reconciled| ::
                          t.reconciled[i] !in s || s[t.reconciled[i]].plan != PLAN_PRO))
            case _ => true
  {
    ScanPagesInv(s, StartTally(s), replies, 1, faults);
  }

  /** A failed member read is taken for a missing member: an existing
      row, even a "pro" one, is then upserted afresh, which zeroes its usage
      counters and counts the user as reconciled. */
  lemma FailedReadRecreates(t: Tally, order: Order, faults: Faults)
    requires ExtractUserId(order).Some? && ExtractUserId(order).value in t.store
    requires faults.readFails(t.totalOrders) && faults.writeFault(t.totalOrders).None?
    ensures var id := ExtractUserId(order).value;
            var r := ProcessOrder(t, order, faults);
            id in r.store && ZeroUsage(r.store[id]) && r.store[id].plan == PLAN_PRO
            && r.reconciled == t.reconciled + [id]
  {
  }

  /** An existing "pro" member read back reliably is neither written nor
      counted. */
  lemma ProMemberSkipped(t: Tally, order: Order, faults: Faults)
    requires ExtractUserId(order).Some? && ExtractUserId(order).value in t.store
    requires t.store[ExtractUserId(order).value].plan == PLAN_PRO && !faults.readFails(t.totalOrders)
    ensures ProcessOrder(t, order, faults) == t.(totalOrders := t.totalOrders + 1)
  {
  }

  // ---------------------------------------------------------------------------
  // Paging

  /** Pages are requested from 1 upward; a first page that is empty or has
      max_page <= 1 (max_page 0 included) ends the scan after one request. */
  lemma FirstPageEnds(t: Tally, replies: seq<PageReply>, faults: Faults)
    requires |replies| > 0 && replies[0].Listing?
    requires |replies[0].items| == 0 || LastPage(1, replies[0].maxPage)
    ensures ScanPages(t, replies, 1, faults).Finished?
    ensures ScanPages(t, replies, 1, faults).pagesFetched == 1
  {
  }

  /** A non-empty page whose body has no `pagination` throws only after
      its orders were processed: their writes stay, and there is no report. */
  lemma MissingPaginationThrowsAfterWrites(req: Request, rt: Runtime, s: Store, replies: seq<PageReply>, faults: Faults)
    requires !req.corsPreflight && req.httpMethod == "POST" && GetUser(req, rt).Some?
    requires EnvValue(rt, "POLAR_ACCESS_TOKEN").Some?
    requires |replies| > 0 && replies[0].Listing? && |replies[0].items| > 0 && replies[0].maxPage.NoPagination?
    ensures Handle(req, rt, s, replies, faults)
            == Outcome(Some(Crashed), ProcessOrders(StartTally(s), replies[0].items, faults).store, 0)
  {
  }

  /** A pagination without a numeric `max_page` never ends the scan by
      page count: the next page is requested. */
  lemma NoMaxPageContinues(t: Tally, replies: seq<PageReply>, page: nat, faults: Faults)
    requires |replies| > 0 && replies[0].Listing? && |replies[0].items| > 0 && replies[0].maxPage.NoMaxPage?
    ensures ScanPages(t, replies, page, faults)
            == ScanPages(ProcessOrders(t, replies[0].items, faults), replies[1..], page + 1, faults)
  {
  }

  /** The orders a scan reads: those of every listed page up to where it
      stops. */
  function ScannedOrders(replies: seq<PageReply>, page: nat): seq<Order>
    decreases |replies|
  {
    if |replies| == 0 || !replies[0].Listing? || |replies[0].items| == 0 then []
    else if replies[0].maxPage.NoPagination? || LastPage(page, replies[0].maxPage) then replies[0].items
    else replies[0].items + ScannedOrders(replies[1..], page + 1)
  }

  lemma {:induction false} ProcessOrdersAppend(t: Tally, a: seq<Order>, b: seq<Order>, faults: Faults)
    ensures ProcessOrders(t, a + b, faults) == ProcessOrders(ProcessOrders(t, a, faults), b, faults)
    decreases |a|
  {
    if |a| > 0 {
      assert (a + b)[0] == a[0];
      assert (a + b)[1..] == a[1..] + b;
      ProcessOrdersAppend(ProcessOrder(t, a[0], faults), a[1..], b, faults);
    } else {
      assert a + b == b;
    }
  }

  /** Every scanned order is counted: a finished scan's totalOrders is the
      number of orders on the pages it read. */
  lemma {:induction false} FinishedCountsOrders(t: Tally, replies: seq<PageReply>, page: nat, faults: Faults)
    ensures ScanPages(t, replies, page, faults).Finished? ==>
              ScanPages(t, replies, page, faults).tally == ProcessOrders(t, ScannedOrders(replies, page), faults)
              && ScanPages(t, replies, page, faults).tally.totalOrders == t.totalOrders + |ScannedOrders(replies, page)|
    decreases |replies|
  {
    if |replies| > 0 && replies[0].Listing? && |replies[0].items| > 0
       && !replies[0].maxPage.NoPagination? && !LastPage(page, replies[0].maxPage) {
      var t' := ProcessOrders(t, replies[0].items, faults);
      FinishedCountsOrders(t', replies[1..], page + 1, faults);
      ProcessOrdersAppend(t, replies[0].items, ScannedOrders(replies[1..], page + 1), faults);
    }
  }

  // ---------------------------------------------------------------------------
  // Convergence

  /** Every order with a user id among `orders` has a "pro" row in `s`. */
  ghost predicate AllPro(s: Store, orders: seq<Order>) {
    forall i | 0 <= i < |orders| && ExtractUserId(orders[i]).Some? ::
      ExtractUserId(orders[i]).value in s && s[ExtractUserId(orders[i]).value].plan == PLAN_PRO
  }

  /** A row that is "pro" stays "pro" through any later orders. */
  lemma {:induction false} ProcessOrdersKeepsPro(t: Tally, orders: seq<Order>, faults: Faults, id: string)
    requires id in t.store && t.store[id].plan == PLAN_PRO
    ensures var r := ProcessOrders(t, orders, faults).store; id in r && r[id].plan == PLAN_PRO
    decreases |orders|
  {
    if |orders| > 0 {
      ProcessOrdersKeepsPro(ProcessOrder(t, orders[0], faults), orders[1..], faults, id);
    }
  }

  /** With every read and write succeeding, each processed order's user
      ends up "pro". */
  lemma {:induction false} ProcessOrdersMakesPro(t: Tally, orders: seq<Order>)
    ensures AllPro(ProcessOrders(t, orders, Reliable()).store, orders)
    decreases |orders|
  {
    if |orders| > 0 {
      var t1 := ProcessOrder(t, orders[0], Reliable());
      ProcessOrdersMakesPro(t1, orders[1..]);
      var r := ProcessOrders(t1, orders[1..], Reliable()).store;
      forall i | 0 <= i < |orders| && ExtractUserId(orders[i]).Some?
        ensures ExtractUserId(orders[i]).value in r && r[ExtractUserId(orders[i]).value].plan == PLAN_PRO
      {
        if i == 0 {
          ProcessOrdersKeepsPro(t1, orders[1..], Reliable(), ExtractUserId(orders[0]).value);
        } else {
          assert orders[i] == orders[1..][i - 1];
        }
      }
    }
  }

  /** Orders whose users are all "pro" already reconcile nothing and leave
      the store alone. */
  lemma {:induction false} ProcessOrdersAllProIsQuiet(t: Tally, orders: seq<Order>)
    requires AllPro(t.store, orders)
    ensures var r := ProcessOrders(t, orders, Reliable());
            r.store == t.store && r.reconciled == t.reconciled && r.totalReconciled == t.totalReconciled
    decreases |orders|
  {
    if |orders| > 0 {
      var t1 := ProcessOrder(t, orders[0], Reliable());
      assert t1.store == t.store;
      assert AllPro(t1.store, orders[1..]) by {
        forall i | 0 <= i < |orders[1..]| && ExtractUserId(orders[1..][i]).Some?
          ensures ExtractUserId(orders[1..][i]).value in t1.store
        {
          assert orders[1..][i] == orders[i + 1];
        }
      }
      ProcessOrdersAllProIsQuiet(t1, orders[1..]);
    }
  }

  /** Reconciliation converges: after a finished scan in which nothing
      failed, scanning the same replies again reconciles nobody and writes
      nothing. */
  lemma SecondRunIsQuiet(s: Store, replies: seq<PageReply>)
    requires ScanPages(StartTally(s), replies, 1, Reliable()).Finished?
    ensures var first := ScanPages(StartTally(s), replies, 1, Reliable()).tally.store;
            var second := ScanPages(StartTally(first), replies, 1, Reliable());
            second.Finished? && second.tally.reconciled == [] && second.tally.totalReconciled == 0
            && second.tally.store == first
  {
    var orders := ScannedOrders(replies, 1);
    FinishedCountsOrders(StartTally(s), replies, 1, Reliable());
    var first := ProcessOrders(StartTally(s), orders, Reliable()).store;
    ProcessOrdersMakesPro(StartTally(s), orders);
    ProcessOrdersAllProIsQuiet(StartTally(first), orders);
    SameStopPage(StartTally(s), StartTally(first), replies, 1, Reliable());
    FinishedCountsOrders(StartTally(first), replies, 1, Reliable());
  }

  /** Where a scan stops depends only on the replies, not on the tally. */
  lemma {:induction false} SameStopPage(t1: Tally, t2: Tally, replies: seq<PageReply>, page: nat, faults: Faults)
    ensures ScanPages(t1, replies, page, faults).Finished? <==> ScanPages(t2, replies, page, faults).Finished?
    decreases |replies|
  {
    if |replies| > 0 && replies[0].Listing? && |replies[0].items| > 0
       && !replies[0].maxPage.NoPagination? && !LastPage(page, replies[0].maxPage) {
      SameStopPage(ProcessOrders(t1, replies[0].items, faults), ProcessOrders(t2, replies[0].items, faults),
                   replies[1..], page + 1, faults);
    }
  }
}

=== FILE: polar_webhook.dfy ===
/** The Polar webhook endpoint (polar-webhook/index.ts): Standard Webhooks
    signature verification, the user-id fallback chain, and the event
    router's writes to `members`. Database write errors are ignored by
    the code, so a failed write leaves the store as it was and the
    response is the same. */
module PolarWebhook {
  import opened Common
  import opened JsonValues
  import opened Http
  import opened Members
  import opened Crypto

  // ---------------------------------------------------------------------------
  // Signature verification

  const WHSEC: string := "whsec_"
  const POLAR_WHS: string := "polar_whs_"
  const VERSION_V1: string := "v1"

  /** `secret.replace(/^(whsec_|polar_whs_)/, "")` */
  function StripSecretPrefix(secret: string): (r: string)
    ensures StartsWith(secret, WHSEC) ==> WHSEC + r == secret
    ensures !StartsWith(secret, WHSEC) && StartsWith(secret, POLAR_WHS) ==> POLAR_WHS + r == secret
    ensures r == secret <==> !StartsWith(secret, WHSEC) && !StartsWith(secret, POLAR_WHS)
  {
    if StartsWith(secret, WHSEC) then
      assert secret == secret[..|WHSEC|] + secret[|WHSEC|..];
      secret[|WHSEC|..]
    else if StartsWith(secret, POLAR_WHS) then
      assert secret == secret[..|POLAR_WHS|] + secret[|POLAR_WHS|..];
      secret[|POLAR_WHS|..]
    else secret
  }

  /** What one space-separated token of `webhook-signature` contributes. */
  datatype TokenVerdict =
    | Skip      // version is not "v1"
    | Bare      // "v1" without a comma: `Buffer.from(undefined)` throws
    | Mismatch  // a v1 digest whose bytes differ from the computed one
    | Match     // a v1 digest byte-equal to the computed one

  /** `const [version, hash] = sig.split(",")` and the comparison. */
  function ReadToken(token: string, computed: string, c: Primitives): TokenVerdict {
    var parts := Split(token, ',');
    if parts[0] != VERSION_V1 then Skip
    else if |parts| < 2 then Bare
    else if SameBytes(c.utf8Encode(computed), c.utf8Encode(parts[1])) then Match
    else Mismatch
  }

  datatype SigCheck = Valid | Invalid | Raised  // Raised: the check threw

  /** The `for (const sig of signatures)` loop over the token verdicts. */
  function Scan(vs: seq<TokenVerdict>): SigCheck
    decreases |vs|
  {
    if |vs| == 0 then Invalid
    else if vs[0] == Match then Valid
    else if vs[0] == Bare then Raised
    else Scan(vs[1..])
  }

  /** Token `i` is a match and no bare "v1" comes before it. */
  predicate MatchFirst(vs: seq<TokenVerdict>, i: int) {
    0 <= i < |vs| && vs[i] == Match && forall j :: 0 <= j < i ==> vs[j] != Bare
  }

  /** Token `i` is a bare "v1" and no match comes before it. */
  predicate BareFirst(vs: seq<TokenVerdict>, i: int) {
    0 <= i < |vs| && vs[i] == Bare && forall j :: 0 <= j < i ==> vs[j] != Match
  }

  lemma ShiftFirst(vs: seq<TokenVerdict>, i: int)
    requires |vs| > 0 && vs[0] != Match && vs[0] != Bare
    ensures MatchFirst(vs, i + 1) <==> MatchFirst(vs[1..], i)
    ensures BareFirst(vs, i + 1) <==> BareFirst(vs[1..], i)
  {
    assert forall j :: 0 <= j < |vs| - 1 ==> vs[1..][j] == vs[j + 1];
    if MatchFirst(vs[1..], i) {
      forall j | 0 <= j < i + 1 ensures vs[j] != Bare {
        if j > 0 { assert vs[j] == vs[1..][j - 1]; }
      }
    }
    if BareFirst(vs[1..], i) {
      forall j | 0 <= j < i + 1 ensures vs[j] != Match {
        if j > 0 { assert vs[j] == vs[1..][j - 1]; }
      }
    }
  }

  /** The loop accepts iff some token matches before any bare "v1", and
      throws iff a bare "v1" comes before any match. */
  lemma {:induction false} ScanSpec(vs: seq<TokenVerdict>)
    ensures Scan(vs) == Valid <==> exists i :: MatchFirst(vs, i)
    ensures Scan(vs) == Raised <==> exists i :: BareFirst(vs, i)
    decreases |vs|
  {
    if |vs| > 0 {
      if vs[0] == Match {
        assert MatchFirst(vs, 0);
        assert forall i :: !BareFirst(vs, i) by {
          forall i ensures !BareFirst(vs, i) { if 0 < i < |vs| { assert vs[0] == Match; } }
        }
      } else if vs[0] == Bare {
        assert BareFirst(vs, 0);
        assert forall i :: !MatchFirst(vs, i) by {
          forall i ensures !MatchFirst(vs, i) { if 0 < i < |vs| { assert vs[0] == Bare; } }
        }
      } else {
        ScanSpec(vs[1..]);
        assert !MatchFirst(vs, 0) && !BareFirst(vs, 0);
        if exists i :: MatchFirst(vs, i) {
          var i :| MatchFirst(vs, i);
          ShiftFirst(vs, i - 1);
        }
        if exists i :: MatchFirst(vs[1..], i) {
          var i :| MatchFirst(vs[1..], i);
          ShiftFirst(vs, i);
        }
        if exists i :: BareFirst(vs, i) {
          var i :| BareFirst(vs, i);
          ShiftFirst(vs, i - 1);
        }
        if exists i :: BareFirst(vs[1..], i) {
          var i :| BareFirst(vs[1..], i);
          ShiftFirst(vs, i);
        }
      }
    }
  }

  /** `headers.get(name)` read through `!value`. */
  function Present(headers: map<string, string>, name: string): Option<string> {
    if name in headers && headers[name] != "" then Some(headers[name]) else None
  }

  /** The base64 HMAC-SHA256 over "id.timestamp.body", keyed with the
      base64-decoded secret after its prefix is stripped. */
  function ExpectedDigest(id: string, timestamp: string, body: string, secret: string, c: Primitives): string {
    var key := c.base64Decode(StripSecretPrefix(secret));
    c.base64Encode(c.hmacSha256(key, c.utf8Encode(id + "." + timestamp + "." + body)))
  }

  /** The verdict of every token, in header order. */
  function Verdicts(tokens: seq<string>, computed: string, c: Primitives): (vs: seq<TokenVerdict>)
    ensures |vs| == |tokens|
    ensures forall i :: 0 <= i < |tokens| ==> vs[i] == ReadToken(tokens[i], computed, c)
  {
    seq(|tokens|, i requires 0 <= i < |tokens| => ReadToken(tokens[i], computed, c))
  }

  /** `verifyWebhookSignature(body, headers, secret)`; `Raised` when it
      throws instead of returning. */
  function VerifySignature(body: string, headers: map<string, string>, secret: string, c: Primitives): (r: SigCheck)
    ensures (Present(headers, "webhook-id").None? || Present(headers, "webhook-timestamp").None?
             || Present(headers, "webhook-signature").None?) ==> r == Invalid
  {
    var id := Present(headers, "webhook-id");
    var timestamp := Present(headers, "webhook-timestamp");
    var signature := Present(headers, "webhook-signature");
    if id.None? || timestamp.None? || signature.None? then Invalid
    else
      var computed := ExpectedDigest(id.value, timestamp.value, body, secret, c);
      Scan(Verdicts(Split(signature.value, ' '), computed, c))
  }

  /** With all three headers present, the signature is valid iff some
      space-separated token is "v1,<digest>" whose UTF-8 bytes equal the
      computed digest's, and no bare "v1" token precedes it. */
  lemma VerifyValidIff(body: string, headers: map<string, string>, secret: string, c: Primitives)
    requires Present(headers, "webhook-id").Some? && Present(headers, "webhook-timestamp").Some?
    requires Present(headers, "webhook-signature").Some?
    ensures var computed := ExpectedDigest(headers["webhook-id"], headers["webhook-timestamp"], body, secret, c);
            var tokens := Split(headers["webhook-signature"], ' ');
            VerifySignature(body, headers, secret, c) == Valid <==>
              exists i :: MatchFirst(Verdicts(tokens, computed, c), i)
    ensures var computed := ExpectedDigest(headers["webhook-id"], headers["webhook-timestamp"], body, secret, c);
            var tokens := Split(headers["webhook-signature"], ' ');
            VerifySignature(body, headers, secret, c) == Raised <==>
              exists i :: BareFirst(Verdicts(tokens, computed, c), i)
  {
    var computed := ExpectedDigest(headers["webhook-id"], headers["webhook-timestamp"], body, secret, c);
    var tokens := Split(headers["webhook-signature"], ' ');
    ScanSpec(Verdicts(tokens, computed, c));
  }

  // ---------------------------------------------------------------------------
  // User id

  const USER_ID_KEY: string := "supabase_user_id"

  /** `extractUserId(event)`: `data.metadata.supabase_user_id`, else
      `data.customer.metadata.supabase_user_id`, else nothing; only truthy
      values are taken. */
  function ExtractUserId(event: Json): (r: Option<Json>)
    requires event != JNull
    ensures r.Some? ==> Truthy(r)
    ensures !Truthy(OptProp(Some(event), "data")) ==> r.None?
    ensures var data := OptProp(Some(event), "data");
            Truthy(data) && Truthy(OptProp(OptProp(data, "metadata"), USER_ID_KEY)) ==>
              r == OptProp(OptProp(data, "metadata"), USER_ID_KEY)
    ensures var data := OptProp(Some(event), "data");
            Truthy(data) && !Truthy(OptProp(OptProp(data, "metadata"), USER_ID_KEY)) ==>
              r == (var id := OptProp(OptProp(OptProp(data, "customer"), "metadata"), USER_ID_KEY);
                    if Truthy(id) then id else None)
  {
    var data := OptProp(Some(event), "data");
    if !Truthy(data) then None
    else
      var fromData := OptProp(OptProp(data, "metadata"), USER_ID_KEY);
      if Truthy(fromData) then fromData
      else
        var fromCustomer := OptProp(OptProp(OptProp(data, "customer"), "metadata"), USER_ID_KEY);
        if Truthy(fromCustomer) then fromCustomer else None
  }

  // ---------------------------------------------------------------------------
  // Event router

  const CHECKOUT_UPDATED: string := "checkout.updated"
  const ORDER_CREATED: string := "order.created"
  const SUBSCRIPTION_ACTIVE: string := "subscription.active"
  const SUBSCRIPTION_CANCELED: string := "subscription.canceled"
  const SUBSCRIPTION_REVOKED: string := "subscription.revoked"
  const ORDER_REFUNDED: string := "order.refunded"
  const SUCCEEDED: string := "succeeded"

  /** `event.type` of a parsed, non-null event. */
  function EventType(event: Json): Option<Json> {
    OptProp(Some(event), "type")
  }

  predicate IsType(event: Json, name: string) {
    EventType(event) == Some(JStr(name))
  }

  /** The update a promotion writes: plan "pro", trial off, and the
      subscription id only when one is given. */
  function PromotionPatch(subscriptionId: Option<string>): Patch {
    PlanPatch(PLAN_PRO, Some(false)).(polarSubscriptionId :=
      if subscriptionId.Some? then Some(subscriptionId) else None)
  }

  /** `ensureMemberExists(userId)` followed by the promoting update (writes
      0 and 1 of the request). */
  function Promote(s: Store, userId: Json, subscriptionId: Option<Json>, faults: WriteFaults): Store {
    match DbText(userId)
    case None => s
    case Some(id) =>
      var s1 := Commit(s, InsertIfAbsent(s, id, NewMemberPatch(PLAN_FREE)), faults(0));
      if !Truthy(subscriptionId) then Commit(s1, UpdateById(s1, id, PromotionPatch(None)), faults(1))
      else match DbText(subscriptionId.value)
        case None => s1
        case Some(sub) => Commit(s1, UpdateById(s1, id, PromotionPatch(Some(sub))), faults(1))
  }

  /** checkout.updated and order.created: a paid checkout or an order
      for a user id promotes that user with `data.subscription_id`. */
  function RouteCheckout(event: Json, s: Store, faults: WriteFaults): Store
    requires event != JNull
  {
    match ExtractUserId(event)
    case None => s
    case Some(userId) =>
      var data := OptProp(Some(event), "data");
      if IsType(event, CHECKOUT_UPDATED) && OptProp(data, "status") != Some(JStr(SUCCEEDED)) then s
      else Promote(s, userId, OptProp(data, "subscription_id"), faults)
  }

  /** subscription.active: the user is promoted with `data.id`. */
  function RouteActive(event: Json, s: Store, faults: WriteFaults): Store
    requires event != JNull
  {
    match ExtractUserId(event)
    case None => s
    case Some(userId) => Promote(s, userId, OptProp(OptProp(Some(event), "data"), "id"), faults)
  }

  /** The update a cancellation writes on the rows holding the subscription. */
  const CANCEL_PATCH: Patch := PlanPatch(PLAN_FREE, None).(polarSubscriptionId := Some(None))

  /** subscription.canceled and subscription.revoked: every row holding
      `data.id` goes back to "free"; reading `id` of missing data throws. */
  function RouteCancel(event: Json, s: Store, faults: WriteFaults): Option<Store>
    requires event != JNull
  {
    match Prop(OptProp(Some(event), "data"), "id")
    case Threw => None
    case Got(subscriptionId) =>
      if !Truthy(subscriptionId) then Some(s)
      else match DbText(subscriptionId.value)
        case None => Some(s)
        case Some(sub) => Some(Commit(s, UpdateWhere(s, PolarSubscription, sub, CANCEL_PATCH), faults(0)))
  }

  /** order.refunded: the user's row goes back to "free". */
  function RouteRefund(event: Json, s: Store, faults: WriteFaults): Store
    requires event != JNull
  {
    match ExtractUserId(event)
    case None => s
    case Some(userId) =>
      match DbText(userId)
      case None => s
      case Some(id) => Commit(s, UpdateById(s, id, PlanPatch(PLAN_FREE, None)), faults(0))
  }

  /** The store after the handler's routing of a verified, parsed, non-null
      event; `None` when the handler throws. */
  function Route(event: Json, s: Store, faults: WriteFaults): Option<Store>
    requires event != JNull
  {
    if IsType(event, CHECKOUT_UPDATED) || IsType(event, ORDER_CREATED) then Some(RouteCheckout(event, s, faults))
    else if IsType(event, SUBSCRIPTION_ACTIVE) then Some(RouteActive(event, s, faults))
    else if IsType(event, SUBSCRIPTION_CANCELED) || IsType(event, SUBSCRIPTION_REVOKED) then RouteCancel(event, s, faults)
    else if IsType(event, ORDER_REFUNDED) then Some(RouteRefund(event, s, faults))
    else Some(s)
  }

  datatype Outcome = Outcome(response: Response, store: Store)

  /** The request handler of polar-webhook/index.ts. */
  function Handle(req: Request, rt: Runtime, c: Primitives, s: Store, faults: WriteFaults): (o: Outcome)
    ensures req.httpMethod != "POST" ==> o == Outcome(ErrorResponse("Method not allowed", 405), s)
    ensures req.httpMethod == "POST" && EnvValue(rt, "POLAR_WEBHOOK_SECRET").None? ==>
              o == Outcome(ErrorResponse("Webhook secret not configured", 500), s)
    ensures req.httpMethod == "POST" && EnvValue(rt, "POLAR_WEBHOOK_SECRET").Some?
            && VerifySignature(req.body, req.headers, EnvValue(rt, "POLAR_WEBHOOK_SECRET").value, c) == Invalid ==>
              o == Outcome(ErrorResponse("Invalid signature", 401), s)
    ensures o.response.Reply? && o.response.status != 200 ==> o.store == s
    ensures o.response.Reply? ==> o.response.status in {200, 401, 405, 500}
    ensures o.response.Crashed? ==> o.store == s
  {
    if req.httpMethod != "POST" then Outcome(ErrorResponse("Method not allowed", 405), s)
    else match EnvValue(rt, "POLAR_WEBHOOK_SECRET")
    case None => Outcome(ErrorResponse("Webhook secret not configured", 500), s)
    case Some(secret) =>
      match VerifySignature(req.body, req.headers, secret, c)
      case Raised => Outcome(Crashed, s)
      case Invalid => Outcome(ErrorResponse("Invalid signature", 401), s)
      case Valid =>
        match rt.parseJson(req.body)
        case None => Outcome(Crashed, s)
        case Some(event) =>
          if event == JNull then Outcome(Crashed, s)
          else match Route(event, s, faults)
            case None => Outcome(Crashed, s)
            case Some(s') => Outcome(JsonResponse(RECEIVED), s')
  }

  // ---------------------------------------------------------------------------
  // Properties of the router

  /** Write errors never surface: the response does not depend on which
      writes the database refused. */
  lemma ResponseIgnoresFaults(req: Request, rt: Runtime, c: Primitives, s: Store, f1: WriteFaults, f2: WriteFaults)
    ensures Handle(req, rt, c, s, f1).response == Handle(req, rt, c, s, f2).response
  {
    if rt.parseJson(req.body).Some? && rt.parseJson(req.body).value != JNull {
      RouteThrowsExactly(rt.parseJson(req.body).value, s, f1);
      RouteThrowsExactly(rt.parseJson(req.body).value, s, f2);
    }
  }

  /** The router throws exactly on a cancellation or revocation whose
      `data` is missing or null, whatever the database does. */
  lemma RouteThrowsExactly(event: Json, s: Store, faults: WriteFaults)
    requires event != JNull
    ensures Route(event, s, faults).None? <==>
              (IsType(event, SUBSCRIPTION_CANCELED) || IsType(event, SUBSCRIPTION_REVOKED))
              && Prop(OptProp(Some(event), "data"), "id").Threw?
  {
  }

  /** Every verified request whose body parses to a non-null event ends
      in 200 {received: true}, except a cancellation without `data`,
      which throws. */
  lemma VerifiedIsReceived(req: Request, rt: Runtime, c: Primitives, s: Store, faults: WriteFaults)
    requires req.httpMethod == "POST" && EnvValue(rt, "POLAR_WEBHOOK_SECRET").Some?
    requires VerifySignature(req.body, req.headers, EnvValue(rt, "POLAR_WEBHOOK_SECRET").value, c) == Valid
    requires rt.parseJson(req.body).Some? && rt.parseJson(req.body).value != JNull
    ensures var event := rt.parseJson(req.body).value;
            Handle(req, rt, c, s, faults).response == JsonResponse(RECEIVED) <==>
              !((IsType(event, SUBSCRIPTION_CANCELED) || IsType(event, SUBSCRIPTION_REVOKED))
                && Prop(OptProp(Some(event), "data"), "id").Threw?)
  {
    RouteThrowsExactly(rt.parseJson(req.body).value, s, faults);
  }

  /** What a successful promotion leaves behind: the user's row exists with
      plan "pro" and trial off, its Polar subscription id replaced only when
      one was given and every other column as it was; a newly created row
      is a fresh "user" row with zero usage; no other row changes. */
  ghost predicate Promoted(s: Store, r: Store, id: string, sub: Option<string>) {
    && id in r && r[id].plan == PLAN_PRO && !r[id].isOnTrial
    && r[id].polarSubscriptionId == (if sub.Some? then sub else if id in s then s[id].polarSubscriptionId else None)
    && (id in s ==> r[id] == s[id].(plan := PLAN_PRO, isOnTrial := false,
                                    polarSubscriptionId := if sub.Some? then sub else s[id].polarSubscriptionId))
    && (id !in s ==> r[id] == BlankRow(id).(plan := PLAN_PRO, polarSubscriptionId := sub) && ZeroUsage(r[id]))
    && (forall k :: k != id ==> (k in r <==> k in s))
    && (forall k | k in s && k != id :: r[k] == s[k])
  }

  lemma PromoteEffect(s: Store, id: string, subscriptionId: Option<Json>)
    requires !Truthy(subscriptionId) || subscriptionId.value.JStr?
    ensures Promoted(s, Promote(s, JStr(id), subscriptionId, NoFaults()), id,
                     if Truthy(subscriptionId) then Some(subscriptionId.value.s) else None)
  {
  }

  /** A checkout.updated with status "succeeded", an order.created (whose
      status is never looked at) or a subscription.active for a user id
      promotes that user; the subscription id comes from
      `data.subscription_id`, or `data.id` for subscription.active. */
  lemma PromotionEvents(event: Json, s: Store, id: string)
    requires event != JNull && ExtractUserId(event) == Some(JStr(id))
    requires IsType(event, ORDER_CREATED) || IsType(event, SUBSCRIPTION_ACTIVE)
             || (IsType(event, CHECKOUT_UPDATED) && OptProp(OptProp(Some(event), "data"), "status") == Some(JStr(SUCCEEDED)))
    ensures var data := OptProp(Some(event), "data");
            var subscriptionId := OptProp(data, if IsType(event, SUBSCRIPTION_ACTIVE) then "id" else "subscription_id");
            (!Truthy(subscriptionId) || subscriptionId.value.JStr?) ==>
              Route(event, s, NoFaults()).Some?
              && Promoted(s, Route(event, s, NoFaults()).value, id,
                          if Truthy(subscriptionId) then Some(subscriptionId.value.s) else None)
  {
    var data := OptProp(Some(event), "data");
    var subscriptionId := OptProp(data, if IsType(event, SUBSCRIPTION_ACTIVE) then "id" else "subscription_id");
    if !Truthy(subscriptionId) || subscriptionId.value.JStr? {
      PromoteEffect(s, id, subscriptionId);
    }
  }

  /** A checkout.updated whose status is not "succeeded", and a promotion
      event without a user id, leave the store as it is. */
  lemma UnpaidCheckoutIgnored(event: Json, s: Store, faults: WriteFaults)
    requires event != JNull
    requires (IsType(event, CHECKOUT_UPDATED) && OptProp(OptProp(Some(event), "data"), "status") != Some(JStr(SUCCEEDED)))
             || ((IsType(event, CHECKOUT_UPDATED) || IsType(event, ORDER_CREATED) || IsType(event, SUBSCRIPTION_ACTIVE))
                 && ExtractUserId(event).None?)
    ensures Route(event, s, faults) == Some(s)
  {
  }

  /** A cancellation or revocation with subscription id `sub` sets plan
      "free" and clears the Polar subscription id on exactly the rows that
      carried `sub`; there is no grace period and nothing else changes. */
  lemma CancellationEffect(event: Json, s: Store, sub: string)
    requires event != JNull && (IsType(event, SUBSCRIPTION_CANCELED) || IsType(event, SUBSCRIPTION_REVOKED))
    requires OptProp(OptProp(Some(event), "data"), "id") == Some(JStr(sub)) && sub != ""
    ensures var r := Route(event, s, NoFaults());
            r.Some? && r.value.Keys == s.Keys
            && (forall k | k in s && s[k].polarSubscriptionId == Some(sub) ::
                  r.value[k] == s[k].(plan := PLAN_FREE, polarSubscriptionId := None))
            && (forall k | k in s && s[k].polarSubscriptionId != Some(sub) :: r.value[k] == s[k])
  {
    assert Prop(OptProp(Some(event), "data"), "id") == Got(Some(JStr(sub)));
  }

  /** A refund sets plan "free" on the user's row (when it exists) and
      keeps its subscription id and everything else. */
  lemma RefundEffect(event: Json, s: Store, id: string)
    requires event != JNull && IsType(event, ORDER_REFUNDED) && ExtractUserId(event) == Some(JStr(id))
    ensures var r := Route(event, s, NoFaults());
            r.Some? && r.value.Keys == s.Keys
            && (id in s ==> r.value[id] == s[id].(plan := PLAN_FREE))
            && (forall k | k in s && k != id :: r.value[k] == s[k])
  {
  }

  /** An event type the router does not know changes nothing. */
  lemma OtherEventsChangeNothing(event: Json, s: Store, faults: WriteFaults)
    requires event != JNull
    requires !IsType(event, CHECKOUT_UPDATED) && !IsType(event, ORDER_CREATED) && !IsType(event, SUBSCRIPTION_ACTIVE)
    requires !IsType(event, SUBSCRIPTION_CANCELED) && !IsType(event, SUBSCRIPTION_REVOKED) && !IsType(event, ORDER_REFUNDED)
    ensures Route(event, s, faults) == Some(s)
  {
  }

  /** Delivering the same request twice, with every write accepted, leaves
      the store as one delivery does. */
  lemma ReplayIdempotent(req: Request, rt: Runtime, c: Primitives, s: Store)
    ensures var once := Handle(req, rt, c, s, NoFaults()).store;
            Handle(req, rt, c, once, NoFaults()).store == once
  {
    var once := Handle(req, rt, c, s, NoFaults()).store;
    if req.httpMethod == "POST" && EnvValue(rt, "POLAR_WEBHOOK_SECRET").Some?
       && VerifySignature(req.body, req.headers, EnvValue(rt, "POLAR_WEBHOOK_SECRET").value, c) == Valid
       && rt.parseJson(req.body).Some? && rt.parseJson(req.body).value != JNull {
      RouteIdempotent(rt.parseJson(req.body).value, s);
    }
  }

  lemma RouteIdempotent(event: Json, s: Store)
    requires event != JNull
    ensures Route(event, s, NoFaults()).Some? ==>
              Route(event, Route(event, s, NoFaults()).value, NoFaults()) == Route(event, s, NoFaults())
  {
    if IsType(event, CHECKOUT_UPDATED) || IsType(event, ORDER_CREATED) {
      var userId := ExtractUserId(event);
      if userId.Some? {
        PromoteIdempotent(s, userId.value, OptProp(OptProp(Some(event), "data"), "subscription_id"));
      }
    } else if IsType(event, SUBSCRIPTION_ACTIVE) {
      var userId := ExtractUserId(event);
      if userId.Some? {
        PromoteIdempotent(s, userId.value, OptProp(OptProp(Some(event), "data"), "id"));
      }
    } else if IsType(event, SUBSCRIPTION_CANCELED) || IsType(event, SUBSCRIPTION_REVOKED) {
      RouteCancelIdempotent(event, s);
    } else if IsType(event, ORDER_REFUNDED) {
      RouteRefundIdempotent(event, s);
    }
  }

  lemma RouteCancelIdempotent(event: Json, s: Store)
    requires event != JNull
    ensures RouteCancel(event, s, NoFaults()).Some? ==>
              RouteCancel(event, RouteCancel(event, s, NoFaults()).value, NoFaults()) == RouteCancel(event, s, NoFaults())
  {
    var sub := OptProp(OptProp(Some(event), "data"), "id");
    if Truthy(sub) && sub.value.JStr? {
      var once := UpdateWhere(s, PolarSubscription, sub.value.s, CANCEL_PATCH);
      assert UpdateWhere(once, PolarSubscription, sub.value.s, CANCEL_PATCH) == once;
    }
  }

  lemma RouteRefundIdempotent(event: Json, s: Store)
    requires event != JNull
    ensures RouteRefund(event, RouteRefund(event, s, NoFaults()), NoFaults()) == RouteRefund(event, s, NoFaults())
  {
    var userId := ExtractUserId(event);
    if userId.Some? && userId.value.JStr? {
      var once := UpdateById(s, userId.value.s, PlanPatch(PLAN_FREE, None));
      assert UpdateById(once, userId.value.s, PlanPatch(PLAN_FREE, None)) == once;
    }
  }

  /** With every write accepted, a promotion inserts the row when absent
      and then applies the promoting update. */
  lemma PromoteUnfaulted(s: Store, id: string, subscriptionId: Option<Json>)
    requires !Truthy(subscriptionId) || subscriptionId.value.JStr?
    ensures Promote(s, JStr(id), subscriptionId, NoFaults())
            == UpdateById(InsertIfAbsent(s, id, NewMemberPatch(PLAN_FREE)), id,
                          PromotionPatch(if Truthy(subscriptionId) then Some(subscriptionId.value.s) else None))
  {
  }

  lemma PromoteIdempotent(s: Store, userId: Json, subscriptionId: Option<Json>)
    ensures Promote(Promote(s, userId, subscriptionId, NoFaults()), userId, subscriptionId, NoFaults())
            == Promote(s, userId, subscriptionId, NoFaults())
  {
    if userId.JStr? && (!Truthy(subscriptionId) || subscriptionId.value.JStr?) {
      var id := userId.s;
      var p := PromotionPatch(if Truthy(subscriptionId) then Some(subscriptionId.value.s) else None);
      var s0 := InsertIfAbsent(s, id, NewMemberPatch(PLAN_FREE));
      var once := UpdateById(s0, id, p);
      PromoteUnfaulted(s, id, subscriptionId);
      PromoteUnfaulted(once, id, subscriptionId);
      assert InsertIfAbsent(once, id, NewMemberPatch(PLAN_FREE)) == once;
      assert UpdateById(once, id, p) == once by {
        ApplyIdempotent(s0[id], p);
      }
    }
  }
}

=== FILE: prices.dfy ===
/** The desktop app's price tables (apps/desktop/src/utils/price.utils.ts):
    the plans a pricing screen can show, the member plan each one buys, the
    Korean and US price tables with their lookups, and the nested price map
    built from a table. The price keys themselves come from the pricing
    package, which is not part of this model: they are a parameter where
    the list of plans is built. */
module Prices {
  import opened Common

  const PRO_MONTHLY: string := "pro_monthly"
  const PRO_YEARLY: string := "pro_yearly"

  /** `PRICING_PLANS`: the three plans without a price, then the price keys
      in their order. */
  function PricingPlans(priceKeys: seq<string>): (r: seq<string>)
    ensures |r| == 3 + |priceKeys|
    ensures r[0] == "community" && r[1] == "free" && r[2] == "enterprise"
    ensures forall i :: 0 <= i < |priceKeys| ==> r[3 + i] == priceKeys[i]
  {
    ["community", "free", "enterprise"] + priceKeys
  }

  /** `convertPricingPlanToMemberPlan`: the two pro price keys buy "pro";
      every other plan is "free". */
  function ToMemberPlan(plan: string): (r: string)
    ensures r == "pro" || r == "free"
    ensures r == "pro" <==> plan in {PRO_MONTHLY, PRO_YEARLY}
  {
    if plan == PRO_MONTHLY || plan == PRO_YEARLY then "pro" else "free"
  }

  /** One row of a price table. */
  datatype Price = Price(unitAmount: int, currency: string)

  /** `getKoreaPrices()` */
  const KOREA_PRICES: map<string, Price> :=
    map[PRO_MONTHLY := Price(9900, "KRW"), PRO_YEARLY := Price(99000, "KRW")]

  /** `getUSDPrices()` */
  const USD_PRICES: map<string, Price> :=
    map[PRO_MONTHLY := Price(5, "USD"), PRO_YEARLY := Price(50, "USD")]

  /** `unitAmountToKRW`: a missing amount (null or undefined) is 0, any
      other amount is kept. */
  function UnitAmountToKrw(unitAmount: Option<int>): (r: int)
    ensures unitAmount.None? ==> r == 0
    ensures unitAmount.Some? ==> r == unitAmount.value
  {
    match unitAmount
    case None => 0
    case Some(a) => a
  }

  /** The amount a table lists for `key`, absent when it lists none
      (`prices[key]?.unitAmount`). */
  function Amount(table: map<string, Price>, key: string): (r: Option<int>)
    ensures r.Some? <==> key in table
    ensures r.Some? ==> r.value == table[key].unitAmount
  {
    if key in table then Some(table[key].unitAmount) else None
  }

  /** `getKRWPriceFromKey` */
  function KrwPriceFromKey(key: string): (r: int)
    ensures key in KOREA_PRICES ==> r == KOREA_PRICES[key].unitAmount
    ensures key !in KOREA_PRICES ==> r == 0
  {
    UnitAmountToKrw(Amount(KOREA_PRICES, key))
  }

  /** `getDollarPriceFromKey` (`price?.unitAmount ?? 0`) */
  function DollarPriceFromKey(key: string): (r: int)
    ensures key in USD_PRICES ==> r == USD_PRICES[key].unitAmount
    ensures key !in USD_PRICES ==> r == 0
  {
    Amount(USD_PRICES, key).GetOr(0)
  }

  /** The shipped amounts: 9900 and 99000 won, 5 and 50 dollars, and 0
      for any other key. */
  lemma ShippedPrices(key: string)
    ensures KrwPriceFromKey(PRO_MONTHLY) == 9900 && KrwPriceFromKey(PRO_YEARLY) == 99000
    ensures DollarPriceFromKey(PRO_MONTHLY) == 5 && DollarPriceFromKey(PRO_YEARLY) == 50
    ensures key != PRO_MONTHLY && key != PRO_YEARLY ==> KrwPriceFromKey(key) == 0 && DollarPriceFromKey(key) == 0
  {
  }

  /** Every priced key buys the pro plan. */
  lemma PricedKeysBuyPro(key: string)
    ensures key in KOREA_PRICES || key in USD_PRICES ==> ToMemberPlan(key) == "pro"
  {
  }

  /** One entry of the nested price map. */
  datatype PriceValue = PriceValue(unitAmount: Option<int>, unitAmountDecimal: Option<string>, currency: string)

  type PriceMap = map<string, map<string, PriceValue>>

  /** The entry built from a table row: the amount, its decimal string
      (`unitAmount.toString()`) and the currency. */
  function ValueOf(p: Price): (r: PriceValue)
    ensures r.unitAmount == Some(p.unitAmount) && r.currency == p.currency
    ensures r.unitAmountDecimal.Some?
    ensures p.unitAmount >= 0 ==> r.unitAmountDecimal.value == NatToString(p.unitAmount)
  {
    PriceValue(Some(p.unitAmount), Some(IntToString(p.unitAmount)), p.currency)
  }

  /** The loop of `getPricesWithRuntimeCaching` (and of `loadPrices`):
      every key `k` of the table becomes `{k: {k: entry}}`. */
  function BuildPriceMap(table: map<string, Price>): (r: PriceMap)
    ensures r.Keys == table.Keys
    ensures forall k :: k in r ==> r[k].Keys == {k}
    ensures forall k :: k in r ==> r[k][k] == ValueOf(table[k])
  {
    map k | k in table :: map[k := ValueOf(table[k])]
  }

  /** `getPricesWithRuntimeCaching` */
  function PricesWithRuntimeCaching(): (r: PriceMap)
    ensures r.Keys == {PRO_MONTHLY, PRO_YEARLY}
    ensures forall k :: k in r ==> k in r[k] && r[k][k].currency == "KRW"
  {
    BuildPriceMap(KOREA_PRICES)
  }

  /** Reading a built map back gives the table's amount, both as a number
      and through its decimal string, for every non-negative amount. */
  lemma PriceMapReadsBack(table: map<string, Price>, key: string)
    requires key in table && table[key].unitAmount >= 0
    ensures key in BuildPriceMap(table) && key in BuildPriceMap(table)[key]
    ensures BuildPriceMap(table)[key][key].unitAmount == Amount(table, key)
    ensures DecimalValue(BuildPriceMap(table)[key][key].unitAmountDecimal.value) == table[key].unitAmount
  {
    DecimalRoundTrip(table[key].unitAmount);
  }

  /** The cached Korean map agrees with the won lookup. */
  lemma CachedPricesMatchKrwLookup(key: string)
    requires key in PricesWithRuntimeCaching()
    ensures PricesWithRuntimeCaching()[key][key].unitAmount == Some(KrwPriceFromKey(key))
    ensures PricesWithRuntimeCaching()[key][key].unitAmountDecimal == Some(NatToString(KrwPriceFromKey(key)))
  {
  }
}

=== FILE: pricing_actions.dfy ===
/** The desktop app's pricing actions (apps/desktop/src/actions/
    pricing.actions.ts): loading the US price map into the store and the
    upgrade dialog's state machine. Each action is a function from the
    store before to the store after. `setMode` of the login actions is not
    part of this model; its effect is the login mode it records. */
module PricingActions {
  import opened Common
  import opened Prices

  const VIEW_PLANS: string := "plans"
  const VIEW_LOGIN: string := "login"
  const MODE_SIGN_IN: string := "signIn"

  /** The pricing slice of the app state. */
  datatype Pricing = Pricing(
    initialized: bool,
    upgradePlanDialog: bool,
    upgradePlanDialogView: string,
    upgradePlanPendingPlan: Option<string>)

  /** The parts of the app state the actions read or write. */
  datatype State = State(
    signedIn: bool,
    pricing: Pricing,
    priceValueByKey: PriceMap,
    loginMode: string)

  /** `loadPrices` */
  function LoadPrices(st: State): (r: State)
    ensures r.pricing.initialized
    ensures r.priceValueByKey.Keys == USD_PRICES.Keys
    ensures forall k :: k in r.priceValueByKey ==> r.priceValueByKey[k].Keys == {k}
    ensures r.pricing.(initialized := st.pricing.initialized) == st.pricing
    ensures r.signedIn == st.signedIn && r.loginMode == st.loginMode
  {
    st.(pricing := st.pricing.(initialized := true), priceValueByKey := BuildPriceMap(USD_PRICES))
  }

  /** After loading, the stored map answers every key with the amount the
      dollar lookup gives, and with that amount's decimal string. */
  lemma LoadedPricesMatchDollarLookup(st: State, key: string)
    requires key in LoadPrices(st).priceValueByKey
    ensures key in LoadPrices(st).priceValueByKey[key]
    ensures LoadPrices(st).priceValueByKey[key][key].unitAmount == Some(DollarPriceFromKey(key))
    ensures LoadPrices(st).priceValueByKey[key][key].unitAmountDecimal == Some(NatToString(DollarPriceFromKey(key)))
    ensures LoadPrices(st).priceValueByKey[key][key].currency == "USD"
  {
  }

  /** `openUpgradePlanDialog` */
  function OpenDialog(st: State): (r: State)
    ensures r.pricing.upgradePlanDialog && r.pricing.upgradePlanDialogView == VIEW_PLANS
    ensures r.pricing.upgradePlanPendingPlan.None?
    ensures r.pricing.initialized == st.pricing.initialized
    ensures r.(pricing := st.pricing) == st
  {
    st.(pricing := st.pricing.(upgradePlanDialog := true, upgradePlanDialogView := VIEW_PLANS, upgradePlanPendingPlan := None))
  }

  /** `closeUpgradePlanDialog` */
  function CloseDialog(st: State): (r: State)
    ensures !r.pricing.upgradePlanDialog && r.pricing.upgradePlanDialogView == VIEW_PLANS
    ensures r.pricing.upgradePlanPendingPlan.None?
    ensures r.pricing.initialized == st.pricing.initialized
    ensures r.(pricing := st.pricing) == st
  {
    st.(pricing := st.pricing.(upgradePlanDialog := false, upgradePlanDialogView := VIEW_PLANS, upgradePlanPendingPlan := None))
  }

  /** `showUpgradePlanList`: back to the plan list; open or closed stays
      as it was. */
  function ShowPlanList(st: State): (r: State)
    ensures r.pricing.upgradePlanDialogView == VIEW_PLANS && r.pricing.upgradePlanPendingPlan.None?
    ensures r.pricing.upgradePlanDialog == st.pricing.upgradePlanDialog
    ensures r.pricing.initialized == st.pricing.initialized
    ensures r.(pricing := st.pricing) == st
  {
    st.(pricing := st.pricing.(upgradePlanDialogView := VIEW_PLANS, upgradePlanPendingPlan := None))
  }

  /** `selectUpgradePlan`: the plan is always remembered; without a
      signed-in user the dialog turns to the login view and the login mode
      becomes "signIn". */
  function SelectPlan(st: State, plan: string): (r: State)
    ensures r.pricing.upgradePlanPendingPlan == Some(plan)
    ensures r.pricing.upgradePlanDialog == st.pricing.upgradePlanDialog
    ensures r.pricing.initialized == st.pricing.initialized
    ensures !st.signedIn ==> r.pricing.upgradePlanDialogView == VIEW_LOGIN && r.loginMode == MODE_SIGN_IN
    ensures st.signedIn ==> r.pricing.upgradePlanDialogView == st.pricing.upgradePlanDialogView && r.loginMode == st.loginMode
    ensures r.signedIn == st.signedIn && r.priceValueByKey == st.priceValueByKey
  {
    if !st.signedIn then
      st.(pricing := st.pricing.(upgradePlanDialogView := VIEW_LOGIN, upgradePlanPendingPlan := Some(plan)),
          loginMode := MODE_SIGN_IN)
    else
      st.(pricing := st.pricing.(upgradePlanPendingPlan := Some(plan)))
  }

  /** The dialog never shows the login view without a plan waiting to be
      bought. */
  predicate LoginHasPendingPlan(st: State) {
    st.pricing.upgradePlanDialogView == VIEW_LOGIN ==> st.pricing.upgradePlanPendingPlan.Some?
  }

  /** Every action keeps `LoginHasPendingPlan`. */
  lemma ActionsKeepLoginHasPendingPlan(st: State, plan: string)
    requires LoginHasPendingPlan(st)
    ensures LoginHasPendingPlan(LoadPrices(st))
    ensures LoginHasPendingPlan(OpenDialog(st)) && LoginHasPendingPlan(CloseDialog(st))
    ensures LoginHasPendingPlan(ShowPlanList(st)) && LoginHasPendingPlan(SelectPlan(st, plan))
  {
  }

  /** Opening, closing and returning to the list are idempotent, closing
      undoes opening as far as the dialog is concerned, and choosing a plan
      then going back to the list leaves no plan pending. */
  lemma DialogTransitions(st: State, plan: string)
    ensures OpenDialog(OpenDialog(st)) == OpenDialog(st)
    ensures CloseDialog(CloseDialog(st)) == CloseDialog(st)
    ensures ShowPlanList(ShowPlanList(st)) == ShowPlanList(st)
    ensures CloseDialog(OpenDialog(st)) == CloseDialog(st)
    ensures ShowPlanList(SelectPlan(st, plan)).pricing.upgradePlanPendingPlan.None?
    ensures ShowPlanList(SelectPlan(st, plan)).pricing.upgradePlanDialog == st.pricing.upgradePlanDialog
  {
  }
}

=== FILE: pricing_section.dfy ===
/** The web pricing section (apps/web/src/components/pricing-section/
    index.tsx): the monthly/yearly toggle, the price a card shows, the
    yearly total, and the price text and billing note derived from them,
    over the three shipped plans. Texts are the messages' default
    (English) wording. */
module PricingSection {
  import opened Common

  /** A card's pricing data; absent flags are false. */
  datatype Plan = Plan(
    name: string,
    monthlyPrice: Option<int>,
    yearlyPrice: Option<int>,
    popular: bool,
    isEnterprise: bool,
    isLifetime: bool)

  const PERSONAL: Plan := Plan("Personal", Some(0), None, false, false, true)
  const PRO: Plan := Plan("Pro", Some(5), Some(5), true, false, false)
  const ENTERPRISE: Plan := Plan("Enterprise", None, None, false, true, false)

  /** `usePricingPlans()`, in display order. */
  const PRICING_PLANS: seq<Plan> := [PERSONAL, PRO, ENTERPRISE]

  /** `useState(true)`: the toggle starts on yearly. */
  const INITIAL_YEARLY: bool := true

  /** The toggle's click handler. */
  function Toggle(isYearly: bool): (r: bool)
    ensures r != isYearly
  {
    !isYearly
  }

  /** `getPrice`: none for enterprise, the monthly price for a lifetime
      plan, otherwise the price of the selected period. */
  function PlanPrice(plan: Plan, isYearly: bool): (r: Option<int>)
    ensures plan.isEnterprise ==> r.None?
    ensures !plan.isEnterprise && plan.isLifetime ==> r == plan.monthlyPrice
    ensures !plan.isEnterprise && !plan.isLifetime ==> r == (if isYearly then plan.yearlyPrice else plan.monthlyPrice)
  {
    if plan.isEnterprise then None
    else if plan.isLifetime then plan.monthlyPrice
    else if isYearly then plan.yearlyPrice else plan.monthlyPrice
  }

  /** `getYearlyTotal`: none when the yearly price is missing or 0 (both
      falsy), otherwise twelve times it. */
  function YearlyTotal(plan: Plan): (r: Option<int>)
    ensures r.Some? <==> plan.yearlyPrice.Some? && plan.yearlyPrice.value != 0
    ensures r.Some? ==> r.value == 12 * plan.yearlyPrice.value
  {
    match plan.yearlyPrice
    case None => None
    case Some(p) => if p == 0 then None else Some(p * 12)
  }

  /** The note under a price. */
  datatype Note = NoCardRequired | BilledMonthly | BilledAnnually | BilledAnnuallyTotal(total: int)

  /** What the price container shows. */
  datatype Display = Custom(note: Note) | Free(note: Note) | PerMonth(amount: int, note: Note)

  /** The price container's three-way choice and its billing note. */
  function PriceDisplay(plan: Plan, isYearly: bool): (r: Display)
    ensures r.Custom? <==> PlanPrice(plan, isYearly).None?
    ensures r.Free? <==> PlanPrice(plan, isYearly) == Some(0)
    ensures r.PerMonth? ==> Some(r.amount) == PlanPrice(plan, isYearly)
    ensures r.Custom? ==> r.note == (if isYearly then BilledAnnually else BilledMonthly)
    ensures r.Free? ==> r.note == NoCardRequired
    ensures r.PerMonth? ==> (r.note.BilledAnnuallyTotal? <==> isYearly && plan.yearlyPrice.Some? && plan.yearlyPrice.value > 0)
    ensures r.PerMonth? && r.note.BilledAnnuallyTotal? ==> Some(r.note.total) == YearlyTotal(plan)
    ensures r.PerMonth? && !r.note.BilledAnnuallyTotal? ==> r.note == BilledMonthly
  {
    match PlanPrice(plan, isYearly)
    case None => Custom(if isYearly then BilledAnnually else BilledMonthly)
    case Some(p) =>
      if p == 0 then Free(NoCardRequired)
      else
        var note := if isYearly && plan.yearlyPrice.Some? && plan.yearlyPrice.value > 0
          then BilledAnnuallyTotal(YearlyTotal(plan).value) else BilledMonthly;
        PerMonth(p, note)
  }

  /** The text of a display: the price line and the note. */
  function PriceText(d: Display): (r: string)
  {
    match d
    case Custom(_) => "Custom"
    case Free(_) => "Free"
    case PerMonth(p, _) => "$" + IntToString(p) + " / month"
  }

  function NoteText(n: Note): string {
    match n
    case NoCardRequired => "No credit card required"
    case BilledMonthly => "Billed monthly"
    case BilledAnnually => "Billed annually"
    case BilledAnnuallyTotal(total) => "Billed annually ($" + IntToString(total) + "/year)"
  }

  /** Toggling twice restores the period, and neither enterprise nor
      lifetime prices depend on it. */
  lemma ToggleAffectsOnlyPeriodPrices(plan: Plan, isYearly: bool)
    ensures Toggle(Toggle(isYearly)) == isYearly
    ensures plan.isEnterprise || plan.isLifetime
      ==> PlanPrice(plan, isYearly) == PlanPrice(plan, Toggle(isYearly))
  {
  }

  /** The shipped cards: Personal is free in both periods, Pro is five
      dollars a month in both (sixty a year when billed yearly), and
      Enterprise is custom. */
  lemma ShippedCards(isYearly: bool)
    ensures PriceText(PriceDisplay(PERSONAL, isYearly)) == "Free"
    ensures PriceText(PriceDisplay(PRO, isYearly)) == "$5 / month"
    ensures PriceDisplay(PRO, true).note == BilledAnnuallyTotal(60)
    ensures NoteText(PriceDisplay(PRO, true).note) == "Billed annually ($60/year)"
    ensures PriceDisplay(PRO, false).note == BilledMonthly
    ensures PriceText(PriceDisplay(ENTERPRISE, isYearly)) == "Custom"
    ensures PRICING_PLANS[0] == PERSONAL && PRICING_PLANS[1] == PRO && PRICING_PLANS[2] == ENTERPRISE
  {
    ShippedDecimals();
    var monthly, yearly := PriceDisplay(PRO, false), PriceDisplay(PRO, true);
    assert PriceText(monthly) == "$" + IntToString(5) + " / month";
    assert PriceText(yearly) == "$" + IntToString(5) + " / month";
  }

  lemma ShippedDecimals()
    ensures IntToString(5) == "5" && IntToString(60) == "60"
  {
    assert NatToString(6) == "6";
    assert NatToString(60) == NatToString(6) + ['0'];
  }

  /** A per-month price is shown with its decimal amount. */
  lemma PerMonthTextShowsAmount(plan: Plan, isYearly: bool)
    requires PriceDisplay(plan, isYearly).PerMonth?
    requires PriceDisplay(plan, isYearly).amount >= 0
    ensures PriceText(PriceDisplay(plan, isYearly)) == "$" + NatToString(PlanPrice(plan, isYearly).value) + " / month"
  {
  }
}

=== FILE: profiles.dfy ===
/** The `profiles` table behind user-set/index.ts (a whitelisted upsert of
    camelCase fields into snake_case columns) and user-get/index.ts (the
    row projected back to camelCase, with defaults for optional fields).
    The table's schema is not part of this model: a row is the set of
    columns it holds. */
module Profiles {
  import opened Common
  import opened JsonValues
  import opened Http
  import opened Members

  /** A profile row by column name. */
  type Row = map<string, Json>

  /** The table, keyed by the `id` column. */
  type ProfileStore = map<string, Row>

  /** user-set's `camelToSnake`: the sixteen writable fields. */
  const WHITELIST: seq<(string, string)> := [
    ("name", "name"), ("bio", "bio"), ("company", "company"), ("title", "title"),
    ("onboarded", "onboarded"), ("onboardedAt", "onboarded_at"), ("timezone", "timezone"),
    ("preferredLanguage", "preferred_language"), ("preferredMicrophone", "preferred_microphone"),
    ("playInteractionChime", "play_interaction_chime"), ("hasFinishedTutorial", "has_finished_tutorial"),
    ("wordsThisMonth", "words_this_month"), ("wordsThisMonthMonth", "words_this_month_month"),
    ("wordsTotal", "words_total"), ("cohort", "cohort"),
    ("shouldShowUpgradeDialog", "should_show_upgrade_dialog")]

  /** No two fields share a name or a column, and neither side names the
      `id` column, so a client cannot overwrite the row's id. */
  lemma WhitelistInjective()
    ensures forall i, j | 0 <= i < j < |WHITELIST| :: WHITELIST[i].0 != WHITELIST[j].0
    ensures forall i, j | 0 <= i < j < |WHITELIST| :: WHITELIST[i].1 != WHITELIST[j].1
    ensures forall i | 0 <= i < |WHITELIST| :: WHITELIST[i].0 != "id" && WHITELIST[i].1 != "id"
  {
  }

  /** The entries `Object.entries(value)` yields: an object's fields. An
      array's entries are its indices, none of which the whitelist names,
      so they are left out here. */
  function Entries(value: Json): map<string, Json> {
    if value.JObj? then value.fields else map[]
  }

  predicate DistinctColumns(w: seq<(string, string)>) {
    forall i, j | 0 <= i < j < |w| :: w[i].1 != w[j].1
  }

  /** The columns a (field, column) list writes from `entries`: the loop
      over `Object.entries(value)`, which keeps an entry only when the
      list names its key. */
  function Whitelisted(entries: map<string, Json>, w: seq<(string, string)>): Row
    decreases |w|
  {
    if |w| == 0 then map[]
    else
      var r := Whitelisted(entries, w[..|w| - 1]);
      var (key, col) := w[|w| - 1];
      if key in entries then r[col := entries[key]] else r
  }

  /** Field `i` is written to its column exactly when the value carries
      it, and with its value unchanged; no other column is written. */
  lemma {:induction false} WhitelistedSpec(entries: map<string, Json>, w: seq<(string, string)>)
    requires DistinctColumns(w)
    ensures forall i | 0 <= i < |w| ::
              (w[i].1 in Whitelisted(entries, w) <==> w[i].0 in entries)
              && (w[i].1 in Whitelisted(entries, w) ==> Whitelisted(entries, w)[w[i].1] == entries[w[i].0])
    ensures forall col | col in Whitelisted(entries, w) :: exists i | 0 <= i < |w| :: w[i].1 == col
    decreases |w|
  {
    if |w| > 0 {
      var front := w[..|w| - 1];
      assert DistinctColumns(front);
      WhitelistedSpec(entries, front);
      var r := Whitelisted(entries, front);
      forall i | 0 <= i < |w| - 1
        ensures w[i].1 != w[|w| - 1].1 && front[i] == w[i]
      {
      }
      forall col | col in Whitelisted(entries, w)
        ensures exists i | 0 <= i < |w| :: w[i].1 == col
      {
        if col != w[|w| - 1].1 {
          assert col in r;
          var i :| 0 <= i < |front| && front[i].1 == col;
          assert w[i].1 == col;
        }
      }
    }
  }

  /** Some key of `value` names a method `camelToSnake` inherits: the loop
      then writes a column named after that method's source, which the
      table does not have. */
  predicate InheritedKey(value: Json) {
    Entries(value).Keys * INHERITED.Keys != {}
  }

  /** No column an inherited method turns into is one the whitelist
      writes or the `id` column. */
  lemma InheritedColumnsUnknown(k: string)
    requires k in INHERITED
    ensures NativeSource(INHERITED[k]) != "id"
    ensures forall i | 0 <= i < |WHITELIST| :: WHITELIST[i].1 != NativeSource(INHERITED[k])
  {
    assert |NativeSource(INHERITED[k])| >= 29;
  }

  /** The columns user-set writes from `value`, besides `id`, when no key
      of `value` names an inherited method. */
  function Columns(value: Json): Row {
    Whitelisted(Entries(value), WHITELIST)
  }

  /** `{ id: user.id, ...columns }` */
  function DbFields(id: string, value: Json): (r: Row)
    ensures "id" in r && r["id"] == JStr(id)
    ensures forall col | col in r && col != "id" :: col in Columns(value) && r[col] == Columns(value)[col]
    ensures forall col | col in Columns(value) :: col in r
    ensures "id" !in Columns(value)
  {
    WhitelistInjective();
    WhitelistedSpec(Entries(value), WHITELIST);
    Columns(value)["id" := JStr(id)]
  }

  /** `upsert(fields, { onConflict: "id" })`: the given columns overwrite
      the row's, which keeps every other column. */
  function UpsertProfile(s: ProfileStore, id: string, fields: Row): (r: ProfileStore)
    ensures id in r && r[id].Keys == (if id in s then s[id].Keys else {}) + fields.Keys
    ensures forall col | col in fields :: r[id][col] == fields[col]
    ensures id in s ==> forall col | col in s[id] && col !in fields :: r[id][col] == s[id][col]
    ensures forall k | k != id :: (k in r <==> k in s) && (k in s ==> r[k] == s[k])
  {
    var before := if id in s then s[id] else map[];
    s[id := before + fields]
  }

  datatype SetOutcome = SetOutcome(response: Response, store: ProfileStore)

  /** user-set: `value` must be a truthy object (400 otherwise); only its
      whitelisted fields reach the table, in the caller's own row. A key
      naming an inherited method makes the upsert name a column the table
      lacks, which the database refuses with `schemaError`; `fault` is its
      refusal of a well-formed write. */
  function Set(req: Request, rt: Runtime, s: ProfileStore, schemaError: string, fault: Option<string>): (o: SetOutcome)
    ensures req.corsPreflight ==> o == SetOutcome(Preflight, s)
    ensures !req.corsPreflight && GetUser(req, rt).None? ==> o == SetOutcome(ErrorResponse("Unauthorized", 401), s)
    ensures o.store != s ==>
              && o.response == JsonResponse(EMPTY_OBJECT) && GetUser(req, rt).Some? && fault.None?
              && var value := OptProp(rt.parseJson(req.body), "value");
                 && value.Some? && (value.value.JObj? || value.value.JArr?) && !InheritedKey(value.value)
                 && o.store == UpsertProfile(s, GetUser(req, rt).value.id, DbFields(GetUser(req, rt).value.id, value.value))
    ensures (!req.corsPreflight && GetUser(req, rt).Some? && rt.parseJson(req.body).Some?
             && rt.parseJson(req.body).value != JNull) ==>
              var value := OptProp(rt.parseJson(req.body), "value");
              if !Truthy(value) || !(value.value.JObj? || value.value.JArr?) then
                o == SetOutcome(ErrorResponse("value is required"), s)
              else if InheritedKey(value.value) then o == SetOutcome(ErrorResponse(schemaError, 500), s)
              else if fault.Some? then o == SetOutcome(ErrorResponse(fault.value, 500), s)
              else o.response == JsonResponse(EMPTY_OBJECT)
  {
    if req.corsPreflight then SetOutcome(Preflight, s)
    else match GetUser(req, rt)
      case None => SetOutcome(ErrorResponse("Unauthorized", 401), s)
      case Some(user) =>
        match rt.parseJson(req.body)
        case None => SetOutcome(Crashed, s)
        case Some(body) =>
          match Prop(Some(body), "value")
          case Threw => SetOutcome(Crashed, s)
          case Got(value) =>
            // `typeof value !== "object"`: only objects and arrays pass
            if !Truthy(value) || !(value.value.JObj? || value.value.JArr?) then
              SetOutcome(ErrorResponse("value is required"), s)
            else if InheritedKey(value.value) then SetOutcome(ErrorResponse(schemaError, 500), s)
            else match fault
              case Some(message) => SetOutcome(ErrorResponse(message, 500), s)
              case None => SetOutcome(JsonResponse(EMPTY_OBJECT), UpsertProfile(s, user.id, DbFields(user.id, value.value)))
  }

  /** How user-get fills a field from its column. */
  datatype Default = Copied | OrNull | OrFalse

  /** user-get's projection: (camelCase key, column, default). */
  const PROFILE_FIELDS: seq<(string, string, Default)> := [
    ("id", "id", Copied), ("name", "name", Copied),
    ("bio", "bio", OrNull), ("company", "company", OrNull), ("title", "title", OrNull),
    ("onboarded", "onboarded", Copied), ("onboardedAt", "onboarded_at", OrNull),
    ("timezone", "timezone", OrNull), ("preferredLanguage", "preferred_language", OrNull),
    ("preferredMicrophone", "preferred_microphone", OrNull),
    ("playInteractionChime", "play_interaction_chime", Copied),
    ("hasFinishedTutorial", "has_finished_tutorial", Copied),
    ("wordsThisMonth", "words_this_month", Copied),
    ("wordsThisMonthMonth", "words_this_month_month", OrNull),
    ("wordsTotal", "words_total", Copied), ("cohort", "cohort", OrNull),
    ("shouldShowUpgradeDialog", "should_show_upgrade_dialog", OrFalse),
    ("createdAt", "created_at", Copied), ("updatedAt", "updated_at", Copied)]

  lemma ProfileKeysDistinct()
    ensures forall i, j | 0 <= i < j < |PROFILE_FIELDS| :: PROFILE_FIELDS[i].0 != PROFILE_FIELDS[j].0
  {
  }

  /** A field's value: the column copied (`undefined` when the row lacks
      it), or `data.col ?? null` / `data.col ?? false`. */
  function FieldValue(row: Row, col: string, default: Default): (r: Option<Json>)
    ensures default.Copied? ==> r == (if col in row then Some(row[col]) else None)
    ensures default.OrNull? ==> r == Some(if col in row && row[col] != JNull then row[col] else JNull)
    ensures default.OrFalse? ==> r == Some(if col in row && row[col] != JNull then row[col] else JBool(false))
  {
    var v := if col in row then Some(row[col]) else None;
    match default
    case Copied => v
    case OrNull => Some(Nullish(v, JNull))
    case OrFalse => Some(Nullish(v, JBool(false)))
  }

  /** The object literal built from `fields`, without the fields
      `JSON.stringify` drops as `undefined`. */
  function Project(row: Row, fields: seq<(string, string, Default)>): map<string, Json>
    decreases |fields|
  {
    if |fields| == 0 then map[]
    else
      var rest := Project(row, fields[1..]);
      match FieldValue(row, fields[0].1, fields[0].2)
      case Some(v) => rest[fields[0].0 := v]
      case None => rest - {fields[0].0}
  }

  /** A field no earlier field shares a key with reads its own column. */
  lemma {:induction false} ProjectAt(row: Row, fields: seq<(string, string, Default)>, i: nat)
    requires i < |fields|
    requires forall j :: 0 <= j < i ==> fields[j].0 != fields[i].0
    ensures var (key, col, default) := fields[i];
            var out := Project(row, fields);
            && (key in out <==> FieldValue(row, col, default).Some?)
            && (key in out ==> out[key] == FieldValue(row, col, default).value)
    decreases i
  {
    if i > 0 {
      assert fields[1..][i - 1] == fields[i];
      forall j | 0 <= j < i - 1 ensures fields[1..][j].0 != fields[1..][i - 1].0 {
        assert fields[1..][j] == fields[j + 1];
      }
      ProjectAt(row, fields[1..], i - 1);
    }
  }

  /** The `user` object of user-get. */
  function ProfileJson(row: Row): map<string, Json> {
    Project(row, PROFILE_FIELDS)
  }

  /** Each field of the projection reads its own column with its own
      default: the nine optional fields are null and
      `shouldShowUpgradeDialog` is false when their column is null or
      missing. */
  lemma ProfileJsonFields(row: Row, i: nat)
    requires i < |PROFILE_FIELDS|
    ensures var (key, col, default) := PROFILE_FIELDS[i];
            var out := ProfileJson(row);
            && (key in out <==> FieldValue(row, col, default).Some?)
            && (key in out ==> out[key] == FieldValue(row, col, default).value)
  {
    ProfileKeysDistinct();
    ProjectAt(row, PROFILE_FIELDS, i);
  }

  /** user-get: `{ user: null }` for a caller without a row, the projected
      row otherwise; a read error other than PGRST116 is a 500. */
  function Get(req: Request, rt: Runtime, s: ProfileStore, readFault: Option<DbError>): (r: Response)
    ensures req.corsPreflight ==> r == Preflight
    ensures !req.corsPreflight && GetUser(req, rt).None? ==> r == ErrorResponse("Unauthorized", 401)
    ensures !req.corsPreflight && GetUser(req, rt).Some? && readFault.Some? ==>
              r == (if readFault.value.code != NO_ROWS_CODE then ErrorResponse(readFault.value.message, 500)
                    else JsonResponse(JObj(map["user" := JNull])))
    ensures !req.corsPreflight && GetUser(req, rt).Some? && readFault.None? ==>
              var id := GetUser(req, rt).value.id;
              r == JsonResponse(JObj(map["user" := if id in s then JObj(ProfileJson(s[id])) else JNull]))
  {
    if req.corsPreflight then Preflight
    else match GetUser(req, rt)
      case None => ErrorResponse("Unauthorized", 401)
      case Some(user) =>
        if readFault.Some? && readFault.value.code != NO_ROWS_CODE then ErrorResponse(readFault.value.message, 500)
        else if readFault.Some? || user.id !in s then JsonResponse(JObj(map["user" := JNull]))
        else JsonResponse(JObj(map["user" := JObj(ProfileJson(s[user.id]))]))
  }

  /** user-get reads, for each of the sixteen whitelisted fields, exactly
      the column user-set writes it to. */
  lemma GetReadsWhitelistColumns()
    ensures |WHITELIST| + 1 < |PROFILE_FIELDS|
    ensures forall i | 0 <= i < |WHITELIST| ::
              PROFILE_FIELDS[i + 1].0 == WHITELIST[i].0 && PROFILE_FIELDS[i + 1].1 == WHITELIST[i].1
  {
  }

  /** The caller's row after user-set holds each carried whitelisted
      field in its column, and the caller's id. */
  lemma RowAfterSet(s: ProfileStore, id: string, value: Json, i: nat)
    requires value.JObj? && i < |WHITELIST| && WHITELIST[i].0 in value.fields
    ensures var row := UpsertProfile(s, id, DbFields(id, value))[id];
            && WHITELIST[i].1 in row && row[WHITELIST[i].1] == value.fields[WHITELIST[i].0]
            && "id" in row && row["id"] == JStr(id)
  {
    WhitelistInjective();
    WhitelistedSpec(value.fields, WHITELIST);
    assert WHITELIST[i].1 in DbFields(id, value);
  }

  /** A non-null value in a whitelisted column is read back under the
      field's own name, whatever the field's default. */
  lemma ProjectionReadsBack(row: Row, i: nat)
    requires i < |WHITELIST| && WHITELIST[i].1 in row && row[WHITELIST[i].1] != JNull && "id" in row
    ensures WHITELIST[i].0 in ProfileJson(row) && ProfileJson(row)[WHITELIST[i].0] == row[WHITELIST[i].1]
    ensures "id" in ProfileJson(row) && ProfileJson(row)["id"] == row["id"]
  {
    GetReadsWhitelistColumns();
    ProfileJsonFields(row, i + 1);
    ProfileJsonFields(row, 0);
  }

  /** A value with a key naming an inherited method, "constructor" say,
      writes nothing and is answered with the database's 500, even when
      its other keys are whitelisted fields. */
  lemma InheritedKeyRefused(req: Request, rt: Runtime, s: ProfileStore, schemaError: string, fault: Option<string>, value: Json, k: string)
    requires !req.corsPreflight && GetUser(req, rt).Some?
    requires rt.parseJson(req.body) == Some(JObj(map["value" := value])) && value.JObj?
    requires k in value.fields && k in INHERITED
    ensures Set(req, rt, s, schemaError, fault) == SetOutcome(ErrorResponse(schemaError, 500), s)
  {
    assert Prop(Some(JObj(map["value" := value])), "value") == Got(Some(value));
    assert k in Entries(value).Keys * INHERITED.Keys;
  }

  lemma SetStoresValue(req: Request, rt: Runtime, s: ProfileStore, schemaError: string, value: Json)
    requires !req.corsPreflight && GetUser(req, rt).Some?
    requires rt.parseJson(req.body) == Some(JObj(map["value" := value])) && value.JObj?
    requires !InheritedKey(value)
    ensures Set(req, rt, s, schemaError, None).store == UpsertProfile(s, GetUser(req, rt).value.id, DbFields(GetUser(req, rt).value.id, value))
  {
    assert Prop(Some(JObj(map["value" := value])), "value") == Got(Some(value));
    assert Truthy(Some(value));
  }

  /** What user-set writes, user-get reads back: after a successful write
      of `value`, every whitelisted field it carries with a non-null value
      comes back unchanged, and the row's id is the caller's. */
  lemma SetThenGet(req: Request, rt: Runtime, s: ProfileStore, schemaError: string, value: Json, i: nat)
    requires !req.corsPreflight && GetUser(req, rt).Some?
    requires rt.parseJson(req.body) == Some(JObj(map["value" := value])) && value.JObj?
    requires !InheritedKey(value)
    requires i < |WHITELIST| && WHITELIST[i].0 in value.fields && value.fields[WHITELIST[i].0] != JNull
    ensures var after := Set(req, rt, s, schemaError, None).store;
            var id := GetUser(req, rt).value.id;
            && id in after
            && Get(req, rt, after, None) == JsonResponse(JObj(map["user" := JObj(ProfileJson(after[id]))]))
            && WHITELIST[i].0 in ProfileJson(after[id]) && "id" in ProfileJson(after[id])
            && ProfileJson(after[id])[WHITELIST[i].0] == value.fields[WHITELIST[i].0]
            && ProfileJson(after[id])["id"] == JStr(id)
  {
    var id := GetUser(req, rt).value.id;
    SetStoresValue(req, rt, s, schemaError, value);
    var after := Set(req, rt, s, schemaError, None).store;
    RowAfterSet(s, id, value, i);
    ProjectionReadsBack(after[id], i);
  }
}

=== FILE: release_assets.dfy ===
/** How the web site turns a GitHub release into an update manifest
    (apps/web/src/lib/downloads.tsx): the release tag becomes a version,
    each asset name is classified into manifest keys by the first matching
    pattern (with a keyword fallback), and every key gets the URL of the
    first asset classified into it. The manifest's platforms are kept as
    the list of entries in insertion order, which is the order
    `Object.entries` reports them in. */
module ReleaseAssets {
  import opened Common

  // ---------------------------------------------------------------------------
  // Versions

  /** `/^prefix/i` for a lower-case ASCII `prefix`. */
  predicate StartsWithIgnoringCase(s: string, prefix: string) {
    |prefix| <= |s| && forall i :: 0 <= i < |prefix| ==> LowerChar(s[i]) == prefix[i]
  }

  /** No ASCII capital letter in `s`. */
  predicate NoCapitals(s: string) {
    forall i :: 0 <= i < |s| ==> !('A' <= s[i] <= 'Z')
  }

  /** A prefix present as written is present ignoring case. */
  lemma ExactPrefix(s: string, prefix: string)
    requires StartsWith(s, prefix) && NoCapitals(prefix)
    ensures StartsWithIgnoringCase(s, prefix)
  {
    assert forall i :: 0 <= i < |prefix| ==> s[i] == s[..|prefix|][i];
  }

  /** Removes `prefix` when `s` starts with it, ignoring case: one optional
      group of `/^desktop-(?:gpu-)?(?:dev-)?v?/i`. */
  function StripOptional(s: string, prefix: string): (r: string)
    ensures StartsWithIgnoringCase(s, prefix) ==> r == s[|prefix|..]
    ensures !StartsWithIgnoringCase(s, prefix) ==> r == s
    ensures |r| <= |s| && r == s[|s| - |r|..]
  {
    if StartsWithIgnoringCase(s, prefix) then s[|prefix|..] else s
  }

  /** `trimmed.replace(/^desktop-(?:gpu-)?(?:dev-)?v?/i, "")` for a string
      the pattern matches. */
  function StripChannelPrefix(t: string): (r: string)
    requires StartsWithIgnoringCase(t, "desktop-")
    ensures |r| <= |t| && r == t[|t| - |r|..]
  {
    StripOptional(StripOptional(StripOptional(t[8..], "gpu-"), "dev-"), "v")
  }

  /** A tag starting "desktopv" fails the replacement's "desktop-". */
  lemma DesktopVIsNotDesktopDash(t: string)
    ensures StartsWithIgnoringCase(t, "desktopv") ==> !StartsWithIgnoringCase(t, "desktop-")
  {
    if StartsWithIgnoringCase(t, "desktopv") {
      assert LowerChar(t[7]) == "desktopv"[7];
    }
  }

  /** The non-blank case of `normalizeVersion`, on the trimmed tag. */
  function NormalizeTrimmed(t: string): (r: string)
    ensures |r| <= |t| && r == t[|t| - |r|..]
    ensures StartsWithIgnoringCase(t, "desktopv") ==> r == t
  {
    DesktopVIsNotDesktopDash(t);
    if StartsWithIgnoringCase(t, "desktop-") then StripChannelPrefix(t)
    else if StartsWithIgnoringCase(t, "desktopv") then t
    else if |t| >= 2 && LowerChar(t[0]) == 'v' && IsAsciiDigit(t[1]) then t[1..]
    else t
  }

  /** `normalizeVersion`: a missing or blank tag is "latest"; a tag of the
      release channels loses its `desktop-[gpu-][dev-][v]` prefix; a tag
      `v<digit>…` loses its "v"; anything else is only trimmed. A tag
      `desktopv…` passes the first test but not the replacement, and comes
      back trimmed and otherwise unchanged. */
  function NormalizeVersion(tag: Option<string>): (r: string)
    ensures tag.None? || Trim(tag.value) == "" ==> r == "latest"
    ensures tag.Some? && Trim(tag.value) != "" ==> r == NormalizeTrimmed(Trim(tag.value))
  {
    match tag
    case None => "latest"
    case Some(value) =>
      var t := Trim(value);
      if t == "" then "latest" else NormalizeTrimmed(t)
  }

  /** A string with no white space at either end is its own trim. */
  lemma TrimUntouched(s: string)
    requires |s| > 0 && !IsJsSpace(s[0]) && !IsJsSpace(s[|s| - 1])
    ensures Trim(s) == s
  {
  }

  /** An optional group that is present is removed. */
  lemma StripPresent(s: string, piece: string, rest: string)
    requires s == piece + rest && NoCapitals(piece)
    ensures StripOptional(s, piece) == rest
  {
    ExactPrefix(s, piece);
    assert s[|piece|..] == rest;
  }

  /** An optional group whose first letter differs is left alone. */
  lemma StripAbsent(s: string, piece: string)
    requires |s| > 0 && |piece| > 0 && LowerChar(s[0]) != piece[0]
    ensures StripOptional(s, piece) == s
  {
  }

  /** One optional group, present or not, in front of a rest whose first
      letter differs from the group's. */
  lemma StripGroup(group: string, piece: string, rest: string)
    requires group == "" || group == piece
    requires NoCapitals(piece) && |piece| > 0 && |rest| > 0 && LowerChar(rest[0]) != piece[0]
    ensures StripOptional(group + rest, piece) == rest
  {
    if group == "" {
      assert group + rest == rest;
      StripAbsent(rest, piece);
    } else {
      StripPresent(group + rest, piece, rest);
    }
  }

  /** The channel prefix of a release tag comes off completely. */
  lemma StripChannelOfTag(channel: string, stage: string, version: string)
    requires channel == "" || channel == "gpu-"
    requires stage == "" || stage == "dev-"
    requires |version| > 0 && IsAsciiDigit(version[0])
    ensures StartsWithIgnoringCase("desktop-" + channel + stage + "v" + version, "desktop-")
    ensures StripChannelPrefix("desktop-" + channel + stage + "v" + version) == version
  {
    var afterDev := "v" + version;
    var afterGpu := stage + afterDev;
    var rest := channel + afterGpu;
    var tag := "desktop-" + rest;
    assert tag == "desktop-" + channel + stage + "v" + version;
    assert StartsWithIgnoringCase(tag, "desktop-") by { ExactPrefix(tag, "desktop-"); }
    assert tag[8..] == rest;
    assert StripOptional(rest, "gpu-") == afterGpu by {
      assert afterGpu[0] == 'v' || afterGpu[0] == 'd';
      StripGroup(channel, "gpu-", afterGpu);
    }
    assert StripOptional(afterGpu, "dev-") == afterDev by { StripGroup(stage, "dev-", afterDev); }
    assert StripOptional(afterDev, "v") == version by { StripPresent(afterDev, "v", version); }
  }

  /** The release tags the channels use read back as the version they were
      made from: `desktop-[gpu-][dev-]v<version>` for any version that
      starts with a digit and does not end in white space. */
  lemma TagRoundTrip(channel: string, stage: string, version: string)
    requires channel == "" || channel == "gpu-"
    requires stage == "" || stage == "dev-"
    requires |version| > 0 && IsAsciiDigit(version[0]) && !IsJsSpace(version[|version| - 1])
    ensures NormalizeVersion(Some("desktop-" + channel + stage + "v" + version)) == version
  {
    var tag := "desktop-" + channel + stage + "v" + version;
    assert Trim(tag) == tag by { TrimUntouched(tag); }
    assert NormalizeTrimmed(tag) == version by { StripChannelOfTag(channel, stage, version); }
  }

  /** The same for the plain tag `v<version>`. */
  lemma PlainTagRoundTrip(version: string)
    requires |version| > 0 && IsAsciiDigit(version[0]) && !IsJsSpace(version[|version| - 1])
    ensures NormalizeVersion(Some("v" + version)) == version
  {
    var tag := "v" + version;
    assert tag[0] == 'v' && tag[1] == version[0];
    TrimUntouched(tag);
    NormalizePlainTag(tag);
    assert tag[1..] == version;
  }

  /** A trimmed tag "v" followed by a digit loses only its "v". */
  lemma NormalizePlainTag(t: string)
    requires |t| >= 2 && t[0] == 'v' && IsAsciiDigit(t[1])
    ensures NormalizeTrimmed(t) == t[1..]
  {
    assert LowerChar(t[0]) == 'v';
    assert !StartsWithIgnoringCase(t, "desktop-") by {
      assert LowerChar(t[0]) != "desktop-"[0];
    }
    assert !StartsWithIgnoringCase(t, "desktopv") by {
      assert LowerChar(t[0]) != "desktopv"[0];
    }
  }

  // ---------------------------------------------------------------------------
  // Asset classification

  /** The characters `.` does not match in a JavaScript regular
      expression. */
  predicate IsLineTerminator(c: char) {
    c == '\n' || c == '\r' || c == '\U{2028}' || c == '\U{2029}'
  }

  /** What `.*` can span. */
  predicate OneLine(s: string) {
    forall i :: 0 <= i < |s| ==> !IsLineTerminator(s[i])
  }

  /** The regular expressions of `ASSET_KEY_MAPPINGS`, read on the
      lower-cased asset name. */
  datatype Pattern =
    | CpuPackage(ext: string)  // ^vocally[._](?!gpu).*<ext>$
    | CpuSetupExe              // ^vocally[._](?!gpu).*setup.*\.exe$
    | Suffix(ext: string)      // <ext>$
    | DarwinAppTarGz           // darwin.*\.app\.tar\.gz$
    | GpuPackage(ext: string)  // vocally\.gpu.*<ext>$
    | GpuSetupExe              // vocally\.gpu.*setup.*\.exe$

  /** `^vocally[._](?!gpu)` followed by at least `tail` more characters. */
  predicate CpuPrefix(n: string, tail: nat) {
    |n| >= 8 + tail && n[..7] == "vocally" && (n[7] == '.' || n[7] == '_') && !StartsWith(n[8..], "gpu")
  }

  /** "vocally.gpu" at `i`, followed by at least `tail` more characters. */
  predicate GpuAt(n: string, i: int, tail: nat) {
    OccursAt(n, i, "vocally.gpu") && i + 11 <= |n| - tail
  }

  predicate Matches(p: Pattern, n: string) {
    match p
    case CpuPackage(ext) =>
      CpuPrefix(n, |ext|) && EndsWith(n, ext) && OneLine(n[8..|n| - |ext|])
    case CpuSetupExe =>
      CpuPrefix(n, 4) && EndsWith(n, ".exe") && OneLine(n[8..|n| - 4]) && Contains(n[8..|n| - 4], "setup")
    case Suffix(ext) => EndsWith(n, ext)
    case DarwinAppTarGz =>
      EndsWith(n, ".app.tar.gz")
      && exists i | 0 <= i <= |n| - 17 :: OccursAt(n, i, "darwin") && OneLine(n[i + 6..|n| - 11])
    case GpuPackage(ext) =>
      EndsWith(n, ext) && exists i | 0 <= i <= |n| :: GpuAt(n, i, |ext|) && OneLine(n[i + 11..|n| - |ext|])
    case GpuSetupExe =>
      EndsWith(n, ".exe")
      && exists i | 0 <= i <= |n| :: GpuAt(n, i, 4) && OneLine(n[i + 11..|n| - 4]) && Contains(n[i + 11..|n| - 4], "setup")
  }

  datatype Mapping = Mapping(pattern: Pattern, keys: seq<string>)

  const ASSET_KEY_MAPPINGS: seq<Mapping> := [
    Mapping(CpuPackage(".appimage"), ["linux-x86_64", "linux-x86_64-appimage"]),
    Mapping(CpuPackage(".deb"), ["linux-x86_64-deb"]),
    Mapping(CpuPackage(".rpm"), ["linux-x86_64-rpm"]),
    Mapping(Suffix(".app.tar.gz"), ["darwin-universal"]),
    Mapping(Suffix(".dmg"), ["darwin-universal"]),
    Mapping(DarwinAppTarGz, ["darwin-aarch64", "darwin-x86_64", "darwin-aarch64-app", "darwin-x86_64-app"]),
    Mapping(CpuPackage(".msi"), ["windows-x86_64", "windows-x86_64-msi"]),
    Mapping(CpuSetupExe, ["windows-x86_64-nsis"]),
    Mapping(GpuPackage(".appimage"), ["linux-x86_64-gpu"]),
    Mapping(GpuPackage(".deb"), ["linux-x86_64-gpu-deb"]),
    Mapping(GpuPackage(".rpm"), ["linux-x86_64-gpu-rpm"]),
    Mapping(GpuPackage(".msi"), ["windows-x86_64-gpu"]),
    Mapping(GpuSetupExe, ["windows-x86_64-gpu-nsis"])
  ]

  /** The index of the first mapping whose pattern matches `n`. */
  function FirstMatch(ms: seq<Mapping>, n: string): (r: Option<nat>)
    ensures r.Some? ==> r.value < |ms| && Matches(ms[r.value].pattern, n)
    ensures r.Some? ==> forall j :: 0 <= j < r.value ==> !Matches(ms[j].pattern, n)
    ensures r.None? ==> forall j :: 0 <= j < |ms| ==> !Matches(ms[j].pattern, n)
    decreases |ms|
  {
    if |ms| == 0 then None
    else if Matches(ms[0].pattern, n) then Some(0)
    else
      match FirstMatch(ms[1..], n)
      case None => None
      case Some(k) => Some(k + 1)
  }

  const DARWIN_KEYS: seq<string> := ["darwin-aarch64", "darwin-x86_64"]

  /** The keys for an already lower-cased name: the first matching mapping,
      else the keyword fallback, in which ".json" files are skipped and a
      "win" anywhere (so also "windows") means Windows. */
  function KeysFor(n: string): (r: Option<seq<string>>)
    ensures FirstMatch(ASSET_KEY_MAPPINGS, n).Some? ==> r == Some(ASSET_KEY_MAPPINGS[FirstMatch(ASSET_KEY_MAPPINGS, n).value].keys)
    ensures FirstMatch(ASSET_KEY_MAPPINGS, n).None? ==> r == Fallback(n)
  {
    match FirstMatch(ASSET_KEY_MAPPINGS, n)
    case Some(j) => Some(ASSET_KEY_MAPPINGS[j].keys)
    case None => Fallback(n)
  }

  /** The keyword fallback after the mappings. */
  function Fallback(n: string): (r: Option<seq<string>>)
    ensures r.Some? ==> |r.value| > 0
  {
    if EndsWith(n, ".json") then None
    else if Contains(n, "darwin") || Contains(n, "mac") then Some(DARWIN_KEYS)
    else if Contains(n, "windows") || Contains(n, "win") then Some(["windows-x86_64"])
    else if Contains(n, "linux") then Some(["linux-x86_64"])
    else None
  }

  /** `resolveManifestKeys` */
  function ResolveManifestKeys(name: string): (r: Option<seq<string>>)
    ensures r == KeysFor(Lower(name))
  {
    KeysFor(Lower(name))
  }

  /** The keyword fallback, taken in order when no pattern matches: a
      ".json" name gets no key, and "windows" needs no test of its own
      since it contains "win". */
  lemma FallbackOrder(n: string)
    ensures EndsWith(n, ".json") ==> Fallback(n).None?
    ensures !EndsWith(n, ".json") && (Contains(n, "darwin") || Contains(n, "mac")) ==> Fallback(n) == Some(DARWIN_KEYS)
    ensures (!EndsWith(n, ".json") && !Contains(n, "darwin") && !Contains(n, "mac") && Contains(n, "win"))
      ==> Fallback(n) == Some(["windows-x86_64"])
    ensures (!EndsWith(n, ".json") && !Contains(n, "darwin") && !Contains(n, "mac") && !Contains(n, "win") && Contains(n, "linux"))
      ==> Fallback(n) == Some(["linux-x86_64"])
    ensures (!Contains(n, "darwin") && !Contains(n, "mac") && !Contains(n, "win") && !Contains(n, "linux"))
      ==> Fallback(n).None?
  {
    if Contains(n, "windows") {
      var i :| 0 <= i <= |n| - 7 && OccursAt(n, i, "windows");
      assert n[i..i + 3] == n[i..i + 7][..3] == "win";
      assert OccursAt(n, i, "win");
    }
  }

  /** The per-architecture darwin mapping can never be chosen: every name it
      matches ends in ".app.tar.gz" and so already matches the earlier
      universal mapping. */
  lemma DarwinMappingUnreachable(n: string)
    ensures FirstMatch(ASSET_KEY_MAPPINGS, n) != Some(5)
  {
    if Matches(ASSET_KEY_MAPPINGS[5].pattern, n) {
      assert Matches(ASSET_KEY_MAPPINGS[3].pattern, n);
    }
  }

  /** A CPU package name (`vocally.` or `vocally_` not followed by "gpu")
      on one line resolves to the CPU keys of its package type. */
  lemma CpuPackagesResolve(n: string, j: nat)
    requires j in {0, 1, 2}
    requires CpuPrefix(n, |ASSET_KEY_MAPPINGS[j].pattern.ext|) && EndsWith(n, ASSET_KEY_MAPPINGS[j].pattern.ext) && OneLine(n)
    ensures KeysFor(n) == Some(ASSET_KEY_MAPPINGS[j].keys)
  {
    var ext := ASSET_KEY_MAPPINGS[j].pattern.ext;
    assert n[8..|n| - |ext|] == n[8..][..|n| - |ext| - 8];
    assert OneLine(n[8..|n| - |ext|]);
    assert Matches(ASSET_KEY_MAPPINGS[j].pattern, n);
    if j == 1 {
      assert !Matches(ASSET_KEY_MAPPINGS[0].pattern, n) by { assert n[|n| - 1] == 'b'; }
    } else if j == 2 {
      assert !Matches(ASSET_KEY_MAPPINGS[0].pattern, n) by { assert n[|n| - 1] == 'm'; }
      assert !Matches(ASSET_KEY_MAPPINGS[1].pattern, n) by { assert n[|n| - 1] == 'm'; }
    }
  }

  /** The suffix every name a pattern matches ends with. */
  function RequiredSuffix(p: Pattern): string {
    match p
    case CpuPackage(ext) => ext
    case CpuSetupExe => ".exe"
    case Suffix(ext) => ext
    case DarwinAppTarGz => ".app.tar.gz"
    case GpuPackage(ext) => ext
    case GpuSetupExe => ".exe"
  }

  lemma MatchesEndsWith(p: Pattern, n: string)
    requires Matches(p, n)
    ensures EndsWith(n, RequiredSuffix(p))
    ensures (p.CpuPackage? || p.CpuSetupExe?) ==> !StartsWith(n[8..], "gpu")
    ensures |RequiredSuffix(p)| > 0 ==> n[|n| - 1] == RequiredSuffix(p)[|RequiredSuffix(p)| - 1]
  {
    var e := RequiredSuffix(p);
    if |e| > 0 {
      assert n[|n| - 1] == n[|n| - |e|..][|e| - 1];
    }
  }

  /** A name whose last character differs from the pattern's required
      suffix's does not match. */
  lemma NotMatchedByEnding(p: Pattern, n: string)
    requires |RequiredSuffix(p)| > 0 && |n| > 0 && n[|n| - 1] != RequiredSuffix(p)[|RequiredSuffix(p)| - 1]
    ensures !Matches(p, n)
  {
    if Matches(p, n) {
      MatchesEndsWith(p, n);
    }
  }

  /** A name with "gpu" right after `vocally.` matches no CPU pattern. */
  lemma NotMatchedAsCpu(p: Pattern, n: string)
    requires p.CpuPackage? || p.CpuSetupExe?
    requires |n| >= 11 && n[8..11] == "gpu"
    ensures !Matches(p, n)
  {
    assert n[8..][..3] == n[8..11];
  }

  /** The first match is the one at `j` when no earlier pattern matches. */
  lemma FirstMatchAt(ms: seq<Mapping>, n: string, j: nat)
    requires j < |ms| && Matches(ms[j].pattern, n)
    requires forall k :: 0 <= k < j ==> !Matches(ms[k].pattern, n)
    ensures FirstMatch(ms, n) == Some(j)
  {
  }

  /** A GPU package name starting with "vocally.gpu" on one line never
      takes a CPU key: it resolves to the GPU key of its package type. */
  lemma GpuPackagesResolve(n: string, j: nat)
    requires j in {8, 9, 10, 11}
    requires StartsWith(n, "vocally.gpu") && |n| >= 11 + |ASSET_KEY_MAPPINGS[j].pattern.ext|
    requires EndsWith(n, ASSET_KEY_MAPPINGS[j].pattern.ext) && OneLine(n)
    ensures KeysFor(n) == Some(ASSET_KEY_MAPPINGS[j].keys)
  {
    var ms := ASSET_KEY_MAPPINGS;
    var ext := ms[j].pattern.ext;
    assert Matches(ms[j].pattern, n) by {
      assert GpuAt(n, 0, |ext|);
      assert OneLine(n[11..|n| - |ext|]);
    }
    assert n[8..11] == "gpu" by { assert n[..11] == "vocally.gpu"; }
    var last := n[|n| - 1];
    assert last == ext[|ext| - 1] by { assert n[|n| - 1] == n[|n| - |ext|..][|ext| - 1]; }
    assert last in {'e', 'b', 'm', 'i'};
    forall k | 0 <= k < j
      ensures !Matches(ms[k].pattern, n)
    {
      if k in {0, 1, 2, 6, 7} {
        NotMatchedAsCpu(ms[k].pattern, n);
      } else {
        NotMatchedByEnding(ms[k].pattern, n);
      }
    }
    FirstMatchAt(ms, n, j);
  }

  // ---------------------------------------------------------------------------
  // Manifest building

  datatype Asset = Asset(name: string, url: string)

  /** The release fields the transformation reads; absent ones are `None`. */
  datatype Release = Release(
    tagName: Option<string>,
    name: Option<string>,
    body: Option<string>,
    publishedAt: Option<string>,
    assets: Option<seq<Asset>>)

  datatype Details = Details(signature: string, url: string)

  /** A manifest's platforms as `Object.entries` lists them; a value may be
      missing (`undefined` or `null` in a fetched manifest). */
  type Platforms = seq<(string, Option<Details>)>

  datatype Manifest = Manifest(version: string, notes: string, pubDate: string, platforms: Platforms)

  /** `platforms[key]`: the value stored under the key, if the key is
      present. */
  function Lookup(ps: Platforms, key: string): (r: Option<Option<Details>>)
    ensures r.Some? <==> exists i | 0 <= i < |ps| :: ps[i].0 == key
    decreases |ps|
  {
    if |ps| == 0 then None
    else if ps[0].0 == key then Some(ps[0].1)
    else
      var r := Lookup(ps[1..], key);
      assert forall i | 1 <= i < |ps| :: ps[i] == ps[1..][i - 1];
      r
  }

  lemma {:induction false} LookupAppend(ps: Platforms, key: string, entry: (string, Option<Details>))
    ensures Lookup(ps + [entry], key)
      == if Lookup(ps, key).Some? then Lookup(ps, key) else if entry.0 == key then Some(entry.1) else None
    decreases |ps|
  {
    if |ps| > 0 {
      assert (ps + [entry])[1..] == ps[1..] + [entry];
      LookupAppend(ps[1..], key, entry);
    }
  }

  /** The inner loop: every key not yet present gets this asset's URL. */
  function AddKeys(ps: Platforms, keys: seq<string>, url: string): (r: Platforms)
    ensures |r| >= |ps| && r[..|ps|] == ps
    decreases |keys|
  {
    if |keys| == 0 then ps
    else
      var next := if Lookup(ps, keys[0]).Some? then ps else ps + [(keys[0], Some(Details("", url)))];
      AddKeys(next, keys[1..], url)
  }

  /** The outer loop over the assets. */
  function Collect(ps: Platforms, assets: seq<Asset>): (r: Platforms)
    ensures |r| >= |ps| && r[..|ps|] == ps
    decreases |assets|
  {
    if |assets| == 0 then ps
    else
      var next := match ResolveManifestKeys(assets[0].name)
        case None => ps
        case Some(keys) => AddKeys(ps, keys, assets[0].url);
      Collect(next, assets[1..])
  }

  /** The reference definition: the URL of the first asset classified into
      `key`. */
  function FirstAssetUrl(assets: seq<Asset>, key: string): Option<string>
    decreases |assets|
  {
    if |assets| == 0 then None
    else
      var keys := ResolveManifestKeys(assets[0].name);
      if keys.Some? && key in keys.value then Some(assets[0].url) else FirstAssetUrl(assets[1..], key)
  }

  /** The entry a key first gets. */
  function Entry(url: Option<string>): Option<Option<Details>> {
    match url
    case None => None
    case Some(u) => Some(Some(Details("", u)))
  }

  lemma {:induction false} AddKeysLookup(ps: Platforms, keys: seq<string>, url: string, key: string)
    ensures Lookup(AddKeys(ps, keys, url), key)
      == if Lookup(ps, key).Some? then Lookup(ps, key) else if key in keys then Entry(Some(url)) else None
    decreases |keys|
  {
    if |keys| > 0 {
      var next := if Lookup(ps, keys[0]).Some? then ps else ps + [(keys[0], Some(Details("", url)))];
      if Lookup(ps, keys[0]).None? {
        LookupAppend(ps, key, (keys[0], Some(Details("", url))));
      }
      AddKeysLookup(next, keys[1..], url, key);
      assert key in keys <==> key == keys[0] || key in keys[1..];
    }
  }

  /** First asset wins: after the loops a key holds what it held before, or
      else the URL of the first asset classified into it, with an empty
      signature. */
  lemma {:induction false} CollectLookup(ps: Platforms, assets: seq<Asset>, key: string)
    ensures Lookup(Collect(ps, assets), key)
      == if Lookup(ps, key).Some? then Lookup(ps, key) else Entry(FirstAssetUrl(assets, key))
    decreases |assets|
  {
    if |assets| > 0 {
      var next := match ResolveManifestKeys(assets[0].name)
        case None => ps
        case Some(keys) => AddKeys(ps, keys, assets[0].url);
      if ResolveManifestKeys(assets[0].name).Some? {
        AddKeysLookup(ps, ResolveManifestKeys(assets[0].name).value, assets[0].url, key);
      }
      CollectLookup(next, assets[1..], key);
    }
  }

  /** `transformGithubRelease`; `now` is the current time as an ISO
      string, used when the release has no publication date. */
  function TransformGithubRelease(release: Release, now: string): (r: Option<Manifest>)
    ensures r.Some? ==> |r.value.platforms| > 0
    ensures r.Some? ==> r.value.version == NormalizeVersion(if release.tagName.Some? then release.tagName else release.name)
    ensures r.Some? ==> r.value.notes == release.body.GetOr("") && r.value.pubDate == release.publishedAt.GetOr(now)
  {
    var ps := Collect([], release.assets.GetOr([]));
    if |ps| == 0 then None
    else
      Some(Manifest(
        NormalizeVersion(if release.tagName.Some? then release.tagName else release.name),
        release.body.GetOr(""), release.publishedAt.GetOr(now), ps))
  }

  /** Every key of the built manifest holds the first URL for it, and the
      manifest is missing exactly when no asset is classified at all. */
  lemma TransformFirstAssetWins(release: Release, now: string, key: string)
    ensures TransformGithubRelease(release, now).Some?
      ==> Lookup(TransformGithubRelease(release, now).value.platforms, key) == Entry(FirstAssetUrl(release.assets.GetOr([]), key))
    ensures TransformGithubRelease(release, now).None?
      ==> FirstAssetUrl(release.assets.GetOr([]), key).None?
  {
    CollectLookup([], release.assets.GetOr([]), key);
    if Collect([], release.assets.GetOr([])) == [] {
      assert Lookup([], key).None?;
    }
  }
}

=== FILE: transcribe.dfy ===
/** Speech-to-text metering, transcribe/index.ts: word counting, the MIME
    type to file extension table, the monthly word cap, the form sent to
    the transcription API and the usage the function records. */
module Transcribe {
  import opened Common
  import opened JsonValues
  import opened Http
  import opened Members
  import Limits

  // ---------------------------------------------------------------------------
  // Word counting

  /** The characters `\s` matches, as a set. */
  const JS_SPACES: set<char> := {
    '\t', '\n', '\U{000B}', '\U{000C}', '\r', ' ', '\U{00A0}', '\U{1680}',
    '\U{2000}', '\U{2001}', '\U{2002}', '\U{2003}', '\U{2004}', '\U{2005}',
    '\U{2006}', '\U{2007}', '\U{2008}', '\U{2009}', '\U{200A}',
    '\U{2028}', '\U{2029}', '\U{202F}', '\U{205F}', '\U{3000}', '\U{FEFF}'}

  lemma JsSpacesExact(c: char)
    ensures c in JS_SPACES <==> IsJsSpace(c)
  {
  }

  /** `pieces.filter(Boolean).length` */
  function NonEmpty(pieces: seq<string>): nat
    decreases |pieces|
  {
    if |pieces| == 0 then 0 else (if pieces[0] != "" then 1 else 0) + NonEmpty(pieces[1..])
  }

  /** `countWords(text)`: `text.trim().split(/\s+/).filter(Boolean).length`.
      Splitting on single whitespace characters instead of runs of them
      only adds empty pieces, which the filter drops. */
  function CountWords(text: string): nat {
    NonEmpty(SplitOn(Trim(text), JS_SPACES))
  }

  /** Reference count: the positions where a maximal non-whitespace run
      starts; `afterSpace` says whether position 0 follows whitespace (or
      the start of the text). */
  function WordStarts(s: string, afterSpace: bool): nat
    decreases |s|
  {
    if |s| == 0 then 0
    else (if afterSpace && !IsJsSpace(s[0]) then 1 else 0) + WordStarts(s[1..], IsJsSpace(s[0]))
  }

  lemma {:induction false} SplitCountsWordStarts(s: string)
    ensures NonEmpty(SplitOn(s, JS_SPACES)) == WordStarts(s, true)
    decreases |s|
  {
    if |s| > 0 {
      var t := s[1..];
      var rest := SplitOn(t, JS_SPACES);
      SplitCountsWordStarts(t);
      JsSpacesExact(s[0]);
      if s[0] in JS_SPACES {
        assert SplitOn(s, JS_SPACES) == [""] + rest;
        assert ([""] + rest)[1..] == rest;
      } else {
        var pieces := [[s[0]] + rest[0]] + rest[1..];
        assert SplitOn(s, JS_SPACES) == pieces;
        assert pieces[1..] == rest[1..];
        assert NonEmpty(rest) == (if rest[0] != "" then 1 else 0) + NonEmpty(rest[1..]);
        FirstPieceNonEmpty(t);
        if |t| > 0 {
          JsSpacesExact(t[0]);
        }
      }
    }
  }

  /** The first piece is empty exactly when the text is empty or starts
      with whitespace; the count from a non-space position differs by that
      start. */
  lemma FirstPieceNonEmpty(t: string)
    ensures SplitOn(t, JS_SPACES)[0] != "" <==> |t| > 0 && t[0] !in JS_SPACES
    ensures WordStarts(t, true) == WordStarts(t, false) + (if |t| > 0 && !IsJsSpace(t[0]) then 1 else 0)
  {
  }

  lemma {:induction false} TrimStartKeepsWordStarts(s: string)
    ensures WordStarts(TrimStart(s), true) == WordStarts(s, true)
    decreases |s|
  {
    if |s| > 0 && IsJsSpace(s[0]) {
      TrimStartKeepsWordStarts(s[1..]);
    }
  }

  /** Whitespace after position `k` starts no word. */
  lemma {:induction false} SpaceSuffixKeepsWordStarts(s: string, k: nat, a: bool)
    requires k <= |s|
    requires forall i :: k <= i < |s| ==> IsJsSpace(s[i])
    ensures WordStarts(s, a) == WordStarts(s[..k], a)
    decreases |s|
  {
    if k == 0 {
      AllSpaceNoWordStarts(s, a);
    } else {
      assert s[..k][1..] == s[1..][..k - 1];
      SpaceSuffixKeepsWordStarts(s[1..], k - 1, IsJsSpace(s[0]));
    }
  }

  lemma {:induction false} AllSpaceNoWordStarts(s: string, a: bool)
    requires forall i :: 0 <= i < |s| ==> IsJsSpace(s[i])
    ensures WordStarts(s, a) == 0
    decreases |s|
  {
    if |s| > 0 {
      AllSpaceNoWordStarts(s[1..], true);
    }
  }

  /** `countWords` counts the maximal runs of non-whitespace characters. */
  lemma CountWordsIsWordStarts(text: string)
    ensures CountWords(text) == WordStarts(text, true)
  {
    var start := TrimStart(text);
    SplitCountsWordStarts(Trim(text));
    SpaceSuffixKeepsWordStarts(start, |TrimEnd(start)|, true);
    TrimStartKeepsWordStarts(text);
  }

  /** Text counts no words exactly when it is all whitespace (the empty text
      included). */
  lemma CountWordsZero(text: string)
    ensures CountWords(text) == 0 <==> forall i :: 0 <= i < |text| ==> IsJsSpace(text[i])
  {
    CountWordsIsWordStarts(text);
    if forall i :: 0 <= i < |text| ==> IsJsSpace(text[i]) {
      AllSpaceNoWordStarts(text, true);
    } else {
      var i :| 0 <= i < |text| && !IsJsSpace(text[i]);
      SomeWordStart(text, i);
    }
  }

  lemma {:induction false} SomeWordStart(s: string, i: nat)
    requires i < |s| && !IsJsSpace(s[i])
    ensures WordStarts(s, true) > 0
    decreases |s|
  {
    if IsJsSpace(s[0]) {
      SomeWordStart(s[1..], i - 1);
    }
  }

  // ---------------------------------------------------------------------------
  // MIME types and the cap

  const MIME_EXTENSIONS: map<string, string> := map[
    "audio/wav" := "wav", "audio/wave" := "wav", "audio/x-wav" := "wav",
    "audio/webm" := "webm", "audio/mp4" := "mp4", "audio/mpeg" := "mp3",
    "audio/ogg" := "ogg", "audio/flac" := "flac"]

  /** `mimeToExt(mime)`: the table's extension, "wav" for anything else. */
  function MimeToExt(mime: string): (r: string)
    ensures mime in MIME_EXTENSIONS ==> r == MIME_EXTENSIONS[mime]
    ensures mime in INHERITED ==> r == NativeSource(INHERITED[mime])
    ensures mime !in MIME_EXTENSIONS && mime !in INHERITED ==> r == "wav"
    ensures r in {"wav", "webm", "mp4", "mp3", "ogg", "flac"} <==> mime !in INHERITED
  {
    if mime in MIME_EXTENSIONS && MIME_EXTENSIONS[mime] != "" then MIME_EXTENSIONS[mime]
    // an inherited method is truthy, and the template literal renders its source
    else if mime in INHERITED then NativeSource(INHERITED[mime])
    else "wav"
  }

  lemma MimeTable()
    ensures MimeToExt("audio/wav") == MimeToExt("audio/wave") == MimeToExt("audio/x-wav") == "wav"
    ensures MimeToExt("audio/webm") == "webm" && MimeToExt("audio/mp4") == "mp4"
    ensures MimeToExt("audio/mpeg") == "mp3" && MimeToExt("audio/ogg") == "ogg"
    ensures MimeToExt("audio/flac") == "flac"
  {
  }

  /** The monthly word cap a member's plan gets. */
  function MonthlyWordCap(plan: string): (r: int)
    ensures r == (if plan == PLAN_PRO then Limits.FULL_CONFIG.proWordsPerMonth else Limits.FULL_CONFIG.freeWordsPerMonth)
  {
    if plan == PLAN_PRO then 100_000 else 500
  }

  // ---------------------------------------------------------------------------
  // The request

  /** The multipart form sent for transcription; `audio` is the base64
      text the blob is decoded from. */
  datatype Form = Form(audio: Json, fileName: string, fileType: string, model: string,
                       language: string, prompt: Option<string>)

  const TRANSCRIPTION_MODEL: string := "whisper-large-v3-turbo"
  const DEFAULT_MIME: string := "audio/wav"
  const DEFAULT_LANGUAGE: string := "ko"

  /** The form built from the request body's fields. */
  function RequestForm(audio: Json, body: Json): (f: Form)
    ensures !Truthy(OptProp(Some(body), "audioMimeType")) ==> f.fileType == DEFAULT_MIME && f.fileName == "audio.wav"
    ensures f.fileName == "audio." + MimeToExt(f.fileType)
    ensures !Truthy(OptProp(Some(body), "language")) ==> f.language == DEFAULT_LANGUAGE
    ensures f.prompt.Some? <==> Truthy(OptProp(Some(body), "prompt"))
    ensures f.model == TRANSCRIPTION_MODEL && f.audio == audio
  {
    var mime := JsString(Or(OptProp(Some(body), "audioMimeType"), JStr(DEFAULT_MIME)));
    var prompt := OptProp(Some(body), "prompt");
    Form(audio, "audio." + MimeToExt(mime), mime, TRANSCRIPTION_MODEL,
         JsString(Or(OptProp(Some(body), "language"), JStr(DEFAULT_LANGUAGE))),
         if Truthy(prompt) then Some(JsString(prompt.value)) else None)
  }

  /** The transcription service: whether `atob` accepts the audio text,
      and the provider's answer to the form sent with an `Authorization`
      header (`None` when `fetch` rejects). */
  datatype Groq = Groq(atobAccepts: string -> bool, transcribe: (string, Form) -> Option<FetchReply>)

  /** `increment_member_usage(p_member_id, p_words, p_tokens)` as called. */
  datatype Usage = Usage(memberId: string, words: nat, tokens: nat)

  datatype Outcome = Outcome(response: Response, form: Option<Form>, usage: Option<Usage>)

  /** The request handler. Everything after the caller is known runs in a
      `try`, so an exception is answered with 500 and its message
      (`thrown`). */
  function Handle(req: Request, rt: Runtime, s: Store, readFault: Option<DbError>, groq: Groq, thrown: string): (o: Outcome)
    ensures req.corsPreflight ==> o == Outcome(Preflight, None, None)
    ensures !req.corsPreflight && GetUser(req, rt).None? ==> o == Outcome(ErrorResponse("Unauthorized", 401), None, None)
    ensures !req.corsPreflight && GetUser(req, rt).Some? && rt.parseJson(req.body).None? ==>
              o == Outcome(ErrorResponse(thrown, 500), None, None)
    ensures (!req.corsPreflight && GetUser(req, rt).Some? && rt.parseJson(req.body).Some?
             && rt.parseJson(req.body).value != JNull && !Truthy(OptProp(rt.parseJson(req.body), "audioBase64"))) ==>
              o == Outcome(ErrorResponse("audioBase64 is required"), None, None)
    ensures (!req.corsPreflight && GetUser(req, rt).Some? && Truthy(OptProp(rt.parseJson(req.body), "audioBase64"))) ==>
              if EnvValue(rt, "GROQ_API_KEY").None? then o == Outcome(ErrorResponse("GROQ_API_KEY not configured", 500), None, None)
              else match ReadSingle(s, GetUser(req, rt).value.id, readFault)
                case Failed(_) => o == Outcome(ErrorResponse("Member not initialized. Call member-init first.", 403), None, None)
                case Row(m) =>
                  m.wordsThisMonth >= MonthlyWordCap(m.plan) <==> o == Outcome(ErrorResponse("Monthly word limit reached", 429), None, None)
    // the provider is asked only below the cap, with the form the body describes
    ensures o.form.Some? ==>
              && GetUser(req, rt).Some? && rt.parseJson(req.body).Some?
              && ReadSingle(s, GetUser(req, rt).value.id, readFault).Row?
              && (var m := ReadSingle(s, GetUser(req, rt).value.id, readFault).row;
                  m.wordsThisMonth < MonthlyWordCap(m.plan))
              && Truthy(OptProp(rt.parseJson(req.body), "audioBase64"))
              && o.form.value == RequestForm(OptProp(rt.parseJson(req.body), "audioBase64").value, rt.parseJson(req.body).value)
    // usage is recorded exactly on success, for the caller, as the reply's word count
    ensures o.usage.Some? <==> o.response.Reply? && o.response.status == 200
    ensures o.usage.Some? ==>
              && o.form.Some? && GetUser(req, rt).Some?
              && o.usage.value.memberId == GetUser(req, rt).value.id && o.usage.value.tokens == 0
              && o.response.body.JObj? && "text" in o.response.body.fields && o.response.body.fields["text"].JStr?
              && o.usage.value.words == CountWords(o.response.body.fields["text"].s)
  {
    if req.corsPreflight then Outcome(Preflight, None, None)
    else match GetUser(req, rt)
      case None => Outcome(ErrorResponse("Unauthorized", 401), None, None)
      case Some(user) =>
        var caught := Outcome(ErrorResponse(thrown, 500), None, None);
        match rt.parseJson(req.body)
        case None => caught
        case Some(body) =>
          match Prop(Some(body), "audioBase64")
          case Threw => caught
          case Got(audio) =>
            if !Truthy(audio) then Outcome(ErrorResponse("audioBase64 is required"), None, None)
            else match EnvValue(rt, "GROQ_API_KEY")
              case None => Outcome(ErrorResponse("GROQ_API_KEY not configured", 500), None, None)
              case Some(key) =>
                match ReadSingle(s, user.id, readFault)
                case Failed(_) => Outcome(ErrorResponse("Member not initialized. Call member-init first.", 403), None, None)
                case Row(m) =>
                  if m.wordsThisMonth >= MonthlyWordCap(m.plan) then
                    Outcome(ErrorResponse("Monthly word limit reached", 429), None, None)
                  else if !groq.atobAccepts(JsString(audio.value)) then caught
                  else
                    var form := RequestForm(audio.value, body);
                    Transcribed(user, form, groq.transcribe(BEARER + key, form), rt, thrown)
  }

  /** What follows the provider's reply: 502 for a refusal, the transcript
      and its word count otherwise. */
  function Transcribed(user: AuthUser, form: Form, reply: Option<FetchReply>, rt: Runtime, thrown: string): (o: Outcome)
    ensures o.form == Some(form)
    ensures reply.Some? && !reply.value.ok ==>
              o.response == ErrorResponse("Groq API error: " + IntToString(reply.value.status) + " " + reply.value.body, 502)
    ensures o.usage.Some? <==> o.response.Reply? && o.response.status == 200
    ensures o.usage.Some? ==>
              && o.usage.value.memberId == user.id && o.usage.value.tokens == 0
              && o.response.body.JObj? && "text" in o.response.body.fields && o.response.body.fields["text"].JStr?
              && o.usage.value.words == CountWords(o.response.body.fields["text"].s)
  {
    var caught := Outcome(ErrorResponse(thrown, 500), Some(form), None);
    match reply
    case None => caught
    case Some(r) =>
      if !r.ok then
        Outcome(ErrorResponse("Groq API error: " + IntToString(r.status) + " " + r.body, 502), Some(form), None)
      else match rt.parseJson(r.body)
        case None => caught
        case Some(result) =>
          match Prop(Some(result), "text")
          case Threw => caught
          case Got(t) =>
            var text := Or(t, JStr(""));
            // `text.trim` is not a function unless the text is a string
            if !text.JStr? then caught
            else Outcome(JsonResponse(JObj(map["text" := text])), Some(form),
                         Some(Usage(user.id, CountWords(text.s), 0)))
  }

  /** A reply without a transcript records zero words. */
  lemma MissingTextCountsZero(user: AuthUser, form: Form, rt: Runtime, thrown: string, body: string)
    requires rt.parseJson(body) == Some(JObj(map[]))
    ensures var o := Transcribed(user, form, Some(FetchReply(true, 200, body)), rt, thrown);
            o.usage == Some(Usage(user.id, 0, 0)) && o.response == JsonResponse(JObj(map["text" := JStr("")]))
  {
    assert Prop(Some(JObj(map[])), "text") == Got(None);
    CountWordsIsWordStarts("");
  }
}
